=== FILE: README.md ===
# Progression and achievement core of the NeuroLabX game suite

NeuroLabX is a browser game suite. Learners earn experience points (XP), credits, a daily
login streak, badges and per-module completion records across many mini-games. This project
models the part that keeps those numbers:

- the user store's actions: `setLanguage`, `fetchUserData`, `updateProgress`, `addBadge`
  and `updateStreak`;
- the progress writes every game makes when a learner plays: through the store, or directly
  against the `user_progress`, `badges` and `module_completion` tables;
- the dashboard views that read the results: the level card, the subject grid and the badge
  collection;
- the daily spin wheel.

The model is written in Dafny.

## How it is organised

**Shared modules**
- `Basics`: `Option`, `Max`, sums and number formatting.
- `Completion`: a `module_completion` row and the four ways the games write one. These are
  read-modify-write attempts, the circuit step, the logic-gate merge and blind upserts.
- `Backend`: one learner's persisted rows and the direct writes games make to them.
- `UserStore`: the store as a pair of persisted rows and cached copies.
- `Sync`: the events a game emits, and how replaying them changes the store and the tables.
- `LogicGates`: the truth table shared by both logic-gate games.

**One module per game or dashboard file.** Each game module has:
- the game state and its handlers as pure functions returning the new state and the events
  emitted;
- a `Valid` invariant with a step lemma;
- a `Play` fold over a sequence of moves;
- lemmas stating how much XP a whole session credits.

**Modelling choices**
- A handler reads the state of the render in which it was created. In a sequential model
  that is the state before the move. Four games depend on this, and each is modelled as
  written:
  - NumberAdventure's final credit reads the total before the last answer
    (`NumberAdventure.HandleAnswer`).
  - The class 6 logic gates check completion on the state before the move
    (`LogicGateClass6.Step`).
  - Photosynthesis: the drop zone's react-dnd spec is built at mount, so every drop runs the
    first render's handler, which starts from the initial state
    (`Photosynthesis.HandleDropAsWritten`).
  - ShapeBuilder: the drop zone's `active` test and the shape's `canDrag` test are built at
    mount, so a placed shape can be dropped again (`ShapeBuilder.Step`).
- Two more drop zones keep their first render's handler without changing the outcome.
  - The circuit builder's handler reads only `state.completed` from its render. A completed
    circuit hides every zone, and the handler updates through `setState(prev => ...)`
    (`CircuitBuilder.HandleDrop`).
  - The organic reaction slots call a handler that only makes functional updates.
- A handler built at mount also sees the signed-in learner of that render. The model takes
  signing in as fixed for the whole game.
- User ids are left out, because the world holds one learner. Whether a learner is signed in
  is a parameter.
- Dates are day numbers.
- Random choices, `Date.now()` ids and the current day are parameters.

**Behaviour of the code worth knowing.** Each entry gives what the code does, then what a
reader might expect instead. The model follows the code.
- `updateProgress` adds the delta to the cached total. One might expect the persisted total,
  which direct writes may have changed (Findings, first row).
- `updateProgress` does nothing when no progress row is cached or stored. It never creates a
  missing row with zero totals.
- `addBadge` checks for duplicates against the cached list only, and relies on the table to
  refuse a stored duplicate.
- A failed badge insert leaves the cache unchanged.
- Most games write the tables directly instead of going through the store, so the cache can
  fall behind the table.
- A module's completed status is not sticky. A later in-progress attempt overwrites it
  (Findings, second row).
- Blind upserts reset the attempt count to 1 and can lower the best score.
  A read-modify-write never does either.
- The streak compares UTC calendar days.

**What the model assumes of the database.**
- Backend.InsertBadge, Backend.InsertBadgeTolerant, Backend.InsertBadgeIfNameAbsent,
  UserStore.AddBadge and the direct badge inserts of `Sync`: the `badges` table is unique on
  (badge_name, module_name).
  - A second insert of a stored pair fails with a duplicate-key error and changes nothing.
  - The SQL dungeon and the IoT city swallow exactly that error
    (src/components/games/technology/SQLDataDungeonGame.tsx:311 and
    src/components/games/technology/IoTSmartCityGame.tsx:409).
- Backend.WriteModule, Completion.WriteRow and Completion.UpsertRow: `module_completion` holds
  one row per module id.
  - An upsert merges into that row.
  - An upsert replaces the columns it names and keeps the others.
- Completion.UpsertRow: a column an upsert omits (the shape builder's `attempts`, say) is 0 on
  a new row. The table's column defaults are not part of this model.
- UserStore.UpdateProgress and UserStore.UpdateStreak: an `update(...).select().single()`
  returns the row just written when the row exists, and no data otherwise.

## Model

| member | source | states |
|---|---|---|
| Backend.InsertBadge | src/stores/userStore.ts:140-148 | inserting a badge fails with a duplicate-key error exactly when the (name, module) pair is already stored; otherwise the badge becomes the newest row |
| Backend.InsertBadgeTolerant | src/components/games/technology/SQLDataDungeonGame.tsx:303-313 | a game that treats the duplicate error as success always ends with the badge stored, once |
| Backend.InsertBadgeIfNameAbsent | src/components/games/technology/LogicGateGame.tsx:121-138 | the logic-gate game inserts its badge only when no stored badge has that name; a stored one of the same name leaves the table as it was |
| Backend.AddXpDirect | src/components/games/technology/SQLDataDungeonGame.tsx:287-300 | a direct XP write adds to the persisted total when a progress row exists, touches nothing else, and does nothing without a row |
| Backend.WriteModule | src/components/games/PhotosynthesisGame.tsx:196-224 | writing a module row changes only that module's row, which becomes the write applied to the prior row |
| Backend.RecordSpin | src/components/games/SpinWheelModal.tsx:161-167 | recording a spin dates the existing spin row today; without a row nothing is written |
| Completion.RecordAttempt | src/components/games/PhotosynthesisGame.tsx:203-207 | an attempt counts one more attempt, keeps the best score as the larger of the prior best and this score, and takes status and XP from the game |
| Completion.RecordCircuitStep | src/components/games/circuit/CircuitBuilderGame.tsx:101-108 | each circuit step is one more in-progress attempt; the best score is kept, or set to the XP on the first write |
| Completion.MergeLogicGate | src/components/games/technology/LogicGateGame.tsx:73-105 | the logic-gate write marks the module completed, counts one more attempt, and never lowers the best score below 100 or the XP below what was earned |
| Completion.UpsertRow | src/components/games/mathematics/ShapeBuilderGame.tsx:149-156 | an upsert replaces the columns it names and keeps the rest of an existing row (zero on a new row) |
| Completion.WriteRow | src/components/games/PhotosynthesisGame.tsx:196-224 | a write touches the row of its own module only |
| Completion.AttemptsCountWrites | src/components/games/PhotosynthesisGame.tsx:203-207 | after any sequence of counting writes the attempt count has grown by exactly their number |
| Completion.BestScoreNeverDecreases | src/components/games/PhotosynthesisGame.tsx:206 | counting writes never lower the best score |
| Completion.BestScoreIsRunningMax | src/components/games/PhotosynthesisGame.tsx:206 | after a run of attempts the best score is the maximum of the prior best and every score reported |
| Completion.UpsertCanLowerBestAndAttempts | src/components/games/engineering/DisasterResilientCityGame.tsx:402-412 | a blind upsert with attempts 1 and a lower score takes both the attempt count and the best score down |
| Completion.CompletedIsOverwritten | src/components/games/circuit/CircuitBuilderGame.tsx:97-108 | as written, an in-progress attempt or a circuit step turns a completed row back into in progress |
| Completion.RecordAttemptSticky | src/components/games/PhotosynthesisGame.tsx:203-207 | corrected: an attempt keeps a completed row completed, counts the attempt and keeps the running best |
| Completion.StickyWrite | src/components/games/circuit/CircuitBuilderGame.tsx:97-108 | corrected: a write gives the row it gives as written, except that a completed row stays completed; for an attempt this is RecordAttemptSticky |
| Completion.CompletedStaysCompleted | src/components/games/circuit/CircuitBuilderGame.tsx:97-108 | corrected: once completed, a module stays completed under any later writes of any kind |
| UserStore.SetLanguage | src/stores/userStore.ts:55-65 | only the cached language changes |
| UserStore.FetchUserData | src/stores/userStore.ts:67-103 | after a fetch the cache mirrors the stored profile, progress and badges, loading is over, and the language is the profile's or English without one |
| UserStore.UpdateProgress | src/stores/userStore.ts:105-127 | without a cached or stored progress row nothing changes; otherwise the stored totals become the cached totals plus the deltas, the cache matches the store, and the streak and last login are kept |
| UserStore.UpdatesAccumulate | src/stores/userStore.ts:105-127 | while cache and store agree, a sequence of updates adds exactly the sum of its deltas and keeps them in agreement |
| UserStore.AddBadge | src/stores/userStore.ts:129-155 | nothing changes without a profile, for a badge already cached, or on a duplicate-key error; otherwise the badge is prepended to both the table and the cache |
| UserStore.AddBadgeIdempotent | src/stores/userStore.ts:129-155 | granting the same badge twice is the same as granting it once |
| UserStore.GrantsLeaveOneCopy | src/stores/userStore.ts:129-155 | any number of grants leave exactly one copy of the badge, with table and cache in agreement |
| UserStore.UpdateStreak | src/stores/userStore.ts:157-194 | the streak follows the day rule from the cached row, the last login becomes today, totals are kept, and cache and store agree |
| UserStore.UpdateStreakIdempotent | src/stores/userStore.ts:157-194 | a second visit on the same day changes nothing |
| UserStore.StreakIsTrailingRun | src/stores/userStore.ts:164-178 | over a sequence of visits the streak equals the length of the final run of consecutive days, and the last login is the last visit |
| UserStore.ConsecutiveDaysRun | src/stores/userStore.ts:164-178 | k visits on consecutive days give a streak of k |
| Sync.StepKeepsProgressInSync | src/stores/userStore.ts:105-127 | every store-mediated event adds its XP and credits to the stored totals and keeps the cache in agreement |
| Sync.StoreOnlyConservesXp | src/stores/userStore.ts:105-127 | a session of store-mediated events adds exactly the XP and credits the games reported |
| Sync.DirectXpThenReportIsLost | src/stores/userStore.ts:106-110 | as written, a direct write of 20 XP followed by a reported 30 XP stores 30, not 50 |
| Sync.UpdateProgressFresh | src/stores/userStore.ts:105-127 | corrected: the update adds to the persisted total whatever the cache holds |
| Sync.FreshConservesXp | src/stores/userStore.ts:105-127 | corrected: any mix of direct writes and reports adds exactly the XP and credits awarded |
| Sync.DirectXpThenReportIsKeptFresh | src/stores/userStore.ts:106-110 | corrected: the same 20 then 30 XP stores 50 |
| Photosynthesis.HandleDrop | src/components/games/PhotosynthesisGame.tsx:136-242 | corrected (the handler run on the current state): a repeated element is ignored; a new one is added alone, earns 10 XP plus the 50 XP bonus when the third completes the game, and a signed-in learner is credited the difference, an attempt and on completion the badge |
| Photosynthesis.DropKeepsValid | src/components/games/PhotosynthesisGame.tsx:136-242 | corrected: every drop keeps the game total consistent with the elements placed and credits exactly the XP the game earned |
| Photosynthesis.PlayKeepsValid | src/components/games/PhotosynthesisGame.tsx:136-242 | corrected: over any sequence of drops the total only grows, every dropped element stays placed, and the credited XP equals the game's gain |
| Photosynthesis.FullGameEarns80 | src/components/games/PhotosynthesisGame.tsx:175-180 | corrected: dropping all three elements, in any order and with any repeats, completes the game with 80 XP, all credited |
| Photosynthesis.HandleDropAsWritten | src/components/games/components/DropZone.tsx:20-32 | as written, a drop on a shown zone restarts from the initial state: only the dropped element is added, the total is 10 XP, the game is not completed, and a signed-in learner is credited 10 XP with an in-progress attempt and no badge |
| Photosynthesis.PlayAsWrittenCredits | src/components/games/PhotosynthesisGame.tsx:136-242 | as written, any session holds at most the last element dropped and 10 XP, never completes or grants the badge, and credits 10 XP for every drop that differs from the one before |
| Photosynthesis.EndlessCredit | src/components/games/components/DropZone.tsx:20-32 | as written, drops that never repeat the one before credit 10 XP each without limit, while the game holds at most 10 |
| Photosynthesis.ThreeDropsCredit30 | src/components/games/components/DropZone.tsx:20-32 | as written, water, sunlight, then CO2 leaves CO2 alone at 10 XP, not completed, with 30 credited; corrected, the game completes at 80 XP, all credited |
| Photosynthesis.CompletionPercentage | src/components/games/PhotosynthesisGame.tsx:244-247 | the percentage lies in [0, 100], is 0 exactly when nothing is placed, and 100 exactly when the game is completed |
| Photosynthesis.Reset | src/components/games/PhotosynthesisGame.tsx:249-262 | a reset game is valid, empty and has no XP |
| CircuitBuilder.CheckCompletion | src/components/games/circuit/CircuitBuilderGame.tsx:47-80 | completion happens once, when all four pieces are placed, adds the 50 XP bonus, and credits it with a completed attempt and the badge |
| CircuitBuilder.HandleDrop | src/components/games/circuit/CircuitBuilderGame.tsx:82-113 | drops on a completed circuit or of a placed piece are ignored; a new piece is placed alone for 10 XP and recorded as a step, and the fourth completes the circuit |
| CircuitBuilder.DropKeepsValid | src/components/games/circuit/CircuitBuilderGame.tsx:82-113 | every drop keeps the total consistent with the pieces placed and credits exactly the game's gain |
| CircuitBuilder.PlayKeepsValid | src/components/games/circuit/CircuitBuilderGame.tsx:82-113 | over any sequence of drops every dropped piece stays placed and the credited XP equals the game's gain |
| CircuitBuilder.FullCircuitEarns90 | src/components/games/circuit/CircuitBuilderGame.tsx:47-113 | placing all four pieces in any order completes the circuit with 90 XP, all credited |
| CircuitBuilder.CompletionPercentage | src/components/games/circuit/CircuitBuilderGame.tsx:45 | the percentage lies in [0, 100] and is 100 exactly when all pieces are placed, which for a valid game is completion |
| CircuitBuilder.Reset | src/components/games/circuit/CircuitBuilderGame.tsx:115-118 | a reset circuit is valid, empty, uncompleted and at 0% |
| NumberAdventure.HandleAnswer | src/components/games/mathematics/NumberAdventureGame.tsx:82-175 | a wrong answer changes nothing; a right one records the question and its XP, and moves on or, at the last question, completes a signed-in game with the completion effects computed from the total before the answer |
| NumberAdventure.HandleAnswerFresh | src/components/games/mathematics/NumberAdventureGame.tsx:141-147 | corrected: the same game whose completion effects use the total including the last answer |
| NumberAdventure.AnswerKeepsValid | src/components/games/mathematics/NumberAdventureGame.tsx:82-125 | every answer keeps the total equal to the rewards of the questions answered |
| NumberAdventure.PlayCredits | src/components/games/mathematics/NumberAdventureGame.tsx:127-175 | a session credits nothing until completion, and then 40 XP as written or 50 as intended |
| NumberAdventure.ThreeRightAnswersCredit40 | src/components/games/mathematics/NumberAdventureGame.tsx:141-162 | as written, the three right answers earn 30 in the game but credit 40; the corrected game credits 50 |
| NumberAdventure.ProgressPercent | src/components/games/mathematics/NumberAdventureGame.tsx:80 | the progress lies in [0, 100] and is 100 exactly when every question is answered |
| ShapeBuilder.ProgressPercent | src/components/games/mathematics/ShapeBuilderGame.tsx:121-142 | progress is 20% per step done, at most 100, and 100 exactly when all five steps are done |
| ShapeBuilder.HandleShapeDrop | src/components/games/mathematics/ShapeBuilderGame.tsx:88-104 | the dropped shape is placed for 10 XP and nothing else changes |
| ShapeBuilder.HandleCalculation | src/components/games/mathematics/ShapeBuilderGame.tsx:106-119 | the chosen calculation is marked done for 10 XP and nothing else changes |
| ShapeBuilder.Handle | src/components/games/mathematics/ShapeBuilderGame.tsx:88-119 | each handler adds 10 XP and completes a step not yet done; only a drop of a placed shape leaves every flag as it was |
| ShapeBuilder.AfterChange | src/components/games/mathematics/ShapeBuilderGame.tsx:121-167 | calculations open once all shapes are placed; the game completes once all steps are done, upserting a completed row, crediting the total plus 20 and granting the badge, once |
| ShapeBuilder.Step | src/components/games/mathematics/components/MathDropZone.tsx:20-32 | as written a shape dropped on its own zone is always accepted, and a placed one earns 10 more XP with nothing else changed; a calculation is accepted only at its turn and completes one more step for 10 XP |
| ShapeBuilder.StepIntended | src/components/games/mathematics/components/MathDropZone.tsx:20-32 | corrected: a drop of a placed shape is refused, so every accepted move completes one more step |
| ShapeBuilder.StepKeepsValid | src/components/games/mathematics/ShapeBuilderGame.tsx:88-142 | as written every move keeps the game consistent and never un-completes it; completion comes at 50 XP or more |
| ShapeBuilder.StepIntendedKeepsValid | src/components/games/mathematics/ShapeBuilderGame.tsx:88-142 | corrected: the game holds exactly 10 XP per step done, so completion comes at exactly 50 XP |
| ShapeBuilder.StepCredits | src/components/games/mathematics/ShapeBuilderGame.tsx:144-167 | a move credits the game total plus 20 to a signed-in learner exactly when it completes the game, else nothing |
| ShapeBuilder.PlayCredits | src/components/games/mathematics/ShapeBuilderGame.tsx:88-167 | as written a session never lowers the game XP or un-completes the game, and credits nothing until completion, then one award of at least 70 and at most the final total plus 20 |
| ShapeBuilder.PlayIntendedCredits | src/components/games/mathematics/ShapeBuilderGame.tsx:88-167 | corrected: a session keeps the game at most 50 XP, never un-completes it, and credits 70 exactly when it completes the game |
| ShapeBuilder.RedropCredits80 | src/components/games/mathematics/components/MathDropZone.tsx:20-32 | as written the triangle dropped twice and then the other four steps leave 60 XP and credit 80; corrected, 50 XP and 70 |
| ShapeBuilder.FormulasAgree | src/components/games/mathematics/ShapeBuilderGame.tsx:169-193 | a square's area and perimeter are those of the equal-sided rectangle, and a triangle's area is half its rectangle's |
| ShapeBuilder.GivenShapes | src/components/games/mathematics/ShapeBuilderGame.tsx:60-86 | the given triangle, rectangle and square have areas 12, 40, 36 and perimeters 15, 26, 24 |
| ProbabilityKingdom.HandleSubmit | src/components/games/mathematics/ProbabilityKingdomGame.tsx:106-176 | no selection or a wrong answer changes nothing; a right answer completes the zone, earns its reward, advances or completes the kingdom, and credits reward, badge and on completion the bonus and a completed row |
| ProbabilityKingdom.SubmitKeepsValid | src/components/games/mathematics/ProbabilityKingdomGame.tsx:111-164 | every submission keeps the game consistent and credits the game's gain plus the 60 XP bonus on completion |
| ProbabilityKingdom.PlayCredits | src/components/games/mathematics/ProbabilityKingdomGame.tsx:106-176 | a session keeps the game at most 45 XP, leaves a completed kingdom alone, and credits the gain plus the bonus once |
| ProbabilityKingdom.ThreeRightAnswers | src/components/games/mathematics/ProbabilityKingdomGame.tsx:137-157 | the three right answers complete the kingdom with 45 XP in the game and 105 credited |
| ProbabilityKingdom.ProgressPercent | src/components/games/mathematics/ProbabilityKingdomGame.tsx:100 | progress lies in [0, 100] and is 100 exactly when the kingdom is completed |
| ProbabilityKingdom.Restart | src/components/games/mathematics/ProbabilityKingdomGame.tsx:178-188 | a restarted kingdom is valid, empty and at 0 XP |
| OrganicReactions.FindFrom | src/components/games/OrganicReactionBuilderGame.tsx:245-249 | the search returns a listed entry with the chosen triple, or none when no entry has it |
| OrganicReactions.MatchIsExact | src/components/games/OrganicReactionBuilderGame.tsx:59-84 | a triple is accepted exactly when it is one of the three listed reactions, and that reaction is the one found |
| OrganicReactions.ModuleIdFor | src/components/games/OrganicReactionBuilderGame.tsx:291-292 | the module id names the learner's class, or class 12 when it is missing or zero |
| OrganicReactions.HandleComponentDrop | src/components/games/OrganicReactionBuilderGame.tsx:218-223 | a dropped component fills the slot it was dropped on; the other selections and the progress stay |
| OrganicReactions.HandleReactionTypeSelect | src/components/games/OrganicReactionBuilderGame.tsx:225-230 | the reaction type is chosen and nothing else changes |
| OrganicReactions.AttemptReaction | src/components/games/OrganicReactionBuilderGame.tsx:232-352 | an incomplete selection changes nothing; an unlisted triple clears the selections; a listed one is appended, earns 30 XP, completes the game with the bonus exactly when the list reaches three, and credits reward, badge and an attempt |
| OrganicReactions.DropsThenAttempt | src/components/games/OrganicReactionBuilderGame.tsx:218-271 | dropping a listed reaction's parts in either order and attempting appends exactly that reaction and shows its product; an unlisted triple appends and credits nothing |
| OrganicReactions.AttemptKeepsValid | src/components/games/OrganicReactionBuilderGame.tsx:254-336 | every attempt keeps the game consistent, and each success credits exactly 30 XP, never the bonus |
| OrganicReactions.RepeatedReactionCompletes | src/components/games/OrganicReactionBuilderGame.tsx:256-264 | as written, one reaction done three times completes the game and grants 'Reaction Master', and a fourth success un-completes it at over 100% |
| OrganicReactions.AttemptReactionIntended | src/components/games/OrganicReactionBuilderGame.tsx:232-352 | corrected: the game completes exactly when every listed reaction has been done, keeps earlier reactions, and grows the list by at most one |
| OrganicReactions.IntendedCountsDistinct | src/components/games/OrganicReactionBuilderGame.tsx:256-264 | corrected: the list never holds a reaction twice and a completed game stays completed |
| OrganicReactions.CompletionPercentage | src/components/games/OrganicReactionBuilderGame.tsx:377-379 | the percentage is never negative, is 100 exactly when a consistent game is completed, and stays within 100 when no reaction repeats |
| OrganicReactions.Reset | src/components/games/OrganicReactionBuilderGame.tsx:354-367 | a reset game is consistent, empty, at 0 XP and 0%, with nothing selected |
| LogicGates.CheckLogic | src/components/games/technology/LogicGateGame.tsx:53-66 | the bulb never lights without a gate |
| LogicGates.GatesBySwitchCount | src/components/games/technology/LogicGateGame.tsx:53-66 | without a gate the bulb is dark; AND lights exactly with both switches on, OR with at least one, NOT exactly when switch A is off, and AND and OR agree exactly when the switches agree |
| LogicGates.NotIgnoresB | src/components/games/technology/LogicGateSimulatorClass6.tsx:48-61 | the NOT gate depends on switch A alone |
| LogicGates.AndOrMonotone | src/components/games/technology/LogicGateSimulatorClass6.tsx:48-61 | turning switches on never turns an AND or OR bulb off, and AND lit implies OR lit |
| LogicGates.Flip | src/components/games/technology/LogicGateGame.tsx:150-165 | toggling a switch inverts that switch only |
| LogicGateGame.GetCompletion | src/components/games/technology/LogicGateGame.tsx:45-51 | completion is a multiple of 10 up to 100, 100 exactly with a gate, a switch on and a lit bulb, and 0 exactly with none of them |
| LogicGateGame.CheckCompletion | src/components/games/technology/LogicGateGame.tsx:68-148 | a lit bulb completes the game once for a signed-in learner: 30 XP, the merged completed row, a direct 30 XP write, the badge if its name is new, and a refresh |
| LogicGateGame.HandleSwitchToggle | src/components/games/technology/LogicGateGame.tsx:150-165 | a toggle flips one switch, keeps the gate, and relights the bulb by the truth table |
| LogicGateGame.HandleGateSelect | src/components/games/technology/LogicGateGame.tsx:167-179 | a gate choice sets the gate, keeps the switches, and relights the bulb by the truth table |
| LogicGateGame.Reset | src/components/games/technology/LogicGateGame.tsx:181-184 | a reset game is consistent, uncompleted, at 0 XP and 0% |
| LogicGateGame.StepKeepsValid | src/components/games/technology/LogicGateGame.tsx:150-179 | every move keeps the game consistent, completes it exactly when a signed-in learner's bulb lights, adds 10 XP per gate choice and credits 30 only on completion |
| LogicGateGame.PlayCredits | src/components/games/technology/LogicGateGame.tsx:68-179 | over a session the total is 10 XP per gate choice plus 30 once, only the 30 is credited, and a guest never completes |
| LogicGateGame.NotGateCompletesAt70 | src/components/games/technology/LogicGateGame.tsx:45-51 | choosing NOT with both switches off lights the bulb and completes the game while the completion shows 70% |
| LogicGateClass6.GetCompletion | src/components/games/technology/LogicGateSimulatorClass6.tsx:44-46 | completion is 100 exactly with a gate and a lit bulb, and 0 otherwise |
| LogicGateClass6.Update | src/components/games/technology/LogicGateSimulatorClass6.tsx:94-123 | a move changes the switch or gate it names and relights the bulb by the truth table, keeping XP and completion |
| LogicGateClass6.CheckCompletion | src/components/games/technology/LogicGateSimulatorClass6.tsx:63-92 | the state the check sees completes the game once when its bulb is lit, setting 30 XP and crediting it with a row and a badge |
| LogicGateClass6.Step | src/components/games/technology/LogicGateSimulatorClass6.tsx:94-123 | as written, a move completes the game only if the bulb was already lit before it and is still lit after |
| LogicGateClass6.StepIntended | src/components/games/technology/LogicGateSimulatorClass6.tsx:63-66 | corrected: a move completes the game exactly when it lights the bulb |
| LogicGateClass6.Reset | src/components/games/technology/LogicGateSimulatorClass6.tsx:125-128 | a reset game is consistent, uncompleted, at 0 XP and 0% |
| LogicGateClass6.StepKeepsValid | src/components/games/technology/LogicGateSimulatorClass6.tsx:63-123 | in either version every move keeps the game consistent, never un-completes it, and credits 30 XP only on the completing move |
| LogicGateClass6.PlayCredits | src/components/games/technology/LogicGateSimulatorClass6.tsx:63-123 | in either version a session credits 30 XP exactly when it completes the game |
| LogicGateClass6.LightingDoesNotComplete | src/components/games/technology/LogicGateSimulatorClass6.tsx:94-118 | as written, lighting the bulb shows 100% but does not complete; only the next move does, while the corrected game completes on lighting |
| LogicGateClass6.IntendedCompletesWhenLit | src/components/games/technology/LogicGateSimulatorClass6.tsx:63-66 | corrected: a lit bulb after any move means the game is completed |
| SqlNormalize.Normalize | src/components/games/technology/SQLDataDungeonGame.tsx:257-261 | a normalised query neither starts nor ends with whitespace |
| SqlNormalize.NormalizeIsClean | src/components/games/technology/SQLDataDungeonGame.tsx:257-261 | a normalised query has no capitals, only single plain spaces, and no surrounding whitespace |
| SqlNormalize.TrimStartIsSuffix | src/components/games/technology/SQLDataDungeonGame.tsx:261 | trimming the start removes a whitespace prefix and nothing more |
| SqlNormalize.TrimEndIsPrefix | src/components/games/technology/SQLDataDungeonGame.tsx:261 | trimming the end removes a whitespace suffix and nothing more |
| SqlNormalize.StripIsPrefix | src/components/games/technology/SQLDataDungeonGame.tsx:260 | stripping removes a run of trailing semicolons and nothing more |
| SqlNormalize.CollapseClean | src/components/games/technology/SQLDataDungeonGame.tsx:259 | collapsing whitespace leaves single plain spaces only |
| SqlNormalize.CaseInsensitive | src/components/games/technology/SQLDataDungeonGame.tsx:256-264 | queries that differ only in letter case normalise alike, so one is correct exactly when the other is |
| SqlNormalize.WhitespaceRunInsensitive | src/components/games/technology/SQLDataDungeonGame.tsx:259 | any two non-empty whitespace runs at the same place normalise alike |
| SqlNormalize.TrailingSemicolonIgnored | src/components/games/technology/SQLDataDungeonGame.tsx:260 | a trailing semicolon does not change the normal form |
| SqlNormalize.NotIdempotent | src/components/games/technology/SQLDataDungeonGame.tsx:257-261 | normalising twice can differ from once: "a; " becomes "a;" and then "a" |
| SqlDungeon.RewardsSum100 | src/components/games/technology/SQLDataDungeonGame.tsx:38-115 | the four zone rewards add up to 100, the most any set of cleared zones is worth |
| SqlDungeon.HandleQuerySubmit | src/components/games/technology/SQLDataDungeonGame.tsx:266-343 | with no active zone or a wrong query nothing changes; a right one marks the zone done, adds its reward and credits it with the badge; the completed row is never sent |
| SqlDungeon.HandleQuerySubmitOnce | src/components/games/technology/SQLDataDungeonGame.tsx:266-343 | corrected: a right query for a zone already done changes nothing; otherwise it behaves as written, and the answer that clears the last zone also sends the completed row |
| SqlDungeon.Step | src/components/games/technology/SQLDataDungeonGame.tsx:172-176 | a blank query cannot be submitted |
| SqlDungeon.StepOnceCredits | src/components/games/technology/SQLDataDungeonGame.tsx:266-343 | corrected: one move keeps the game XP equal to the cleared rewards, credits its growth, and sends the completed row exactly when it clears the last zone |
| SqlDungeon.PlayOnceCredits | src/components/games/technology/SQLDataDungeonGame.tsx:266-354 | corrected: the game total always equals the cleared zones' rewards, at most 100, all credited, with the completed row written once |
| SqlDungeon.CompletionNeverRecorded | src/components/games/technology/SQLDataDungeonGame.tsx:329-343 | as written no session writes the completed row, even one that clears every zone, while every right answer is credited as the game XP grows |
| SqlDungeon.ReplayCreditsAgain | src/components/games/technology/SQLDataDungeonGame.tsx:272-282 | as written, the right query submitted twice for a zone earns and credits its reward twice; the corrected game credits it once |
| SqlDungeon.Restart | src/components/games/technology/SQLDataDungeonGame.tsx:356-361 | a restarted dungeon has no active zone and no XP |
| IoTCity.DefaultsMeetGoals | src/components/games/technology/IoTSmartCityGame.tsx:44-95 | a sensor at its default settings meets its goal exactly when it stands in its ideal zone |
| IoTCity.FirstOfKind | src/components/games/technology/IoTSmartCityGame.tsx:350 | the sensor checked for a kind is a placed sensor of that kind, and there is none only when no such sensor is placed |
| IoTCity.CorrectPlacements | src/components/games/technology/IoTSmartCityGame.tsx:345-361 | at most the four kinds are counted as correct |
| IoTCity.SuccessIffAllKindsCorrect | src/components/games/technology/IoTSmartCityGame.tsx:350-364 | the city succeeds exactly when every kind's first sensor meets its goal |
| IoTCity.LaterSensorsIgnored | src/components/games/technology/IoTSmartCityGame.tsx:350 | a further sensor of a kind already placed does not change which sensor is checked |
| IoTCity.LaterSensorsDoNotChangeVerdict | src/components/games/technology/IoTSmartCityGame.tsx:350-361 | a further sensor of a kind already placed does not change the count |
| IoTCity.HandleSensorDrop | src/components/games/technology/IoTSmartCityGame.tsx:317-331 | a drop appends one sensor of that kind, in that zone, at its default settings |
| IoTCity.HandleConfigUpdate | src/components/games/technology/IoTSmartCityGame.tsx:333-343 | an edit sets the named fields (device id or settings) of the sensors with that id, keeps their other fields, kind and zone, and leaves every other sensor as it was |
| IoTCity.CheckOptimization | src/components/games/technology/IoTSmartCityGame.tsx:345-429 | an empty or imperfect city changes nothing; a perfect one earns 100 XP and credits it with a completed row and the badge |
| IoTCity.CheckCredits | src/components/games/technology/IoTSmartCityGame.tsx:366-384 | a check credits exactly the XP the game adds |
| IoTCity.Restart | src/components/games/technology/IoTSmartCityGame.tsx:431-436 | a restarted city is empty with no XP |
| IoTCity.IdealDropsWin | src/components/games/technology/IoTSmartCityGame.tsx:85-95 | dropping each kind in its ideal zone at default settings succeeds |
| DisasterCity.ZoneAt | src/components/games/engineering/DisasterResilientCityGame.tsx:213-225 | a drop point maps to a zone that contains it, and to none only when no zone does |
| DisasterCity.ZonesDisjoint | src/components/games/engineering/DisasterResilientCityGame.tsx:74-79 | no point lies in two zones |
| DisasterCity.ZoneCentres | src/components/games/engineering/DisasterResilientCityGame.tsx:74-79 | each zone's centre maps to that zone |
| DisasterCity.HandleStructureDrop | src/components/games/engineering/DisasterResilientCityGame.tsx:213-225 | without a selected material or outside every zone nothing changes; otherwise one standing structure of that material is added in the zone hit |
| DisasterCity.Survives | src/components/games/engineering/DisasterResilientCityGame.tsx:341-368 | a structure survives exactly when its material resists at least two of the zone's disasters, and always in the safe zone |
| DisasterCity.SurvivalTable | src/components/games/engineering/DisasterResilientCityGame.tsx:55-71 | steel and composite survive everywhere; wood survives only on the coast and in the safe zone |
| DisasterCity.Judge | src/components/games/engineering/DisasterResilientCityGame.tsx:341-368 | the simulation judges every structure by its material and zone and changes nothing else |
| DisasterCity.BestScore | src/components/games/engineering/DisasterResilientCityGame.tsx:373-375 | the score is the survival percentage rounded half up, at most 100, and 100 exactly from 99.5% |
| DisasterCity.RunSimulation | src/components/games/engineering/DisasterResilientCityGame.tsx:332-437 | an empty city changes nothing; otherwise every structure is judged, and a pass at 70% earns 60 XP and credits it with the score row and the badge |
| DisasterCity.ResilientCityPasses | src/components/games/engineering/DisasterResilientCityGame.tsx:341-382 | a city of steel and composite survives entirely, passes and records a score of 100 |
| DisasterCity.JudgeIdempotent | src/components/games/engineering/DisasterResilientCityGame.tsx:341-368 | judging a judged city changes nothing |
| DisasterCity.SimulateAgainCreditsAgain | src/components/games/engineering/DisasterResilientCityGame.tsx:332-437 | running a passing simulation twice earns and credits its 60 XP twice |
| DisasterCity.ThresholdExamples | src/components/games/engineering/DisasterResilientCityGame.tsx:373-380 | 3 of 4 passes at 75, 2 of 3 fails at 67, 7 of 10 passes at 70, 0 of 1 fails at 0 |
| DisasterCity.ResetCity | src/components/games/engineering/DisasterResilientCityGame.tsx:439-443 | a reset city is empty, at no XP, and its simulation does nothing |
| ProgressOverview.ShownXp | src/components/dashboard/ProgressOverview.tsx:49 | the shown XP is the stored total, or 0 without a progress row |
| ProgressOverview.Level | src/components/dashboard/ProgressOverview.tsx:12 | the level is the one whose 1000-XP band holds the total, at least 1 for a non-negative total |
| ProgressOverview.LevelIsUnique | src/components/dashboard/ProgressOverview.tsx:12 | no other level's band holds the total |
| ProgressOverview.LevelMonotone | src/components/dashboard/ProgressOverview.tsx:12 | earning never lowers the level, and 1000 XP raise it by exactly one |
| ProgressOverview.NextLevelXp | src/components/dashboard/ProgressOverview.tsx:13-16 | the next threshold is a multiple of 1000 above the total by 1 to 1000 |
| ProgressOverview.CurrentLevelXp | src/components/dashboard/ProgressOverview.tsx:50-51 | the current threshold is a multiple of 1000 at most the total, 1000 below the next |
| ProgressOverview.LevelCard | src/components/dashboard/ProgressOverview.tsx:49-78 | the card shows the level of the shown XP, 1 to 1000 XP still needed, and a bar in [0, 100) filled by the share of the band earned |
| ProgressOverview.NoProgressCard | src/components/dashboard/ProgressOverview.tsx:21-52 | a learner without progress sees level 1, 1000 XP to go and an empty bar |
| ProgressOverview.EarningWithinBand | src/components/dashboard/ProgressOverview.tsx:50-78 | earning within a band keeps the level, moves the bar by a tenth of a percent per XP, and lowers what is needed by the same amount |
| SubjectGrid.LoadProgress | src/components/dashboard/SubjectGrid.tsx:32-50 | a guest's counts stay; otherwise each subject counts its modules with a completed row, and no rows count nothing |
| SubjectGrid.OtherRowsIgnored | src/components/dashboard/SubjectGrid.tsx:39-49 | rows of other modules, and rows not completed, do not change the counts |
| SubjectGrid.Subjects | src/components/dashboard/SubjectGrid.tsx:81-126 | the four cards, in order, with their module numbers and counts |
| SubjectGrid.SubjectButton | src/components/dashboard/SubjectGrid.tsx:174-185 | a card reads "Learn Again" exactly when all its modules are completed and is disabled exactly when it has none |
| SubjectGrid.LoadedCardsAreConsistent | src/components/dashboard/SubjectGrid.tsx:32-185 | after a load no card counts more than it has, each offers "Learn Again" exactly when its modules are completed, and the technology card is always "Learn Again" and disabled |
| SubjectGrid.ReplayUncountsScience | src/components/dashboard/SubjectGrid.tsx:39-49 | as written, a circuit step after a completed circuit drops the engineering count to 0, and an in-progress attempt does the same to a completed science row (which only the corrected photosynthesis handler produces); with sticky completion science stays 1 |
| BadgesDropdown.ViewAsWritten | src/components/dashboard/BadgesDropdown.tsx:66-69 | as written, the counter shows the number of badges held out of 5, and the banner shows exactly when 5 are held |
| BadgesDropdown.AchievedDefinitions | src/components/dashboard/BadgesDropdown.tsx:121 | corrected: the counter shows the achieved definitions, at most 5 and at most the badges held, and the banner shows exactly when all five are achieved |
| BadgesDropdown.IntendedBannerIffAllAchieved | src/components/dashboard/BadgesDropdown.tsx:173 | corrected: the banner shows exactly when every definition is achieved, and a further badge never hides it |
| BadgesDropdown.BannerIgnoresDefinitions | src/components/dashboard/BadgesDropdown.tsx:66-69 | as written, five unlisted badges show the banner with nothing achieved, and the five listed plus one more hide it |
| SpinWheel.CheckSpinAvailability | src/components/games/SpinWheelModal.tsx:104-123 | only a stored last spin decides: the wheel is enabled exactly when that spin was on another day |
| SpinWheel.Award | src/components/games/SpinWheelModal.tsx:152-158 | XP rewards are reported as XP, credit rewards as credits, and the badge is granted for 'Daily Rewards' |
| SpinWheel.AwardCredits | src/components/games/SpinWheelModal.tsx:152-158 | each reward credits its value in its own kind and nothing in the other |
| SpinWheel.HandleSpin | src/components/games/SpinWheelModal.tsx:131-145 | a spin starts only on an enabled, still wheel for a signed-in learner |
| SpinWheel.SpinEnds | src/components/games/SpinWheelModal.tsx:147-186 | the end of a spin shows and awards the picked reward, records today and disables the wheel |
| SpinWheel.HandleClose | src/components/games/SpinWheelModal.tsx:188-193 | the dialog cannot close while the wheel turns |
| SpinWheel.DisabledWheelAwardsNothing | src/components/games/SpinWheelModal.tsx:131-169 | a disabled wheel awards nothing until the dialog is reopened |
| SpinWheel.AtMostOneAwardPerOpening | src/components/games/SpinWheelModal.tsx:131-186 | between two openings at most one reward is awarded, and after it the wheel is disabled |
| SpinWheel.SpinIsDaily | src/components/games/SpinWheelModal.tsx:104-167 | a spin awards its reward and dates the spin row, so the wheel is disabled the same day and enabled the next; a learner without a spin row can spin again |

## Left out

- Network and database failures are left out, with the `try`/`catch` paths and error toasts. Every read and write succeeds, except a duplicate badge insert, which fails as described above.
- The realtime channel (src/components/dashboard/SubjectGrid.tsx:56-79) is left out. It only re-runs the load.
- Toasts, timers, animations, popups and the rest of the user interface are left out. Timer callbacks become their own actions.
- `Math.random` and the wheel's rotation are left out. The picked reward is a parameter.
- Floating point is left out. Percentages are exact reals, and rounding and the 70% test are done in integers.
- Locale lower-casing is left out. Lower-casing covers the ASCII letters only.
- Timezones are left out. Days are numbers, and `toDateString` and ISO dates are taken to agree.
- Concurrency is left out. Calls run one after another, and state updates apply at once.
- CircuitBuilder.HandleDrop: the handler reads the value its `setState` updater computed right after calling it (src/components/games/circuit/CircuitBuilderGame.tsx:84-95). It relies on that updater running at once. If React deferred the updater, the handler would return with no XP, no row and no completion check. The model assumes the updater runs at once.
- UserStore.SetLanguage: the profile update (src/stores/userStore.ts:60-63) is neither awaited nor `.then()`-ed, and a Supabase query builder sends nothing until one of those happens. The update is never sent, so the store's database view stays unchanged.
- Backend.RecordSpin: the spin update also overwrites `rewards_claimed` with the picked reward's id (src/components/games/SpinWheelModal.tsx:164-165). No file of this model reads that column, so it is left out.
- The IoT selected-sensor panel is left out. Its own copy of the edited sensor is not modelled; the device-id, frequency, latency and bandwidth edits it sends are (`IoTCity.HandleConfigUpdate`).
- The unreachable default for an unknown zone in the disaster survival check is left out.
- Creating the spin row is left out. It happens outside these files.
- Any other file named in the game suite is not part of this model. That includes the class switcher.
- `Date.now()` is left out. Structure and sensor ids take it as a parameter.

## Findings

| source | as written | input that shows it | evidently intended | confidence | as-written member | corrected member |
|---|---|---|---|---|---|---|
| src/stores/userStore.ts:106-110 | the new total is the cached total plus the delta, so a direct table write made since the last fetch is overwritten | a game writes 20 XP directly, then 30 XP are reported through the store: 30 is stored | add the delta to the persisted total, giving 50 | not executed | Sync.DirectXpThenReportIsLost | Sync.DirectXpThenReportIsKeptFresh |
| src/components/games/circuit/CircuitBuilderGame.tsx:97-108 | each step write sets in_progress, so replaying a completed circuit marks the module in progress again; the photosynthesis attempt at PhotosynthesisGame.tsx:203-215 does the same once its drop handler is corrected | a circuit completed, reset with Play Again, and given its first piece: the completed row becomes in progress | completion is sticky | not executed | Completion.CompletedIsOverwritten | Completion.CompletedStaysCompleted |
| src/components/dashboard/BadgesDropdown.tsx:66-69 | the counter and banner count every badge held against the five definitions | five badges from the SQL and IoT games show "All Badges Collected" with none of the five achieved | count the achieved definitions | not executed | BadgesDropdown.BannerIgnoresDefinitions | BadgesDropdown.IntendedBannerIffAllAchieved |
| src/components/games/mathematics/NumberAdventureGame.tsx:141 | the final XP is read from the state before the last right answer | answering "20", "8", "24" credits 40 XP for a 30-XP game plus the 20 bonus | credit 50 | not executed | NumberAdventure.ThreeRightAnswersCredit40 | NumberAdventure.HandleAnswerFresh |
| src/components/games/OrganicReactionBuilderGame.tsx:256-264 | a repeated reaction is appended and counted | the SN2 triple attempted three times completes the game; a fourth success un-completes it with the percentage above 100 | count each listed reaction once | not executed | OrganicReactions.RepeatedReactionCompletes | OrganicReactions.IntendedCountsDistinct |
| src/components/games/technology/LogicGateSimulatorClass6.tsx:63-66 | the completion check runs against the state before the move | choosing OR then turning switch A on lights the bulb at 100% without completing | complete when the bulb lights | not executed | LogicGateClass6.LightingDoesNotComplete | LogicGateClass6.IntendedCompletesWhenLit |
| src/components/games/technology/SQLDataDungeonGame.tsx:266-282 | a zone already done still earns and credits its reward | the right query submitted twice for zone 1 credits its reward twice | credit each zone once | not executed | SqlDungeon.ReplayCreditsAgain | SqlDungeon.PlayOnceCredits |
| src/components/games/technology/SQLDataDungeonGame.tsx:334-343 | the completion upsert is built but neither awaited nor `.then()`-ed, so it is never sent | a signed-in learner clears all four zones: no module_completion row is written | record the module as completed | not executed | SqlDungeon.CompletionNeverRecorded | SqlDungeon.PlayOnceCredits |
| src/components/games/mathematics/components/MathDropZone.tsx:20-32 | the zone's `active` test and the shape's `canDrag` test (MathDraggableElement.tsx:26-33) sit in react-dnd specs built once at mount, so a placed shape can be dropped again for 10 more XP | the triangle dropped twice, then the other four steps: the game holds 60 XP and credits 80 | refuse a placed shape, for 50 XP and 70 credited | not executed | ShapeBuilder.RedropCredits80 | ShapeBuilder.PlayIntendedCredits || src/components/games/components/DropZone.tsx:20-32 | the drop zone's react-dnd spec is built once at mount, so every drop runs the first render's handler, which starts from the initial state: only the dropped element stays added and the total is reset to 10 XP | a signed-in learner drops water, sunlight, then CO2: the game holds CO2 alone at 10 XP, never completes, and has credited 30 XP | keep earlier elements and complete at 80 XP | not executed | Photosynthesis.ThreeDropsCredit30 | Photosynthesis.FullGameEarns80 |
Some repeated credits are left as behaviour, not findings, because nothing in their code says
otherwise. A passing disaster simulation run again credits again
(`DisasterCity.SimulateAgainCreditsAgain`), and so does a second successful IoT check.
Normalising a query twice can change it (`SqlNormalize.NotIdempotent`). The comparison
normalises each side once, so this does not affect answers.

=== FILE: backend.dfy ===
/** The persisted rows of one signed-in user, as an in-memory value, and the
    primitive reads and writes the program issues against them.

    Assumptions about the store (its behaviour is not part of this model):
    - `badges` is unique on (badge_name, module_name); inserting an existing
      pair fails with a duplicate-key error and changes nothing;
    - `module_completion` holds one row per module id, and an upsert merges
      on that key;
    - an `update(...).select().single()` returns the row just written when
      the row exists, and no data otherwise.
    Badges are kept newest first, the order in which the program reads them
    (`order('earned_date', { ascending: false })`). */
module Backend {
  import opened Basics
  import Completion

  datatype Language = English | Odia

  /** A `profiles` row; only read by the core. */
  datatype Profile = Profile(name: string, classLevel: int, language: Language)

  /** A `user_progress` row; `lastLogin` is a day number. */
  datatype Progress = Progress(totalXp: int, currentStreak: int, totalCredits: int, lastLogin: Option<int>)

  /** A `badges` row: the (badge_name, module_name) pair. */
  datatype Badge = Badge(badgeName: string, moduleName: string)

  /** A `spin_wheel` row; `lastSpin` is a day number. */
  datatype SpinRow = SpinRow(lastSpin: Option<int>)

  datatype Db = Db(
    profile: Option<Profile>,
    progress: Option<Progress>,
    badges: seq<Badge>,
    modules: Completion.Table,
    spin: Option<SpinRow>)

  datatype InsertResult = Inserted(db: Db) | DuplicateKey

  /** `insert` into `badges`: a new pair becomes the newest row. */
  function InsertBadge(db: Db, b: Badge): (r: InsertResult)
    ensures r.DuplicateKey? <==> b in db.badges
    ensures r.Inserted? ==> r.db == db.(badges := [b] + db.badges)
  {
    if b in db.badges then DuplicateKey else Inserted(db.(badges := [b] + db.badges))
  }

  /** A badge insert whose duplicate-key error is treated as success (the
      SQL, IoT and disaster games; also any insert whose error is ignored). */
  function InsertBadgeTolerant(db: Db, b: Badge): (d: Db)
    ensures b in d.badges
    ensures b in db.badges ==> d == db
    ensures b !in db.badges ==> d == db.(badges := [b] + db.badges)
  {
    match InsertBadge(db, b)
    case Inserted(d) => d
    case DuplicateKey => db
  }

  /** How many rows carry the badge name `name`. */
  function CountNamed(badges: seq<Badge>, name: string): (n: nat)
    ensures n == 0 <==> forall i :: 0 <= i < |badges| ==> badges[i].badgeName != name
    ensures n <= |badges|
  {
    if badges == [] then 0
    else (if badges[0].badgeName == name then 1 else 0) + CountNamed(badges[1..], name)
  }

  /** The logic-gate game's check-then-insert: `select ... eq('badge_name',
      name).maybeSingle()` yields a row only when exactly one row has that
      name (several rows make it fail with no data); without a row the game
      inserts, ignoring any error. */
  function InsertBadgeIfNameAbsent(db: Db, name: string, moduleName: string): (d: Db)
    ensures CountNamed(db.badges, name) == 1 ==> d == db
    ensures CountNamed(db.badges, name) == 0 ==> d == db.(badges := [Badge(name, moduleName)] + db.badges)
    ensures Badge(name, moduleName) in d.badges || CountNamed(db.badges, name) == 1
  {
    if CountNamed(db.badges, name) == 1 then db
    else
      assert CountNamed(db.badges, name) == 0 ==> Badge(name, moduleName) !in db.badges;
      InsertBadgeTolerant(db, Badge(name, moduleName))
  }

  /** `select('total_xp')` then `update({ total_xp: current + xp })`, the
      games that bypass the store; nothing happens without a row. */
  function AddXpDirect(db: Db, xp: int): (d: Db)
    ensures db.progress.None? ==> d == db
    ensures db.progress.Some? ==> d.progress.Some? && d.progress.value.totalXp == db.progress.value.totalXp + xp
    ensures db.progress.Some? ==> d.progress.value.(totalXp := 0) == db.progress.value.(totalXp := 0)
    ensures d.(progress := db.progress) == db
  {
    match db.progress
    case None => db
    case Some(p) => db.(progress := Some(p.(totalXp := p.totalXp + xp)))
  }

  /** A read-modify-write of one `module_completion` row. */
  function WriteModule(db: Db, id: string, w: Completion.Write): (d: Db)
    ensures d.(modules := db.modules) == db
    ensures Completion.Lookup(d.modules, id) == Some(Completion.Apply(Completion.Lookup(db.modules, id), w))
  {
    db.(modules := Completion.WriteRow(db.modules, id, w))
  }

  /** `update({ last_spin: today, ... })` on `spin_wheel`: an update, so it
      has no effect when the user has no spin row. */
  function RecordSpin(db: Db, today: int): (d: Db)
    ensures db.spin.None? ==> d == db
    ensures db.spin.Some? ==> d.spin == Some(SpinRow(Some(today)))
    ensures d.(spin := db.spin) == db
  {
    if db.spin.Some? then db.(spin := Some(SpinRow(Some(today)))) else db
  }
}

=== FILE: badges_dropdown.dfy ===
/** The dashboard's badge collection: a fixed list of five badge
    definitions, each shown as achieved when the player holds a badge of
    the same name (whatever module it was granted for), a counter
    "achieved/total", and an "All Badges Collected!" banner.

    As written the counter's numerator is the number of badges the player
    holds, of any name, and the banner appears when that number equals
    five, so five badges from games outside the list show the banner with
    every definition locked, and all five definitions plus one more badge
    hide it (`BannerIgnoresDefinitions`).  `AchievedDefinitions` counts the
    achieved definitions instead, and its banner appears exactly when
    every definition is achieved (`IntendedBannerIffAllAchieved`). */
module BadgesDropdown {
  import opened Backend

  datatype Definition = Definition(name: string, moduleName: string, subject: string)

  const AllBadges: seq<Definition> := [
    Definition("Photosynthesis Master", "Class 6 Science", "Science"),
    Definition("Circuit Master", "Class 6 Engineering", "Engineering"),
    Definition("Number Explorer", "number_adventure_6", "Mathematics"),
    Definition("Shape Genius", "shape_builder_6", "Mathematics"),
    Definition("Code Pathfinder", "algorithm_adventure", "Technology")
  ]

  /** A definition is achieved when some held badge has its name; the
      module is not compared. */
  predicate IsAchieved(d: Definition, badges: seq<Badge>)
  {
    exists i :: 0 <= i < |badges| && badges[i].badgeName == d.name
  }

  /** The dropdown as written: the held badges counted, the fixed total,
      and the banner. */
  datatype View = View(achievedCount: nat, total: nat, allCollected: bool)

  function ViewAsWritten(badges: seq<Badge>): (v: View)
    ensures v.total == |AllBadges| == 5
    ensures v.achievedCount == |badges|
    ensures v.allCollected <==> |badges| == 5
  {
    View(|badges|, |AllBadges|, |badges| == |AllBadges|)
  }

  /** The number of definitions among `defs` that are achieved. */
  function AchievedAmong(defs: seq<Definition>, badges: seq<Badge>): (n: nat)
    ensures n <= |defs|
  {
    if defs == [] then 0
    else (if IsAchieved(defs[0], badges) then 1 else 0) + AchievedAmong(defs[1..], badges)
  }

  /** All of `defs` are achieved exactly when the count reaches their
      number. */
  lemma {:induction false} AchievedAmongFull(defs: seq<Definition>, badges: seq<Badge>)
    ensures AchievedAmong(defs, badges) == |defs| <==> forall i :: 0 <= i < |defs| ==> IsAchieved(defs[i], badges)
    decreases |defs|
  {
    if defs != [] {
      AchievedAmongFull(defs[1..], badges);
      if forall i :: 1 <= i < |defs| ==> IsAchieved(defs[i], badges) {
        assert forall i :: 0 <= i < |defs[1..]| ==> IsAchieved(defs[1..][i], badges);
      }
      if forall i :: 0 <= i < |defs[1..]| ==> IsAchieved(defs[1..][i], badges) {
        assert forall i :: 1 <= i < |defs| ==> IsAchieved(defs[i], badges);
      }
    }
  }

  /** The number of achieved definitions is at most the number of held
      badges: each achieved definition's name is held, and the five names
      differ. */
  lemma {:induction false} AchievedAmongBounded(defs: seq<Definition>, badges: seq<Badge>)
    requires forall i, j :: 0 <= i < j < |defs| ==> defs[i].name != defs[j].name
    ensures AchievedAmong(defs, badges) <= |badges|
    decreases |badges|
  {
    if badges != [] {
      var b := badges[0];
      var rest := badges[1..];
      assert badges == [b] + rest;
      // Every definition achieved by `badges` but not by `rest` has the name of `b`.
      NamesLost(defs, b, rest);
      AchievedAmongBounded(defs, rest);
    } else {
      NoneAchieved(defs);
    }
  }

  lemma {:induction false} NoneAchieved(defs: seq<Definition>)
    ensures AchievedAmong(defs, []) == 0
    decreases |defs|
  {
    if defs != [] {
      NoneAchieved(defs[1..]);
    }
  }

  /** Dropping one badge from the front loses at most one achieved
      definition when the names differ. */
  lemma {:induction false} NamesLost(defs: seq<Definition>, b: Badge, rest: seq<Badge>)
    requires forall i, j :: 0 <= i < j < |defs| ==> defs[i].name != defs[j].name
    ensures AchievedAmong(defs, [b] + rest) <= AchievedAmong(defs, rest) + 1
    ensures (forall i :: 0 <= i < |defs| ==> defs[i].name != b.badgeName) ==>
              AchievedAmong(defs, [b] + rest) == AchievedAmong(defs, rest)
    decreases |defs|
  {
    if defs != [] {
      var d := defs[0];
      NamesLost(defs[1..], b, rest);
      assert IsAchieved(d, [b] + rest) <==> d.name == b.badgeName || IsAchieved(d, rest) by {
        if IsAchieved(d, rest) {
          var i :| 0 <= i < |rest| && rest[i].badgeName == d.name;
          assert ([b] + rest)[i + 1] == rest[i];
        }
        if IsAchieved(d, [b] + rest) {
          var i :| 0 <= i < |[b] + rest| && ([b] + rest)[i].badgeName == d.name;
          if i > 0 {
            assert rest[i - 1] == ([b] + rest)[i];
          }
        }
        if d.name == b.badgeName {
          assert ([b] + rest)[0] == b;
        }
      }
      if d.name == b.badgeName {
        assert forall i :: 0 <= i < |defs[1..]| ==> defs[1..][i].name != b.badgeName by {
          forall i | 0 <= i < |defs[1..]|
            ensures defs[1..][i].name != b.badgeName
          {
            assert defs[1..][i] == defs[i + 1];
          }
        }
      }
    }
  }

  /** The evidently intended view: the achieved definitions counted, and
      the banner when every definition is achieved. */
  function AchievedDefinitions(badges: seq<Badge>): (v: View)
    ensures v.total == 5 && v.achievedCount <= v.total
    ensures v.achievedCount <= |badges|
    ensures v.allCollected <==> forall i :: 0 <= i < |AllBadges| ==> IsAchieved(AllBadges[i], badges)
  {
    AchievedAmongFull(AllBadges, badges);
    AchievedAmongBounded(AllBadges, badges);
    var n := AchievedAmong(AllBadges, badges);
    View(n, |AllBadges|, n == |AllBadges|)
  }

  /** With the intended count the banner appears exactly when all five
      definitions are achieved, and extra badges never hide it. */
  lemma IntendedBannerIffAllAchieved(badges: seq<Badge>, extra: Badge)
    ensures AchievedDefinitions(badges).allCollected <==> forall i :: 0 <= i < |AllBadges| ==> IsAchieved(AllBadges[i], badges)
    ensures AchievedDefinitions(badges).allCollected ==> AchievedDefinitions(badges + [extra]).allCollected
  {
    if AchievedDefinitions(badges).allCollected {
      forall i | 0 <= i < |AllBadges|
        ensures IsAchieved(AllBadges[i], badges + [extra])
      {
        var k :| 0 <= k < |badges| && badges[k].badgeName == AllBadges[i].name;
        assert (badges + [extra])[k] == badges[k];
      }
    }
  }

  /** As written: five badges from games outside the list (the SQL
      dungeon's four and 'IoT Architect') show the banner with no
      definition achieved, and the five listed badges plus 'Logic
      Tinkerer' read 6/5 and hide it. */
  lemma BannerIgnoresDefinitions()
    ensures var others := [ Badge("Data Detective", "SQL Data Dungeon"), Badge("Insert Wizard", "SQL Data Dungeon"),
                            Badge("Data Slayer", "SQL Data Dungeon"), Badge("Query Conqueror", "SQL Data Dungeon"),
                            Badge("IoT Architect", "IoT Smart City Simulator") ];
            && ViewAsWritten(others).allCollected
            && (forall i :: 0 <= i < |AllBadges| ==> !IsAchieved(AllBadges[i], others))
            && !AchievedDefinitions(others).allCollected
    ensures var listed := [ Badge("Photosynthesis Master", "Class 6 Science"), Badge("Circuit Master", "Class 6 Engineering"),
                            Badge("Number Explorer", "number_adventure_6"), Badge("Shape Genius", "shape_builder_6"),
                            Badge("Code Pathfinder", "algorithm_adventure"), Badge("Logic Tinkerer", "logic_gate_6") ];
            && ViewAsWritten(listed) == View(6, 5, false)
            && AchievedDefinitions(listed).allCollected
  {
    var listed := [ Badge("Photosynthesis Master", "Class 6 Science"), Badge("Circuit Master", "Class 6 Engineering"),
                    Badge("Number Explorer", "number_adventure_6"), Badge("Shape Genius", "shape_builder_6"),
                    Badge("Code Pathfinder", "algorithm_adventure"), Badge("Logic Tinkerer", "logic_gate_6") ];
    forall i | 0 <= i < |AllBadges|
      ensures IsAchieved(AllBadges[i], listed)
    {
      assert listed[i].badgeName == AllBadges[i].name;
    }
  }
}

=== FILE: basics.dfy ===
/** Small shared vocabulary: an optional value, a running maximum, sums and
    a decimal rendering of integers (used where the program builds an id
    with a template string). */
module Basics {

  /** The conventional Some/None datatype, standing for a value that may be
      `null` or `undefined` in the program. */
  datatype Option<+T> = None | Some(value: T) {

    /** The value, or `default` when there is none (the program's `x ?? d`). */
    function GetOr(default: T): T {
      match this
      case Some(v) => v
      case None => default
    }
  }

  /** `Math.max` on two integers. */
  function Max(a: int, b: int): (m: int)
    ensures m >= a && m >= b
    ensures m == a || m == b
  {
    if a >= b then a else b
  }

  /** The sum of a sequence of integers. */
  function Sum(xs: seq<int>): int
  {
    if xs == [] then 0 else xs[0] + Sum(xs[1..])
  }

  /** The largest element of a sequence, or `floor` when every element is
      below it (a running maximum that starts at `floor`). */
  function MaxFrom(floor: int, xs: seq<int>): (m: int)
    ensures m >= floor
    ensures forall i :: 0 <= i < |xs| ==> m >= xs[i]
    ensures m == floor || exists i :: 0 <= i < |xs| && m == xs[i]
    decreases |xs|
  {
    if xs == [] then floor else MaxFrom(Max(floor, xs[0]), xs[1..])
  }

  lemma {:induction false} SumAppend(xs: seq<int>, x: int)
    ensures Sum(xs + [x]) == Sum(xs) + x
  {
    if xs == [] {
      assert xs + [x] == [x];
    } else {
      assert (xs + [x])[1..] == xs[1..] + [x];
      SumAppend(xs[1..], x);
    }
  }

  lemma {:induction false} SumConcat(xs: seq<int>, ys: seq<int>)
    ensures Sum(xs + ys) == Sum(xs) + Sum(ys)
  {
    if xs == [] {
      assert xs + ys == ys;
    } else {
      assert (xs + ys)[1..] == xs[1..] + ys;
      SumConcat(xs[1..], ys);
    }
  }

  /** The decimal digits of a natural number, most significant first. */
  function NatToString(n: nat): (s: string)
    ensures |s| >= 1
    ensures forall i :: 0 <= i < |s| ==> '0' <= s[i] <= '9'
  {
    if n < 10 then [DigitChar(n)] else NatToString(n / 10) + [DigitChar(n % 10)]
  }

  function DigitChar(d: nat): (c: char)
    requires d < 10
    ensures '0' <= c <= '9'
  {
    ['0', '1', '2', '3', '4', '5', '6', '7', '8', '9'][d]
  }

  /** JavaScript's rendering of an integer inside a template string. */
  function IntToString(n: int): string
  {
    if n < 0 then "-" + NatToString(-n) else NatToString(n)
  }
}

=== FILE: circuit_builder.dfy ===
/** The circuit builder: four pieces (battery, switch, bulb, wires) are each
    placed once for 10 XP; placing the fourth completes the circuit with a
    50 XP bonus.  A signed-in player's placement reports 10 XP and records
    an in-progress step on module `circuit_builder_6`; completion reports
    the bonus, records a completed attempt and grants 'Circuit Master'.

    The state update is a functional `setState` whose result the handler
    then uses; it is modelled as running at once on the current state. */
module CircuitBuilder {
  import opened Sync
  import Completion

  datatype Piece = Battery | Switch | Bulb | Wires

  datatype State = State(battery: bool, switch: bool, bulb: bool, wires: bool, totalXp: nat, completed: bool)

  const Initial: State := State(false, false, false, false, 0, false)
  const PieceXp: nat := 10
  const CompletionBonus: nat := 50
  const ModuleId: string := "circuit_builder_6"

  function IsPlaced(s: State, p: Piece): bool
  {
    match p
    case Battery => s.battery
    case Switch => s.switch
    case Bulb => s.bulb
    case Wires => s.wires
  }

  predicate AllPlaced(s: State)
  {
    s.battery && s.switch && s.bulb && s.wires
  }

  function Placed(s: State): nat
  {
    (if s.battery then 1 else 0) + (if s.switch then 1 else 0) + (if s.bulb then 1 else 0) + (if s.wires then 1 else 0)
  }

  /** The states reachable from `Initial`. */
  predicate Valid(s: State)
  {
    && s.totalXp == PieceXp * Placed(s) + (if s.completed then CompletionBonus else 0)
    && (s.completed <==> AllPlaced(s))
  }

  function Place(s: State, p: Piece): State
  {
    match p
    case Battery => s.(battery := true)
    case Switch => s.(switch := true)
    case Bulb => s.(bulb := true)
    case Wires => s.(wires := true)
  }

  datatype Outcome = Outcome(state: State, effects: seq<Event>)

  /** `checkCompletion(newState)`: all four placed and not yet completed
      completes the game with the bonus, and a signed-in player is credited
      the bonus, a completed attempt and the badge. */
  function CheckCompletion(s: State, signedIn: bool): (o: Outcome)
    ensures AllPlaced(s) && !s.completed ==>
      && o.state == s.(completed := true, totalXp := s.totalXp + CompletionBonus)
      && (signedIn ==> o.effects == [ ReportProgress(CompletionBonus, 0),
                                       WriteModule(ModuleId, Completion.Attempt(Completion.Completed, o.state.totalXp, o.state.totalXp)),
                                       GrantBadge("Circuit Master", "Class 6 Engineering") ])
    ensures !(AllPlaced(s) && !s.completed) ==> o == Outcome(s, [])
    ensures !signedIn ==> o.effects == []
  {
    if AllPlaced(s) && !s.completed then
      var done := s.(completed := true, totalXp := s.totalXp + CompletionBonus);
      var effects :=
        if signedIn then
          [ ReportProgress(CompletionBonus, 0),
            WriteModule(ModuleId, Completion.Attempt(Completion.Completed, done.totalXp, done.totalXp)),
            GrantBadge("Circuit Master", "Class 6 Engineering") ]
        else [];
      Outcome(done, effects)
    else Outcome(s, [])
  }

  /** `handleDrop`: ignored once completed or when the piece is already in
      place; otherwise the piece is placed for 10 XP, a signed-in player's
      step is recorded (status in progress, xp the new total), and the
      completion check follows. */
  function HandleDrop(s: State, p: Piece, signedIn: bool): (o: Outcome)
    ensures s.completed || IsPlaced(s, p) ==> o == Outcome(s, [])
    ensures !s.completed && !IsPlaced(s, p) ==>
      && IsPlaced(o.state, p)
      && (forall q :: q != p ==> IsPlaced(o.state, q) == IsPlaced(s, q))
      && (o.state.completed <==> AllPlaced(o.state))
      && o.state.totalXp == s.totalXp + PieceXp + (if o.state.completed then CompletionBonus else 0)
    ensures !s.completed && !IsPlaced(s, p) && signedIn ==>
      |o.effects| >= 2 && o.effects[..2] == [ReportProgress(PieceXp, 0), WriteModule(ModuleId, Completion.CircuitStep(s.totalXp + PieceXp))]
    ensures !signedIn ==> o.effects == []
  {
    if s.completed || IsPlaced(s, p) then Outcome(s, [])
    else
      var placed := Place(s, p).(totalXp := s.totalXp + PieceXp);
      var step := if signedIn then [ReportProgress(PieceXp, 0), WriteModule(ModuleId, Completion.CircuitStep(placed.totalXp))] else [];
      var checked := CheckCompletion(placed, signedIn);
      Outcome(checked.state, step + checked.effects)
  }

  /** Every placement keeps the game reachable, and the XP it reports is
      exactly the growth of the game total. */
  lemma DropKeepsValid(s: State, p: Piece, signedIn: bool)
    requires Valid(s)
    ensures Valid(HandleDrop(s, p, signedIn).state)
    ensures signedIn ==> TotalXp(HandleDrop(s, p, signedIn).effects) == HandleDrop(s, p, signedIn).state.totalXp - s.totalXp
  {
    var o := HandleDrop(s, p, signedIn);
    if signedIn && !s.completed && !IsPlaced(s, p) {
      var placed := Place(s, p).(totalXp := s.totalXp + PieceXp);
      var step := [ReportProgress(PieceXp, 0), WriteModule(ModuleId, Completion.CircuitStep(placed.totalXp))];
      var checked := CheckCompletion(placed, signedIn);
      TotalXpConcat(step, checked.effects);
      TotalXpOfThree(step[0], step[1], step[1]);
      if AllPlaced(placed) {
        var c := checked.effects;
        TotalXpOfThree(c[0], c[1], c[2]);
        assert c == [c[0], c[1], c[2]];
      }
    }
  }

  function Play(s: State, ps: seq<Piece>, signedIn: bool): Outcome
    decreases |ps|
  {
    if ps == [] then Outcome(s, [])
    else
      var first := HandleDrop(s, ps[0], signedIn);
      var rest := Play(first.state, ps[1..], signedIn);
      Outcome(rest.state, first.effects + rest.effects)
  }

  /** Over any sequence of placements the game stays reachable, every piece
      placed stays placed, and the XP reported adds up to the game total's
      growth. */
  lemma {:induction false} PlayKeepsValid(s: State, ps: seq<Piece>, signedIn: bool)
    requires Valid(s)
    ensures Valid(Play(s, ps, signedIn).state)
    ensures forall p :: IsPlaced(s, p) || p in ps ==> IsPlaced(Play(s, ps, signedIn).state, p)
    ensures signedIn ==> TotalXp(Play(s, ps, signedIn).effects) == Play(s, ps, signedIn).state.totalXp - s.totalXp
    decreases |ps|
  {
    if ps != [] {
      var first := HandleDrop(s, ps[0], signedIn);
      DropKeepsValid(s, ps[0], signedIn);
      PlayKeepsValid(first.state, ps[1..], signedIn);
      forall p | IsPlaced(s, p) || p in ps
        ensures IsPlaced(Play(s, ps, signedIn).state, p)
      {
        if p != ps[0] && !IsPlaced(s, p) {
          assert p in ps[1..];
        }
      }
      if signedIn {
        TotalXpConcat(first.effects, Play(first.state, ps[1..], signedIn).effects);
      }
    }
  }

  /** A full circuit, in any order, completes with 90 XP, all of it
      credited to a signed-in player. */
  lemma FullCircuitEarns90(ps: seq<Piece>, signedIn: bool)
    requires Battery in ps && Switch in ps && Bulb in ps && Wires in ps
    ensures Play(Initial, ps, signedIn).state.completed
    ensures Play(Initial, ps, signedIn).state.totalXp == 90
    ensures signedIn ==> TotalXp(Play(Initial, ps, signedIn).effects) == 90
  {
    PlayKeepsValid(Initial, ps, signedIn);
    var f := Play(Initial, ps, signedIn).state;
    assert IsPlaced(f, Battery) && IsPlaced(f, Switch) && IsPlaced(f, Bulb) && IsPlaced(f, Wires);
  }

  /** `getCompletion`: the share of the four pieces placed. */
  function CompletionPercentage(s: State): (p: real)
    ensures 0.0 <= p <= 100.0
    ensures p == 100.0 <==> AllPlaced(s)
    ensures Valid(s) ==> (p == 100.0 <==> s.completed)
  {
    Placed(s) as real / 4.0 * 100.0
  }

  /** `reset`: no piece placed, no XP, not completed. */
  function Reset(): (s: State)
    ensures Valid(s) && Placed(s) == 0 && s.totalXp == 0 && !s.completed
    ensures CompletionPercentage(s) == 0.0
  {
    Initial
  }
}

=== FILE: completion.dfy ===
/** Per-module completion rows and the read-modify-write rules the games use
    to update them.  Every game that records module progress reads the row
    for (user, module) — absent rows read as attempts 0 and best score 0 —
    and writes a new row computed by one of four variants:

    - `Attempt`: attempts + 1, best = max(best, score), the given status and
      xp (photosynthesis, circuit completion, number adventure, organic
      reactions);
    - `CircuitStep`: a partial circuit placement — status in_progress,
      attempts + 1, best score left alone (set to the xp on first insert);
    - `LogicMerge`: the logic-gate game — attempts + 1, best = max(best, 100),
      xp = max(xp, earned), completed;
    - `Upsert`: a blind upsert of the given columns (shape builder, both
      logic-gate variants' siblings, probability, SQL, IoT, disaster). */
module Completion {
  import opened Basics

  datatype Status = NotStarted | InProgress | Completed

  /** One `module_completion` row of the current user. */
  datatype Row = Row(status: Status, xpEarned: nat, attempts: nat, bestScore: nat)

  /** The current user's rows, keyed by module id (one row per module). */
  type Table = map<string, Row>

  datatype Write =
    | Attempt(status: Status, xpEarned: nat, score: nat)
    | CircuitStep(stepXp: nat)
    | LogicMerge(earned: nat)
    | Upsert(upStatus: Status, upXp: nat, upAttempts: Option<nat>, upBest: Option<nat>)
  {
    /** The variants that read the stored row and count one more attempt. */
    predicate Counts() { !Upsert? }
  }

  /** `existing?.attempts || 0` */
  function PriorAttempts(existing: Option<Row>): nat
  {
    if existing.Some? then existing.value.attempts else 0
  }

  /** `existing?.best_score || 0` */
  function PriorBest(existing: Option<Row>): nat
  {
    if existing.Some? then existing.value.bestScore else 0
  }

  /** `existing?.xp_earned || 0` */
  function PriorXp(existing: Option<Row>): nat
  {
    if existing.Some? then existing.value.xpEarned else 0
  }

  /** The shared pattern: one more attempt and a running best score. */
  function RecordAttempt(existing: Option<Row>, status: Status, xpEarned: nat, score: nat): (r: Row)
    ensures r.attempts == PriorAttempts(existing) + 1
    ensures r.bestScore >= score && r.bestScore >= PriorBest(existing)
    ensures r.bestScore == score || r.bestScore == PriorBest(existing)
    ensures r.status == status && r.xpEarned == xpEarned
  {
    Row(status, xpEarned, PriorAttempts(existing) + 1, Max(PriorBest(existing), score))
  }

  /** A partial circuit placement: an update of status, xp and attempts
      only, or an insert whose best score is the xp so far. */
  function RecordCircuitStep(existing: Option<Row>, xp: nat): (r: Row)
    ensures r.status == InProgress && r.xpEarned == xp
    ensures r.attempts == PriorAttempts(existing) + 1
    ensures existing.Some? ==> r.bestScore == existing.value.bestScore
    ensures existing.None? ==> r.bestScore == xp
  {
    match existing
    case Some(row) => row.(status := InProgress, xpEarned := xp, attempts := row.attempts + 1)
    case None => Row(InProgress, xp, 1, xp)
  }

  /** The logic-gate merge: an update taking maxima, or a fresh insert.  Its
      contract shows that both branches follow one max-based formula. */
  function MergeLogicGate(existing: Option<Row>, earned: nat): (r: Row)
    ensures r.status == Completed
    ensures r.attempts == PriorAttempts(existing) + 1
    ensures r.bestScore == Max(PriorBest(existing), 100)
    ensures r.xpEarned == Max(PriorXp(existing), earned)
  {
    match existing
    case Some(row) =>
      Row(Completed, Max(row.xpEarned, earned), row.attempts + 1, Max(row.bestScore, 100))
    case None =>
      Row(Completed, earned, 1, 100)
  }

  /** A blind upsert: the given columns replace the stored ones; an omitted
      column keeps its stored value, or 0 on insert. */
  function UpsertRow(existing: Option<Row>, status: Status, xp: nat, attempts: Option<nat>, best: Option<nat>): (r: Row)
    ensures r.status == status && r.xpEarned == xp
    ensures attempts.Some? ==> r.attempts == attempts.value
    ensures attempts.None? ==> r.attempts == PriorAttempts(existing)
    ensures best.Some? ==> r.bestScore == best.value
    ensures best.None? ==> r.bestScore == PriorBest(existing)
  {
    Row(status, xp, attempts.GetOr(PriorAttempts(existing)), best.GetOr(PriorBest(existing)))
  }

  function Apply(existing: Option<Row>, w: Write): Row
  {
    match w
    case Attempt(s, x, sc) => RecordAttempt(existing, s, x, sc)
    case CircuitStep(x) => RecordCircuitStep(existing, x)
    case LogicMerge(x) => MergeLogicGate(existing, x)
    case Upsert(s, x, a, b) => UpsertRow(existing, s, x, a, b)
  }

  function Lookup(t: Table, id: string): Option<Row>
  {
    if id in t then Some(t[id]) else None
  }

  /** Read the row of `id`, compute the new row, write it back.  Only the
      row of `id` changes. */
  function WriteRow(t: Table, id: string, w: Write): (t': Table)
    ensures id in t' && t'[id] == Apply(Lookup(t, id), w)
    ensures forall m :: m != id ==> Lookup(t', m) == Lookup(t, m)
  {
    t[id := Apply(Lookup(t, id), w)]
  }

  /** The row after a sequence of writes to one module, oldest first. */
  function ApplyAll(existing: Option<Row>, ws: seq<Write>): Option<Row>
    decreases |ws|
  {
    if ws == [] then existing else ApplyAll(Some(Apply(existing, ws[0])), ws[1..])
  }

  /** Every counting write adds exactly one attempt: k counting writes
      leave `attempts` at its prior value + k (k on a fresh module). */
  lemma {:induction false} AttemptsCountWrites(existing: Option<Row>, ws: seq<Write>)
    requires forall i :: 0 <= i < |ws| ==> ws[i].Counts()
    ensures PriorAttempts(ApplyAll(existing, ws)) == PriorAttempts(existing) + |ws|
    decreases |ws|
  {
    if ws != [] {
      AttemptsCountWrites(Some(Apply(existing, ws[0])), ws[1..]);
    }
  }

  /** No counting write lowers the best score. */
  lemma {:induction false} BestScoreNeverDecreases(existing: Option<Row>, ws: seq<Write>)
    requires forall i :: 0 <= i < |ws| ==> ws[i].Counts()
    ensures PriorBest(ApplyAll(existing, ws)) >= PriorBest(existing)
    decreases |ws|
  {
    if ws != [] {
      BestScoreNeverDecreases(Some(Apply(existing, ws[0])), ws[1..]);
    }
  }

  function Scores(ws: seq<Write>): seq<int>
    requires forall i :: 0 <= i < |ws| ==> ws[i].Attempt?
  {
    if ws == [] then [] else [ws[0].score as int] + Scores(ws[1..])
  }

  /** After a run of `Attempt` writes the best score is exactly the maximum
      of the prior best and every reported score. */
  lemma {:induction false} BestScoreIsRunningMax(existing: Option<Row>, ws: seq<Write>)
    requires forall i :: 0 <= i < |ws| ==> ws[i].Attempt?
    ensures PriorBest(ApplyAll(existing, ws)) == MaxFrom(PriorBest(existing), Scores(ws))
    decreases |ws|
  {
    if ws != [] {
      var next := Some(Apply(existing, ws[0]));
      assert PriorBest(next) == Max(PriorBest(existing), ws[0].score);
      BestScoreIsRunningMax(next, ws[1..]);
    }
  }

  /** An upsert is not a counting write: it can lower the best score and
      reset the attempt count of an existing row. */
  lemma UpsertCanLowerBestAndAttempts()
    ensures var before := Some(Row(Completed, 60, 5, 100));
            var r := Apply(before, Upsert(Completed, 60, Some(1), Some(72)));
            r.bestScore < before.value.bestScore && r.attempts < before.value.attempts
  {
  }

  /** As written, a partial `Attempt` or a circuit step overwrites a
      `completed` row: status is not sticky.  A circuit completed, reset
      and given its first piece again does this. */
  lemma CompletedIsOverwritten()
    ensures Apply(Some(Row(Completed, 80, 3, 80)), Attempt(InProgress, 10, 10)).status == InProgress
    ensures Apply(Some(Row(Completed, 90, 5, 90)), CircuitStep(10)).status == InProgress
  {
  }

  /** The evidently intended rule: a `completed` row stays completed. */
  function RecordAttemptSticky(existing: Option<Row>, status: Status, xpEarned: nat, score: nat): (r: Row)
    ensures r.attempts == PriorAttempts(existing) + 1
    ensures r.bestScore == Max(PriorBest(existing), score)
    ensures r.status == Completed <==> (status == Completed || (existing.Some? && existing.value.status == Completed))
    ensures r.status != Completed ==> r.status == status
  {
    var s := if existing.Some? && existing.value.status == Completed then Completed else status;
    Row(s, xpEarned, PriorAttempts(existing) + 1, Max(PriorBest(existing), score))
  }

  /** The evidently intended rule for any write: the row is the one the
      write produces, except that a `completed` row stays completed.  For
      an attempt it is `RecordAttemptSticky`. */
  function StickyWrite(existing: Option<Row>, w: Write): (r: Row)
    ensures r.(status := Apply(existing, w).status) == Apply(existing, w)
    ensures r.status == Completed <==> (Apply(existing, w).status == Completed || (existing.Some? && existing.value.status == Completed))
    ensures r.status != Completed ==> r.status == Apply(existing, w).status
    ensures w.Attempt? ==> r == RecordAttemptSticky(existing, w.status, w.xpEarned, w.score)
  {
    var r := Apply(existing, w);
    if existing.Some? && existing.value.status == Completed then r.(status := Completed) else r
  }

  function ApplyAllSticky(existing: Option<Row>, ws: seq<Write>): Option<Row>
    decreases |ws|
  {
    if ws == [] then existing
    else ApplyAllSticky(Some(StickyWrite(existing, ws[0])), ws[1..])
  }

  /** With the sticky rule, once a module is completed no later write of
      any kind (attempt, circuit step, merge or upsert) takes the status
      away from completed. */
  lemma {:induction false} CompletedStaysCompleted(existing: Option<Row>, ws: seq<Write>)
    requires existing.Some? && existing.value.status == Completed
    ensures ApplyAllSticky(existing, ws).Some?
    ensures ApplyAllSticky(existing, ws).value.status == Completed
    decreases |ws|
  {
    if ws != [] {
      CompletedStaysCompleted(Some(StickyWrite(existing, ws[0])), ws[1..]);
    }
  }
}

=== FILE: disaster_city.dfy ===
/** The disaster-resilient city builder: the player selects a material,
    drags a structure onto the city map, and runs a disaster simulation.
    Each of the four zones tests one resilience of the material (the safe
    zone tests none); a structure survives when the tested resilience is at
    least 2.  When at least 70% of the structures survive the game earns
    60 XP, and a signed-in player has 60 added to the persisted total
    directly, the module `disaster-resilient-city-grade-12` upserted as
    completed with the rounded survival rate as best score, and the
    'Disaster Engineer' badge inserted.

    Survival depends only on a structure's material and zone, so running
    the simulation again on the same city succeeds again and earns and
    credits another 60 XP (`SimulateAgainCreditsAgain`). */
module DisasterCity {
  import opened Basics
  import opened Sync
  import Completion

  /** A material's resilience against each disaster, on a scale of 1 to 3. */
  datatype Material = Material(name: string, earthquake: nat, flood: nat, storm: nat)

  const Wood: Material := Material("Wood", 1, 1, 2)
  const Steel: Material := Material("Steel", 3, 2, 3)
  const Composite: Material := Material("Composite", 2, 3, 2)
  const Materials: seq<Material> := [Wood, Steel, Composite]

  datatype ZoneName = FaultLine | FloodPlain | CoastalArea | SafeZone

  /** A zone's rectangle on the map, in pixels. */
  datatype Zone = Zone(name: ZoneName, x: real, y: real, width: real, height: real)

  const Zones: seq<Zone> := [
    Zone(FaultLine, 10.0, 10.0, 180.0, 120.0),
    Zone(FloodPlain, 200.0, 10.0, 180.0, 120.0),
    Zone(CoastalArea, 10.0, 140.0, 180.0, 120.0),
    Zone(SafeZone, 200.0, 140.0, 180.0, 120.0)
  ]

  const SuccessXp: nat := 60
  const ModuleId: string := "disaster-resilient-city-grade-12"
  const BadgeName: string := "Disaster Engineer"
  const BadgeModule: string := "Disaster-Resilient City Builder"

  /** A point lies in a zone when it is inside its rectangle, borders
      included. */
  predicate Contains(z: Zone, x: real, y: real)
  {
    z.x <= x <= z.x + z.width && z.y <= y <= z.y + z.height
  }

  function ZoneFrom(x: real, y: real, i: nat): (r: Option<Zone>)
    requires i <= |Zones|
    ensures r.Some? ==> exists j :: i <= j < |Zones| && Zones[j] == r.value && Contains(r.value, x, y)
    ensures r.None? ==> forall j :: i <= j < |Zones| ==> !Contains(Zones[j], x, y)
    decreases |Zones| - i
  {
    if i == |Zones| then None
    else if Contains(Zones[i], x, y) then Some(Zones[i])
    else ZoneFrom(x, y, i + 1)
  }

  /** The zone a drop point falls in: the first zone containing it, or none
      for a point between or outside the zones. */
  function ZoneAt(x: real, y: real): (r: Option<Zone>)
    ensures r.Some? ==> r.value in Zones && Contains(r.value, x, y)
    ensures r.None? <==> forall z :: z in Zones ==> !Contains(z, x, y)
  {
    ZoneFrom(x, y, 0)
  }

  /** The zones do not overlap, even with their borders: a point lies in at
      most one zone, so taking the first match loses nothing. */
  lemma ZonesDisjoint(i: nat, j: nat, x: real, y: real)
    requires i < |Zones| && j < |Zones|
    requires Contains(Zones[i], x, y) && Contains(Zones[j], x, y)
    ensures i == j
  {
  }

  /** The centre of each zone lies in that zone. */
  lemma ZoneCentres()
    ensures forall i :: 0 <= i < |Zones| ==>
      ZoneAt(Zones[i].x + Zones[i].width / 2.0, Zones[i].y + Zones[i].height / 2.0) == Some(Zones[i])
  {
    forall i | 0 <= i < |Zones|
      ensures ZoneAt(Zones[i].x + Zones[i].width / 2.0, Zones[i].y + Zones[i].height / 2.0) == Some(Zones[i])
    {
      var z := Zones[i];
      var r := ZoneAt(z.x + z.width / 2.0, z.y + z.height / 2.0);
      if r != Some(z) {
        var j :| 0 <= j < |Zones| && Zones[j] == r.value;
        ZonesDisjoint(i, j, z.x + z.width / 2.0, z.y + z.height / 2.0);
      }
    }
  }

  datatype Placed = Placed(id: string, kind: string, material: Material, zone: ZoneName, x: real, y: real, survived: bool)

  /** The city, the game's XP and the selected material. */
  datatype State = State(structures: seq<Placed>, xp: nat, selected: Option<Material>)

  const Initial: State := State([], 0, None)

  datatype Outcome = Outcome(state: State, effects: seq<Event>)

  /** A drop on the map: ignored without a selected material or outside
      every zone; otherwise the structure is appended, in the zone it fell
      in, standing (`survived` true), named after the clock `now`. */
  function HandleStructureDrop(s: State, kind: string, x: real, y: real, now: nat): (r: State)
    ensures s.selected.None? || ZoneAt(x, y).None? ==> r == s
    ensures s.selected.Some? && ZoneAt(x, y).Some? ==>
      && r.structures == s.structures + [Placed("structure-" + NatToString(now), kind, s.selected.value, ZoneAt(x, y).value.name, x, y, true)]
      && Contains(ZoneAt(x, y).value, x, y)
      && r.xp == s.xp && r.selected == s.selected
  {
    var z := ZoneAt(x, y);
    if s.selected.None? || z.None? then s
    else s.(structures := s.structures + [Placed("structure-" + NatToString(now), kind, s.selected.value, z.value.name, x, y, true)])
  }

  /** The resilience a zone's disaster tests (the safe zone counts as 3). */
  function Tested(m: Material, z: ZoneName): nat
  {
    match z
    case FaultLine => m.earthquake
    case FloodPlain => m.flood
    case CoastalArea => m.storm
    case SafeZone => 3
  }

  /** Whether a structure of material `m` survives in zone `z`. */
  function Survives(m: Material, z: ZoneName): (b: bool)
    ensures z == SafeZone ==> b
    ensures b <==> Tested(m, z) >= 2
  {
    Tested(m, z) >= 2
  }

  /** Steel and composite survive everywhere; wood survives only on the
      coast and in the safe zone. */
  lemma SurvivalTable(z: ZoneName)
    ensures Survives(Steel, z) && Survives(Composite, z)
    ensures Survives(Wood, z) <==> z == CoastalArea || z == SafeZone
  {
  }

  function Survivors(ps: seq<Placed>): (n: nat)
    ensures n <= |ps|
  {
    if ps == [] then 0 else (if ps[0].survived then 1 else 0) + Survivors(ps[1..])
  }

  /** Every structure with its verdict; nothing else about it changes. */
  function Judge(ps: seq<Placed>): (r: seq<Placed>)
    ensures |r| == |ps|
    ensures forall i :: 0 <= i < |ps| ==> r[i] == ps[i].(survived := Survives(ps[i].material, ps[i].zone))
  {
    seq(|ps|, i requires 0 <= i < |ps| => ps[i].(survived := Survives(ps[i].material, ps[i].zone)))
  }

  /** The city passes when at least 70% of its structures survive, stated
      without division. */
  predicate Passes(survivors: nat, total: nat)
  {
    100 * survivors >= 70 * total
  }

  /** Integer division pins down the quotient: `n / d` is the one `q` with
      `d * q <= n < d * q + d`. */
  lemma DivIsUnique(n: nat, d: nat, q: nat)
    requires d > 0 && d * q <= n < d * q + d
    ensures n / d == q
  {
    var q' := n / d;
    assert d * q' <= n < d * q' + d;
    assert d * (q - q') == d * q - d * q';
    MulStep(d, q - q');
  }

  /** A non-zero multiple of `d` is at least `d` away from zero. */
  lemma MulStep(d: nat, k: int)
    requires d > 0
    ensures k >= 1 ==> d * k >= d
    ensures k <= -1 ==> d * k + d <= 0
  {
    if k >= 1 {
      MulMonotone(d, 1, k);
    } else if k <= -1 {
      MulMonotone(d, 1, -k);
    }
  }

  lemma MulMonotone(d: nat, a: nat, b: nat)
    requires a <= b
    ensures d * a <= d * b
  {
    assert d * b == d * a + d * (b - a);
  }

  lemma RoundFacts(survivors: nat, total: nat)
    requires 0 < total && survivors <= total
    ensures var r := (200 * survivors + total) / (2 * total);
            && 2 * total * r <= 200 * survivors + total < 2 * total * r + 2 * total
            && r <= 100
            && (r == 100 <==> 200 * survivors >= 199 * total)
  {
    var n := 200 * survivors + total;
    var d := 2 * total;
    var r := n / d;
    assert d * r <= n < d * r + d;
    assert d * 101 == 202 * total && d * 100 == 200 * total;
    if r > 100 {
      MulMonotone(d, 101, r);
    }
    if 200 * survivors >= 199 * total {
      DivIsUnique(n, d, 100);
    }
  }

  /** `Math.round` of the survival rate in percent, in integers: the
      nearest whole percentage, halves rounded up, and 100 exactly when
      (almost) every structure survives. */
  function BestScore(survivors: nat, total: nat): (r: nat)
    requires 0 < total && survivors <= total
    ensures 2 * total * r <= 200 * survivors + total < 2 * total * r + 2 * total
    ensures r <= 100
    ensures r == 100 <==> 200 * survivors >= 199 * total
  {
    RoundFacts(survivors, total);
    (200 * survivors + total) / (2 * total)
  }

  function SuccessEffects(best: nat): seq<Event>
  {
    [ AddXpDirect(SuccessXp),
      WriteModule(ModuleId, Completion.Upsert(Completion.Completed, SuccessXp, Some(1), Some(best))),
      InsertBadgeDirect(BadgeName, BadgeModule) ]
  }

  /** `runDisasterSimulation`: refused for an empty city; otherwise every
      structure gets its verdict, and a passing city earns 60 XP and, for a
      signed-in player, the credit, the module record and the badge. */
  function RunSimulation(s: State, signedIn: bool): (o: Outcome)
    ensures s.structures == [] ==> o == Outcome(s, [])
    ensures s.structures != [] ==>
      var judged := Judge(s.structures);
      var pass := Passes(Survivors(judged), |judged|);
      && o.state.structures == judged
      && o.state.selected == s.selected
      && o.state.xp == s.xp + (if pass then SuccessXp else 0)
      && o.effects == (if pass && signedIn then SuccessEffects(BestScore(Survivors(judged), |judged|)) else [])
  {
    if s.structures == [] then Outcome(s, [])
    else
      var judged := Judge(s.structures);
      var n := Survivors(judged);
      if Passes(n, |judged|) then
        Outcome(s.(structures := judged, xp := s.xp + SuccessXp),
                if signedIn then SuccessEffects(BestScore(n, |judged|)) else [])
      else Outcome(s.(structures := judged), [])
  }

  /** A city whose every structure survives passes with best score 100. */
  lemma {:induction false} AllStandingCount(ps: seq<Placed>)
    requires forall i :: 0 <= i < |ps| ==> ps[i].survived
    ensures Survivors(ps) == |ps|
  {
    if ps != [] {
      AllStandingCount(ps[1..]);
    }
  }

  /** A city built only of steel and composite passes with best score 100,
      however it is laid out. */
  lemma ResilientCityPasses(s: State)
    requires s.structures != []
    requires forall i :: 0 <= i < |s.structures| ==> s.structures[i].material in [Steel, Composite]
    ensures var judged := Judge(s.structures);
            && Survivors(judged) == |judged|
            && Passes(Survivors(judged), |judged|)
            && BestScore(Survivors(judged), |judged|) == 100
            && RunSimulation(s, true).effects == SuccessEffects(100)
  {
    var judged := Judge(s.structures);
    forall i | 0 <= i < |judged|
      ensures judged[i].survived
    {
      SurvivalTable(s.structures[i].zone);
    }
    AllStandingCount(judged);
  }

  /** The verdict depends only on material and zone: simulating a judged
      city changes no structure. */
  lemma JudgeIdempotent(ps: seq<Placed>)
    ensures Judge(Judge(ps)) == Judge(ps)
  {
  }

  /** Running the simulation twice on the same city earns and credits the
      60 XP twice when it passes, and nothing when it fails. */
  lemma SimulateAgainCreditsAgain(s: State)
    requires s.structures != []
    ensures var o1 := RunSimulation(s, true);
            var o2 := RunSimulation(o1.state, true);
            var pass := Passes(Survivors(Judge(s.structures)), |s.structures|);
            && o2.state.structures == o1.state.structures
            && o2.state.xp == s.xp + (if pass then 2 * SuccessXp else 0)
            && TotalXp(o1.effects + o2.effects) == (if pass then 2 * SuccessXp else 0)
  {
    var o1 := RunSimulation(s, true);
    JudgeIdempotent(s.structures);
    var o2 := RunSimulation(o1.state, true);
    TotalXpConcat(o1.effects, o2.effects);
    if o1.effects != [] {
      TotalXpOfThree(o1.effects[0], o1.effects[1], o1.effects[2]);
      assert o1.effects == [o1.effects[0], o1.effects[1], o1.effects[2]];
    }
  }

  /** The 70% threshold on small cities: three of four standing passes,
      two of three fails, seven of ten passes with best score 70. */
  lemma ThresholdExamples()
    ensures Passes(3, 4) && BestScore(3, 4) == 75
    ensures !Passes(2, 3) && BestScore(2, 3) == 67
    ensures Passes(7, 10) && BestScore(7, 10) == 70
    ensures !Passes(0, 1) && BestScore(0, 1) == 0
  {
  }

  /** `resetCity` (and `handlePlayAgain`). */
  function ResetCity(): (r: State)
    ensures r.structures == [] && r.xp == 0 && r.selected.None?
    ensures RunSimulation(r, true) == Outcome(r, [])
  {
    Initial
  }
}

=== FILE: iot_city.dfy ===
/** The IoT smart-city game: sensors of four kinds are dropped on city
    zones with their kind's default settings, their settings can be edited,
    and the player asks for an optimisation check.  For each kind only the
    first sensor placed is judged: it is correct when it stands in the
    kind's ideal zone and matches every setting the kind's goal specifies.
    When all four kinds are correct the game earns 100 XP; a signed-in
    player's total is raised by 100 directly, the module
    `iot-smart-city-grade-12` is upserted as completed, and 'IoT Architect'
    is inserted (a duplicate tolerated).  Every successful check earns and
    credits the 100 XP again.

    Sensor ids are built from the drop time, which is a parameter here. */
module IoTCity {
  import opened Basics
  import opened Sync
  import Completion

  datatype Kind = Temperature | AirQuality | TrafficFlow | WaterLevel

  const Kinds: seq<Kind> := [TrafficFlow, AirQuality, Temperature, WaterLevel]

  datatype Settings = Settings(frequency: string, latency: string, bandwidth: string)

  function Name(k: Kind): string
  {
    match k
    case Temperature => "Temperature Sensor"
    case AirQuality => "Air Quality Sensor"
    case TrafficFlow => "Traffic Flow Sensor"
    case WaterLevel => "Water Level Sensor"
  }

  /** `sensor.name.split(' ')[0]`. */
  function FirstWord(k: Kind): string
  {
    match k
    case Temperature => "Temperature"
    case AirQuality => "Air"
    case TrafficFlow => "Traffic"
    case WaterLevel => "Water"
  }

  function Defaults(k: Kind): Settings
  {
    match k
    case Temperature => Settings("5s", "low", "medium")
    case AirQuality => Settings("10s", "medium", "high")
    case TrafficFlow => Settings("1s", "low", "high")
    case WaterLevel => Settings("30s", "medium", "low")
  }

  datatype Goal = Goal(idealZone: string, idealLatency: Option<string>, idealBandwidth: Option<string>, idealFrequency: Option<string>)

  function GoalOf(k: Kind): Goal
  {
    match k
    case TrafficFlow => Goal("Highway", Some("low"), None, None)
    case AirQuality => Goal("Industrial Zone", None, Some("high"), None)
    case Temperature => Goal("Residential Area", None, None, Some("5s"))
    case WaterLevel => Goal("River Bank", Some("medium"), None, None)
  }

  datatype Sensor = Sensor(id: string, kind: Kind, zone: string, deviceId: string, settings: Settings)

  /** The check of one sensor against its kind's goal: the zone must be the
      ideal one, and each setting the goal names must match. */
  predicate Meets(s: Sensor)
  {
    var g := GoalOf(s.kind);
    && s.zone == g.idealZone
    && (g.idealLatency.None? || s.settings.latency == g.idealLatency.value)
    && (g.idealBandwidth.None? || s.settings.bandwidth == g.idealBandwidth.value)
    && (g.idealFrequency.None? || s.settings.frequency == g.idealFrequency.value)
  }

  /** Every kind's defaults already satisfy its goal's settings, so a
      sensor left at its defaults is correct exactly when it stands in its
      ideal zone. */
  lemma DefaultsMeetGoals(id: string, k: Kind, zone: string, deviceId: string)
    ensures Meets(Sensor(id, k, zone, deviceId, Defaults(k))) <==> zone == GoalOf(k).idealZone
  {
  }

  /** `placedSensors.find(s => s.type.name === name)`. */
  function FirstOfKind(sensors: seq<Sensor>, k: Kind): (r: Option<Sensor>)
    ensures r.Some? ==> r.value in sensors && r.value.kind == k
    ensures r.None? <==> forall i :: 0 <= i < |sensors| ==> sensors[i].kind != k
    decreases |sensors|
  {
    if sensors == [] then None
    else if sensors[0].kind == k then Some(sensors[0])
    else FirstOfKind(sensors[1..], k)
  }

  predicate KindCorrect(sensors: seq<Sensor>, k: Kind)
  {
    var f := FirstOfKind(sensors, k);
    f.Some? && Meets(f.value)
  }

  function CountFrom(sensors: seq<Sensor>, ks: seq<Kind>): (n: nat)
    ensures n <= |ks|
    ensures n == |ks| <==> forall i :: 0 <= i < |ks| ==> KindCorrect(sensors, ks[i])
    decreases |ks|
  {
    if ks == [] then 0
    else
      var rest := CountFrom(sensors, ks[1..]);
      assert forall i :: 1 <= i < |ks| ==> ks[i] == ks[1..][i - 1];
      (if KindCorrect(sensors, ks[0]) then 1 else 0) + rest
  }

  /** `correctPlacements`: the number of goal kinds whose first sensor is
      correct. */
  function CorrectPlacements(sensors: seq<Sensor>): (n: nat)
    ensures n <= |Kinds|
  {
    CountFrom(sensors, Kinds)
  }

  /** The check succeeds exactly when the first sensor of every kind exists
      and is correct. */
  lemma SuccessIffAllKindsCorrect(sensors: seq<Sensor>)
    ensures CorrectPlacements(sensors) == |Kinds| <==> forall k :: KindCorrect(sensors, k)
  {
    if CorrectPlacements(sensors) == |Kinds| {
      forall k
        ensures KindCorrect(sensors, k)
      {
        assert k == Kinds[0] || k == Kinds[1] || k == Kinds[2] || k == Kinds[3];
      }
    }
  }

  /** Only the first sensor of a kind is judged: placing another sensor of
      a kind already on the map never changes the verdict. */
  lemma {:induction false} LaterSensorsIgnored(sensors: seq<Sensor>, extra: Sensor, k: Kind)
    requires exists i :: 0 <= i < |sensors| && sensors[i].kind == extra.kind
    ensures FirstOfKind(sensors + [extra], k) == FirstOfKind(sensors, k)
    decreases |sensors|
  {
    var i :| 0 <= i < |sensors| && sensors[i].kind == extra.kind;
    assert (sensors + [extra])[1..] == sensors[1..] + [extra];
    if sensors[0].kind != k && i > 0 {
      assert sensors[1..][i - 1].kind == extra.kind;
      LaterSensorsIgnored(sensors[1..], extra, k);
    } else if sensors[0].kind != k {
      assert sensors[0].kind == extra.kind;
      assert FirstOfKind(sensors, k) == FirstOfKind(sensors[1..], k);
      if FirstOfKind(sensors[1..], k).None? {
        assert forall j :: 0 <= j < |sensors[1..] + [extra]| ==> (sensors[1..] + [extra])[j].kind != k;
      } else {
        FirstOfKindAppend(sensors[1..], extra, k);
      }
    }
  }

  /** Appending a sensor after a sensor of kind `k` leaves the first of
      kind `k` unchanged. */
  lemma {:induction false} FirstOfKindAppend(sensors: seq<Sensor>, extra: Sensor, k: Kind)
    requires FirstOfKind(sensors, k).Some?
    ensures FirstOfKind(sensors + [extra], k) == FirstOfKind(sensors, k)
    decreases |sensors|
  {
    assert (sensors + [extra])[1..] == sensors[1..] + [extra];
    if sensors[0].kind != k {
      FirstOfKindAppend(sensors[1..], extra, k);
    }
  }

  lemma LaterSensorsDoNotChangeVerdict(sensors: seq<Sensor>, extra: Sensor)
    requires exists i :: 0 <= i < |sensors| && sensors[i].kind == extra.kind
    ensures CorrectPlacements(sensors + [extra]) == CorrectPlacements(sensors)
  {
    forall k
      ensures FirstOfKind(sensors + [extra], k) == FirstOfKind(sensors, k)
    {
      LaterSensorsIgnored(sensors, extra, k);
    }
  }

  /** `handleSensorDrop`: one sensor of the dropped kind, with its default
      settings, is appended; `now` is the drop time. */
  function HandleSensorDrop(sensors: seq<Sensor>, k: Kind, zone: string, now: int): (r: seq<Sensor>)
    ensures |r| == |sensors| + 1 && r[..|sensors|] == sensors
    ensures r[|sensors|].kind == k && r[|sensors|].zone == zone && r[|sensors|].settings == Defaults(k)
  {
    sensors + [Sensor(zone + "-" + IntToString(now), k, zone, FirstWord(k) + "-" + IntToString(now), Defaults(k))]
  }

  /** The fields one edit changes: the device id or one of the settings. */
  datatype Config = Config(deviceId: Option<string>, frequency: Option<string>, latency: Option<string>, bandwidth: Option<string>)

  function Configure(st: Settings, c: Config): Settings
  {
    Settings(c.frequency.GetOr(st.frequency), c.latency.GetOr(st.latency), c.bandwidth.GetOr(st.bandwidth))
  }

  /** One sensor with the edit applied. */
  function Edit(x: Sensor, c: Config): Sensor
  {
    x.(deviceId := c.deviceId.GetOr(x.deviceId), settings := Configure(x.settings, c))
  }

  /** `handleConfigUpdate`: the sensors with the given id take the edited
      fields and keep their id, kind and zone; every other sensor, the
      order and the length are kept.  An edit naming only the device id
      leaves the settings, and so the verdict, as they were. */
  function HandleConfigUpdate(sensors: seq<Sensor>, id: string, c: Config): (r: seq<Sensor>)
    ensures |r| == |sensors|
    ensures forall i :: 0 <= i < |r| && sensors[i].id != id ==> r[i] == sensors[i]
    ensures forall i :: 0 <= i < |r| && sensors[i].id == id ==>
              && r[i].id == id && r[i].kind == sensors[i].kind && r[i].zone == sensors[i].zone
              && (c.deviceId.Some? ==> r[i].deviceId == c.deviceId.value)
              && (c.deviceId.None? ==> r[i].deviceId == sensors[i].deviceId)
              && (c.frequency.Some? ==> r[i].settings.frequency == c.frequency.value)
              && (c.frequency.None? ==> r[i].settings.frequency == sensors[i].settings.frequency)
              && (c.latency.Some? ==> r[i].settings.latency == c.latency.value)
              && (c.latency.None? ==> r[i].settings.latency == sensors[i].settings.latency)
              && (c.bandwidth.Some? ==> r[i].settings.bandwidth == c.bandwidth.value)
              && (c.bandwidth.None? ==> r[i].settings.bandwidth == sensors[i].settings.bandwidth)
    ensures c.frequency.None? && c.latency.None? && c.bandwidth.None? ==>
              forall i :: 0 <= i < |r| ==> r[i].settings == sensors[i].settings
  {
    seq(|sensors|, i requires 0 <= i < |sensors| =>
      if sensors[i].id == id then Edit(sensors[i], c) else sensors[i])
  }

  datatype State = State(sensors: seq<Sensor>, xp: nat)

  datatype Outcome = Outcome(state: State, effects: seq<Event>)

  const ModuleId: string := "iot-smart-city-grade-12"
  const Reward: nat := 100

  function SuccessEffects(): seq<Event>
  {
    [ AddXpDirect(Reward),
      WriteModule(ModuleId, Completion.Upsert(Completion.Completed, Reward, Some(1), Some(100))),
      InsertBadgeDirect("IoT Architect", "IoT Smart City Simulator") ]
  }

  /** `checkOptimization` (its button is disabled while no sensor is
      placed): success earns 100 XP, and a signed-in player is credited
      100 with the module record and the badge. */
  function CheckOptimization(s: State, signedIn: bool): (o: Outcome)
    ensures o.state.sensors == s.sensors
    ensures CorrectPlacements(s.sensors) == |Kinds| ==>
      o.state.xp == s.xp + Reward && o.effects == (if signedIn then SuccessEffects() else [])
    ensures CorrectPlacements(s.sensors) != |Kinds| ==> o == Outcome(s, [])
    ensures s.sensors == [] ==> o == Outcome(s, [])
  {
    if s.sensors == [] then Outcome(s, [])
    else if CorrectPlacements(s.sensors) == |Kinds| then
      Outcome(s.(xp := s.xp + Reward), if signedIn then SuccessEffects() else [])
    else Outcome(s, [])
  }

  /** A successful check credits exactly the 100 XP it adds to the game. */
  lemma CheckCredits(s: State)
    ensures var o := CheckOptimization(s, true);
            TotalXp(o.effects) == o.state.xp - s.xp
  {
    var o := CheckOptimization(s, true);
    if o.effects != [] {
      var fx := o.effects;
      TotalXpOfThree(fx[0], fx[1], fx[2]);
      assert fx == [fx[0], fx[1], fx[2]];
    }
  }

  /** `handlePlayAgain`. */
  function Restart(): (s: State)
    ensures s.sensors == [] && s.xp == 0 && CorrectPlacements(s.sensors) == 0
  {
    State([], 0)
  }

  /** Dropping each kind at its ideal zone, with defaults, wins the game
      whatever the drop times. */
  lemma IdealDropsWin(t1: int, t2: int, t3: int, t4: int)
    ensures var s := HandleSensorDrop(HandleSensorDrop(HandleSensorDrop(HandleSensorDrop(
              [], TrafficFlow, "Highway", t1), AirQuality, "Industrial Zone", t2),
              Temperature, "Residential Area", t3), WaterLevel, "River Bank", t4);
            CorrectPlacements(s) == |Kinds|
  {
    var s := HandleSensorDrop(HandleSensorDrop(HandleSensorDrop(HandleSensorDrop(
              [], TrafficFlow, "Highway", t1), AirQuality, "Industrial Zone", t2),
              Temperature, "Residential Area", t3), WaterLevel, "River Bank", t4);
    assert s[0].kind == TrafficFlow && s[1].kind == AirQuality && s[2].kind == Temperature && s[3].kind == WaterLevel;
    assert |s| == 4;
    forall k
      ensures KindCorrect(s, k)
    {
      var i := if k == TrafficFlow then 0 else if k == AirQuality then 1 else if k == Temperature then 2 else 3;
      assert s[i].kind == k;
      FirstIsIndex(s, k, i);
      DefaultsMeetGoals(s[i].id, k, s[i].zone, s[i].deviceId);
    }
    SuccessIffAllKindsCorrect(s);
  }

  lemma {:induction false} FirstIsIndex(sensors: seq<Sensor>, k: Kind, i: nat)
    requires i < |sensors| && sensors[i].kind == k
    requires forall j :: 0 <= j < i ==> sensors[j].kind != k
    ensures FirstOfKind(sensors, k) == Some(sensors[i])
    decreases i
  {
    if i > 0 {
      FirstIsIndex(sensors[1..], k, i - 1);
    }
  }
}

=== FILE: logic_gate_class6.dfy ===
/** The class 6 logic-gate simulator: the same gates and switches, no XP
    per pick, and a completion worth a flat 30 XP that upserts module
    `logic_gate_6` as completed, credits 30 through the store and grants
    'Logic Tinkerer' (module 'Technology') to a signed-in player.

    Each move updates the state with a functional update and, when the
    bulb is lit afterwards, schedules `checkCompletion` on a timer.  That
    function belongs to the render in which the move was made, so it tests
    the state BEFORE the move: lighting the bulb does not complete the
    game, and only a further move made while the bulb is already lit does
    (`LightingDoesNotComplete`).  `StepIntended` checks the state after the
    move. */
module LogicGateClass6 {
  import opened Basics
  import opened Sync
  import opened LogicGates
  import Completion

  datatype State = State(switchA: bool, switchB: bool, gate: Option<Gate>, bulbLit: bool, xp: nat, isCompleted: bool)

  const Initial: State := State(false, false, None, false, 0, false)
  const CompletionXp: nat := 30
  const ModuleId: string := "logic_gate_6"

  datatype Action = Toggle(sw: Switch) | SelectGate(g: Gate)

  datatype Outcome = Outcome(state: State, effects: seq<Event>)

  /** `getCompletion`: all or nothing. */
  function GetCompletion(s: State): (p: nat)
    ensures p == 100 || p == 0
    ensures p == 100 <==> s.gate.Some? && s.bulbLit
  {
    if s.gate.Some? && s.bulbLit then 100 else 0
  }

  /** The functional updates of `handleSwitchToggle` and `handleGateSelect`,
      and whether they schedule the completion check. */
  function Update(s: State, a: Action): (r: (State, bool))
    ensures r.0.bulbLit == CheckLogic(r.0.gate, r.0.switchA, r.0.switchB)
    ensures r.0.xp == s.xp && r.0.isCompleted == s.isCompleted
    ensures r.1 == r.0.bulbLit
    ensures a.Toggle? ==> r.0.gate == s.gate
    ensures a.SelectGate? ==> r.0.gate == Some(a.g) && r.0.switchA == s.switchA && r.0.switchB == s.switchB
  {
    match a
    case Toggle(sw) =>
      var (x, y) := Flip(sw, s.switchA, s.switchB);
      var lit := CheckLogic(s.gate, x, y);
      (s.(switchA := x, switchB := y, bulbLit := lit), lit && s.gate.Some?)
    case SelectGate(g) =>
      var lit := CheckLogic(Some(g), s.switchA, s.switchB);
      (s.(gate := Some(g), bulbLit := lit), lit)
  }

  /** `checkCompletion` judging the state `seen`; its own update (xp 30,
      completed) is functional and lands on the current state `current`. */
  function CheckCompletion(seen: State, current: State, signedIn: bool): (o: Outcome)
    ensures seen.bulbLit && seen.gate.Some? && !seen.isCompleted ==>
      && o.state == current.(xp := CompletionXp, isCompleted := true)
      && o.effects == (if signedIn then CompletionEffects() else [])
    ensures !(seen.bulbLit && seen.gate.Some? && !seen.isCompleted) ==> o == Outcome(current, [])
  {
    if seen.bulbLit && seen.gate.Some? && !seen.isCompleted then
      Outcome(current.(xp := CompletionXp, isCompleted := true), if signedIn then CompletionEffects() else [])
    else Outcome(current, [])
  }

  function CompletionEffects(): seq<Event>
  {
    [ WriteModule(ModuleId, Completion.Upsert(Completion.Completed, CompletionXp, None, None)),
      ReportProgress(CompletionXp, 0),
      GrantBadge("Logic Tinkerer", "Technology") ]
  }

  /** A move as written: the timer's check sees the state before the move. */
  function Step(s: State, a: Action, signedIn: bool): (o: Outcome)
    ensures o.state.isCompleted <==> s.isCompleted || (s.bulbLit && s.gate.Some? && Update(s, a).1)
  {
    var (t, scheduled) := Update(s, a);
    if scheduled then CheckCompletion(s, t, signedIn) else Outcome(t, [])
  }

  /** The intended move: the check sees the state the move produced. */
  function StepIntended(s: State, a: Action, signedIn: bool): (o: Outcome)
    ensures o.state.isCompleted <==> s.isCompleted || Update(s, a).0.bulbLit
  {
    var (t, scheduled) := Update(s, a);
    if scheduled then CheckCompletion(t, t, signedIn) else Outcome(t, [])
  }

  /** `reset`: exactly the initial state. */
  function Reset(): (s: State)
    ensures Valid(s) && !s.isCompleted && s.xp == 0 && GetCompletion(s) == 0
  {
    Initial
  }

  /** The states the game reaches: the bulb shows the truth table and the
      xp is 30 exactly when the game is completed. */
  predicate Valid(s: State)
  {
    && s.bulbLit == CheckLogic(s.gate, s.switchA, s.switchB)
    && (s.isCompleted ==> s.gate.Some?)
    && s.xp == (if s.isCompleted then CompletionXp else 0)
  }

  /** Both versions keep the game consistent and credit 30 XP exactly on
      the move that completes it; the intended one completes on the move
      that lights the bulb. */
  lemma StepKeepsValid(s: State, a: Action, signedIn: bool, intended: bool)
    requires Valid(s)
    ensures var o := if intended then StepIntended(s, a, signedIn) else Step(s, a, signedIn);
            && Valid(o.state)
            && (s.isCompleted ==> o.state.isCompleted)
            && TotalXp(o.effects) == (if signedIn && o.state.isCompleted && !s.isCompleted then CompletionXp else 0)
  {
    var o := if intended then StepIntended(s, a, signedIn) else Step(s, a, signedIn);
    if o.effects != [] {
      var fx := o.effects;
      TotalXpOfThree(fx[0], fx[1], fx[2]);
      assert fx == [fx[0], fx[1], fx[2]];
    }
  }

  function Play(s: State, actions: seq<Action>, signedIn: bool, intended: bool): Outcome
    decreases |actions|
  {
    if actions == [] then Outcome(s, [])
    else
      var first := if intended then StepIntended(s, actions[0], signedIn) else Step(s, actions[0], signedIn);
      var rest := Play(first.state, actions[1..], signedIn, intended);
      Outcome(rest.state, first.effects + rest.effects)
  }

  /** Over any moves the game stays consistent, completion is never undone,
      and a signed-in player is credited 30 XP once, on completion. */
  lemma {:induction false} PlayCredits(s: State, actions: seq<Action>, signedIn: bool, intended: bool)
    requires Valid(s)
    ensures var f := Play(s, actions, signedIn, intended).state;
            && Valid(f)
            && (s.isCompleted ==> f.isCompleted)
            && TotalXp(Play(s, actions, signedIn, intended).effects)
               == (if signedIn && f.isCompleted && !s.isCompleted then CompletionXp else 0)
    decreases |actions|
  {
    if actions != [] {
      var first := if intended then StepIntended(s, actions[0], signedIn) else Step(s, actions[0], signedIn);
      StepKeepsValid(s, actions[0], signedIn, intended);
      PlayCredits(first.state, actions[1..], signedIn, intended);
      TotalXpConcat(first.effects, Play(first.state, actions[1..], signedIn, intended).effects);
    }
  }

  /** As written: pick OR, then switch A on.  The bulb is lit and the
      progress bar shows 100, but the game is not completed and nothing is
      credited; switching B on as well completes it.  With the intended
      check switching A on completes it. */
  lemma LightingDoesNotComplete()
    ensures var o1 := Step(Initial, SelectGate(Or), true);
            var o2 := Step(o1.state, Toggle(A), true);
            var o3 := Step(o2.state, Toggle(B), true);
            && o2.state.bulbLit && GetCompletion(o2.state) == 100
            && !o2.state.isCompleted && o1.effects + o2.effects == []
            && o3.state.isCompleted && o3.effects == CompletionEffects()
    ensures var i1 := StepIntended(Initial, SelectGate(Or), true);
            var i2 := StepIntended(i1.state, Toggle(A), true);
            i2.state.isCompleted && i2.effects == CompletionEffects()
  {
  }

  /** With the intended check, any move that leaves the bulb lit completes
      the game. */
  lemma IntendedCompletesWhenLit(s: State, a: Action, signedIn: bool)
    requires Valid(s)
    ensures StepIntended(s, a, signedIn).state.bulbLit ==> StepIntended(s, a, signedIn).state.isCompleted
  {
  }
}

=== FILE: logic_gate_game.dfy ===
/** The logic-gate game: the player picks a gate (10 XP per pick) and flips
    two switches; whenever the bulb is lit after a move, a signed-in player
    who has not completed the game completes it for 30 XP.  Completion
    bypasses the store: it merges the `logic_gate_6` row (attempts + 1,
    maxima of best score and xp), adds 30 to the persisted total directly,
    inserts 'Logic Tinkerer' unless a badge of that name exists, and
    refreshes the store.

    Without a player the bulb can be lit but the game never completes. */
module LogicGateGame {
  import opened Basics
  import opened Sync
  import opened LogicGates
  import Completion

  datatype State = State(switchA: bool, switchB: bool, gate: Option<Gate>, bulbLit: bool, totalXp: nat, completed: bool)

  const Initial: State := State(false, false, None, false, 0, false)
  const GateXp: nat := 10
  const CompletionXp: nat := 30
  const ModuleId: string := "logic_gate_6"

  datatype Action = Toggle(sw: Switch) | SelectGate(g: Gate)

  datatype Outcome = Outcome(state: State, effects: seq<Event>)

  /** `getCompletion`: 40 for a gate, 30 for any switch on, 30 for a lit
      bulb. */
  function GetCompletion(s: State): (p: nat)
    ensures p <= 100
    ensures p == 100 <==> s.gate.Some? && (s.switchA || s.switchB) && s.bulbLit
    ensures p == 0 <==> s.gate.None? && !s.switchA && !s.switchB && !s.bulbLit
    ensures p % 10 == 0
  {
    (if s.gate.Some? then 40 else 0) + (if s.switchA || s.switchB then 30 else 0) + (if s.bulbLit then 30 else 0)
  }

  /** `checkCompletion(newState, 30)`: acts only when the bulb is lit, the
      game is not completed and a player is signed in. */
  function CheckCompletion(t: State, signedIn: bool): (o: Outcome)
    ensures t.bulbLit && !t.completed && signedIn ==>
      && o.state == t.(completed := true, totalXp := t.totalXp + CompletionXp)
      && o.effects == [ WriteModule(ModuleId, Completion.LogicMerge(CompletionXp)),
                        AddXpDirect(CompletionXp),
                        InsertBadgeIfNameAbsent("Logic Tinkerer", ModuleId),
                        Refresh ]
    ensures !(t.bulbLit && !t.completed && signedIn) ==> o == Outcome(t, [])
  {
    if t.bulbLit && !t.completed && signedIn then
      Outcome(t.(completed := true, totalXp := t.totalXp + CompletionXp),
              [ WriteModule(ModuleId, Completion.LogicMerge(CompletionXp)),
                AddXpDirect(CompletionXp),
                InsertBadgeIfNameAbsent("Logic Tinkerer", ModuleId),
                Refresh ])
    else Outcome(t, [])
  }

  /** `handleSwitchToggle`: flips the named switch, recomputes the bulb
      with the current gate, and checks completion when it is lit. */
  function HandleSwitchToggle(s: State, sw: Switch, signedIn: bool): (o: Outcome)
    ensures sw == A ==> o.state.switchA == !s.switchA && o.state.switchB == s.switchB
    ensures sw == B ==> o.state.switchB == !s.switchB && o.state.switchA == s.switchA
    ensures o.state.gate == s.gate
    ensures o.state.bulbLit == CheckLogic(s.gate, o.state.switchA, o.state.switchB)
  {
    var (a, b) := Flip(sw, s.switchA, s.switchB);
    var t := s.(switchA := a, switchB := b, bulbLit := CheckLogic(s.gate, a, b));
    if t.bulbLit then CheckCompletion(t, signedIn) else Outcome(t, [])
  }

  /** `handleGateSelect`: sets the gate for 10 XP (every pick, even of the
      same gate), recomputes the bulb with the unchanged switches, and
      checks completion when it is lit. */
  function HandleGateSelect(s: State, g: Gate, signedIn: bool): (o: Outcome)
    ensures o.state.gate == Some(g)
    ensures o.state.switchA == s.switchA && o.state.switchB == s.switchB
    ensures o.state.bulbLit == CheckLogic(Some(g), s.switchA, s.switchB)
  {
    var t := s.(gate := Some(g), totalXp := s.totalXp + GateXp, bulbLit := CheckLogic(Some(g), s.switchA, s.switchB));
    if t.bulbLit then CheckCompletion(t, signedIn) else Outcome(t, [])
  }

  function Step(s: State, a: Action, signedIn: bool): Outcome
  {
    match a
    case Toggle(sw) => HandleSwitchToggle(s, sw, signedIn)
    case SelectGate(g) => HandleGateSelect(s, g, signedIn)
  }

  /** `reset`. */
  function Reset(): (s: State)
    ensures Valid(s) && !s.completed && s.totalXp == 0 && GetCompletion(s) == 0
  {
    Initial
  }

  /** The states the game reaches: the bulb always shows the truth table,
      and a completed game has a gate. */
  predicate Valid(s: State)
  {
    && s.bulbLit == CheckLogic(s.gate, s.switchA, s.switchB)
    && (s.completed ==> s.gate.Some?)
  }

  function Picks(actions: seq<Action>): nat
  {
    if actions == [] then 0 else (if actions[0].SelectGate? then 1 else 0) + Picks(actions[1..])
  }

  /** One move keeps the bulb consistent; the game completes on this move
      exactly when it was not completed, the bulb is lit after the move and
      a player is signed in, and the game total grows by 10 per pick plus 30
      on completion, of which only the 30 is credited. */
  lemma StepKeepsValid(s: State, a: Action, signedIn: bool)
    requires Valid(s)
    ensures var o := Step(s, a, signedIn);
            && Valid(o.state)
            && (o.state.completed <==> s.completed || (o.state.bulbLit && signedIn))
            && o.state.totalXp == s.totalXp + (if a.SelectGate? then GateXp else 0)
                                  + (if o.state.completed && !s.completed then CompletionXp else 0)
            && TotalXp(o.effects) == (if o.state.completed && !s.completed then CompletionXp else 0)
  {
    var o := Step(s, a, signedIn);
    if o.effects != [] {
      var fx := o.effects;
      assert fx == [fx[0], fx[1], fx[2]] + [fx[3]];
      TotalXpConcat([fx[0], fx[1], fx[2]], [fx[3]]);
      TotalXpOfThree(fx[0], fx[1], fx[2]);
      TotalXpOfThree(fx[3], fx[3], fx[3]);
    }
  }

  function Play(s: State, actions: seq<Action>, signedIn: bool): Outcome
    decreases |actions|
  {
    if actions == [] then Outcome(s, [])
    else
      var first := Step(s, actions[0], signedIn);
      var rest := Play(first.state, actions[1..], signedIn);
      Outcome(rest.state, first.effects + rest.effects)
  }

  /** Over any moves, a completed game stays completed, a guest's game
      never completes, the game total is 10 per pick plus 30 once, and the
      player is credited 30 XP at most once. */
  lemma {:induction false} PlayCredits(s: State, actions: seq<Action>, signedIn: bool)
    requires Valid(s)
    ensures var f := Play(s, actions, signedIn).state;
            && Valid(f)
            && (s.completed ==> f.completed)
            && (!signedIn ==> f.completed == s.completed)
            && f.totalXp == s.totalXp + GateXp * Picks(actions) + (if f.completed && !s.completed then CompletionXp else 0)
            && TotalXp(Play(s, actions, signedIn).effects) == (if f.completed && !s.completed then CompletionXp else 0)
    decreases |actions|
  {
    if actions != [] {
      var first := Step(s, actions[0], signedIn);
      StepKeepsValid(s, actions[0], signedIn);
      PlayCredits(first.state, actions[1..], signedIn);
      TotalXpConcat(first.effects, Play(first.state, actions[1..], signedIn).effects);
    }
  }

  /** Picking NOT with both switches off lights the bulb and completes the
      game while the progress bar shows 70. */
  lemma NotGateCompletesAt70()
    ensures var o := Step(Initial, SelectGate(Not), true);
            o.state.completed && GetCompletion(o.state) == 70 && o.state.totalXp == 40
  {
  }
}

=== FILE: logic_gates.dfy ===
/** The truth table both logic-gate games use to decide whether the bulb is
    lit: no gate leaves it dark, AND and OR combine the two switches, and
    NOT inverts switch A and ignores switch B. */
module LogicGates {
  import opened Basics

  datatype Gate = And | Or | Not

  datatype Switch = A | B

  /** `checkLogic(switchA, switchB, gate)`. */
  function CheckLogic(gate: Option<Gate>, a: bool, b: bool): (lit: bool)
    ensures lit ==> gate.Some?
  {
    match gate
    case None => false
    case Some(And) => a && b
    case Some(Or) => a || b
    case Some(Not) => !a
  }

  /** The number of switches turned on. */
  function SwitchesOn(a: bool, b: bool): nat
  {
    (if a then 1 else 0) + (if b then 1 else 0)
  }

  /** The bulb, described by how many switches are on: no gate is always
      dark, AND needs both switches, OR needs at least one, NOT is lit
      exactly when OR would be dark with switch B off, and AND and OR agree
      exactly when the two switches agree. */
  lemma GatesBySwitchCount(a: bool, b: bool)
    ensures !CheckLogic(None, a, b)
    ensures CheckLogic(Some(And), a, b) <==> SwitchesOn(a, b) == 2
    ensures CheckLogic(Some(Or), a, b) <==> SwitchesOn(a, b) >= 1
    ensures CheckLogic(Some(Not), a, b) <==> !CheckLogic(Some(Or), a, false)
    ensures CheckLogic(Some(And), a, b) == CheckLogic(Some(Or), a, b) <==> a == b
  {
  }

  /** NOT reads only switch A. */
  lemma NotIgnoresB(a: bool, b1: bool, b2: bool)
    ensures CheckLogic(Some(Not), a, b1) == CheckLogic(Some(Not), a, b2)
  {
  }

  /** Turning a switch on never darkens an AND or OR bulb, and an AND bulb
      lit implies the OR bulb is lit on the same switches. */
  lemma AndOrMonotone(a: bool, b: bool, a': bool, b': bool)
    requires (a ==> a') && (b ==> b')
    ensures CheckLogic(Some(And), a, b) ==> CheckLogic(Some(And), a', b')
    ensures CheckLogic(Some(Or), a, b) ==> CheckLogic(Some(Or), a', b')
    ensures CheckLogic(Some(And), a, b) ==> CheckLogic(Some(Or), a, b)
  {
  }

  /** Flipping the named switch. */
  function Flip(sw: Switch, a: bool, b: bool): (r: (bool, bool))
    ensures sw == A ==> r.0 == !a && r.1 == b
    ensures sw == B ==> r.0 == a && r.1 == !b
  {
    if sw == A then (!a, b) else (a, !b)
  }
}

=== FILE: number_adventure.dfy ===
/** The number adventure: three arithmetic questions answered in order.  A
    correct answer earns the question's 10 XP and records its id; after a
    pause the next question opens, and a correct answer to the last one
    completes the game for a signed-in player.  Completion records the
    module `number_adventure_6` as completed, credits the final XP, grants
    'Number Explorer' and refreshes the store.

    Completion runs from the pause timer started by the answer handler, so
    it sees the game state of the render in which the answer was given: the
    total BEFORE the last question's reward.  `HandleAnswer` models that;
    `HandleAnswerFresh` is the evidently intended version that uses the
    total including the last reward. */
module NumberAdventure {
  import opened Sync
  import Completion

  datatype Question = Question(id: nat, correct: string, xpReward: nat)

  const Questions: seq<Question> := [Question(1, "20", 10), Question(2, "8", 10), Question(3, "24", 10)]
  const CompletionBonus: nat := 20
  const ModuleId: string := "number_adventure_6"

  datatype State = State(currentQuestion: nat, totalXp: nat, completed: bool, questionsAnswered: seq<nat>)

  const Initial: State := State(0, 0, false, [])

  /** The ids of the first `k` questions. */
  function IdsUpTo(k: nat): seq<nat>
    requires k <= |Questions|
  {
    seq(k, i requires 0 <= i < k => Questions[i].id)
  }

  /** The states reachable from `Initial`: the answered questions are a
      prefix of the list, each worth 10 XP; the current question is the
      next unanswered one, or the last one once all are answered. */
  predicate Valid(s: State)
  {
    && s.currentQuestion < |Questions|
    && |s.questionsAnswered| <= |Questions|
    && s.questionsAnswered == IdsUpTo(|s.questionsAnswered|)
    && s.totalXp == 10 * |s.questionsAnswered|
    && (|s.questionsAnswered| == s.currentQuestion
        || (|s.questionsAnswered| == |Questions| && s.currentQuestion == |Questions| - 1))
    && (s.completed ==> |s.questionsAnswered| == |Questions|)
  }

  /** Answer buttons are shown only while the current question is still
      unanswered (feedback hides them until the next question opens) and
      the game is not completed. */
  predicate Open(s: State)
  {
    s.currentQuestion < |Questions| && |s.questionsAnswered| == s.currentQuestion && !s.completed
  }

  datatype Outcome = Outcome(state: State, effects: seq<Event>)

  /** The completion effects for a given final XP. */
  function CompletionEffects(finalXp: nat): seq<Event>
  {
    [ WriteModule(ModuleId, Completion.Attempt(Completion.Completed, finalXp, 100)),
      ReportProgress(finalXp, 0),
      GrantBadge("Number Explorer", ModuleId),
      Refresh ]
  }

  /** `handleAnswer` followed by its timer: a wrong answer changes nothing;
      a correct one adds the reward and the id, then either opens the next
      question or, on the last one, runs `handleGameCompletion` — which
      does nothing without a player and otherwise completes the game with
      `finalXp` = the total seen by the handler + 20. */
  function HandleAnswer(s: State, answer: string, signedIn: bool): (o: Outcome)
    requires Open(s)
    ensures answer != Questions[s.currentQuestion].correct ==> o == Outcome(s, [])
    ensures answer == Questions[s.currentQuestion].correct ==>
      && o.state.totalXp == s.totalXp + Questions[s.currentQuestion].xpReward
      && o.state.questionsAnswered == s.questionsAnswered + [Questions[s.currentQuestion].id]
    ensures answer == Questions[s.currentQuestion].correct && s.currentQuestion < |Questions| - 1 ==>
      o.state.currentQuestion == s.currentQuestion + 1 && !o.state.completed && o.effects == []
    ensures answer == Questions[s.currentQuestion].correct && s.currentQuestion == |Questions| - 1 ==>
      && o.state.currentQuestion == s.currentQuestion
      && o.state.completed == signedIn
      && o.effects == (if signedIn then CompletionEffects(s.totalXp + CompletionBonus) else [])
  {
    var q := Questions[s.currentQuestion];
    if answer != q.correct then Outcome(s, [])
    else
      var answered := s.(totalXp := s.totalXp + q.xpReward, questionsAnswered := s.questionsAnswered + [q.id]);
      if s.currentQuestion < |Questions| - 1 then Outcome(answered.(currentQuestion := s.currentQuestion + 1), [])
      else if !signedIn then Outcome(answered, [])
      else Outcome(answered.(completed := true), CompletionEffects(s.totalXp + CompletionBonus))
  }

  /** The intended completion: `finalXp` is the total including the last
      question's reward, plus the bonus. */
  function HandleAnswerFresh(s: State, answer: string, signedIn: bool): (o: Outcome)
    requires Open(s)
    ensures o.state == HandleAnswer(s, answer, signedIn).state
    ensures o.state.completed && !s.completed ==> o.effects == CompletionEffects(o.state.totalXp + CompletionBonus)
    ensures !(o.state.completed && !s.completed) ==> o.effects == HandleAnswer(s, answer, signedIn).effects
  {
    var o := HandleAnswer(s, answer, signedIn);
    if o.state.completed && !s.completed then Outcome(o.state, CompletionEffects(o.state.totalXp + CompletionBonus))
    else o
  }

  /** Every answer keeps the game reachable. */
  lemma AnswerKeepsValid(s: State, answer: string, signedIn: bool)
    requires Valid(s) && Open(s)
    ensures Valid(HandleAnswer(s, answer, signedIn).state)
  {
    var k := |s.questionsAnswered|;
    if answer == Questions[s.currentQuestion].correct {
      assert IdsUpTo(k + 1) == IdsUpTo(k) + [Questions[k].id];
    }
  }

  /** Answers in order; once no question is open, further answers are not
      accepted. */
  function Play(s: State, answers: seq<string>, signedIn: bool, intended: bool): Outcome
    requires Valid(s)
    decreases |answers|
  {
    if answers == [] || !Open(s) then Outcome(s, [])
    else
      AnswerKeepsValid(s, answers[0], signedIn);
      var first := if intended then HandleAnswerFresh(s, answers[0], signedIn) else HandleAnswer(s, answers[0], signedIn);
      var rest := Play(first.state, answers[1..], signedIn, intended);
      Outcome(rest.state, first.effects + rest.effects)
  }

  /** Over any answer sequence, including wrong answers, the game stays
      reachable, and a signed-in player is credited XP only by completion:
      40 as written (20 for the two earlier questions plus the bonus, the
      last reward being missed), 50 — all three rewards plus the bonus —
      with the intended completion. */
  lemma {:induction false} PlayCredits(s: State, answers: seq<string>, signedIn: bool, intended: bool)
    requires Valid(s)
    ensures Valid(Play(s, answers, signedIn, intended).state)
    ensures TotalXp(Play(s, answers, signedIn, intended).effects)
            == (if Play(s, answers, signedIn, intended).state.completed && !s.completed
                then (if intended then 50 else 40) else 0)
    decreases |answers|
  {
    if answers != [] && Open(s) {
      AnswerKeepsValid(s, answers[0], signedIn);
      var first := if intended then HandleAnswerFresh(s, answers[0], signedIn) else HandleAnswer(s, answers[0], signedIn);
      PlayCredits(first.state, answers[1..], signedIn, intended);
      var rest := Play(first.state, answers[1..], signedIn, intended);
      TotalXpConcat(first.effects, rest.effects);
      if first.state.completed {
        assert !Open(first.state);
        assert answers[1..] == [] || rest == Outcome(first.state, []);
        var fx := first.effects;
        assert fx == [fx[0], fx[1], fx[2]] + [fx[3]];
        TotalXpConcat([fx[0], fx[1], fx[2]], [fx[3]]);
        TotalXpOfThree(fx[0], fx[1], fx[2]);
        TotalXpOfThree(fx[3], fx[3], fx[3]);
      }
    }
  }

  /** Three right answers: the game records 30 XP and completes, but only
      40 XP is credited instead of 50. */
  lemma ThreeRightAnswersCredit40()
    ensures Play(Initial, ["20", "8", "24"], true, false).state.completed
    ensures Play(Initial, ["20", "8", "24"], true, false).state.totalXp == 30
    ensures TotalXp(Play(Initial, ["20", "8", "24"], true, false).effects) == 40
    ensures TotalXp(Play(Initial, ["20", "8", "24"], true, true).effects) == 50
  {
    var answers := ["20", "8", "24"];
    var s1 := State(1, 10, false, [1]);
    var s2 := State(2, 20, false, [1, 2]);
    var s3 := State(2, 30, true, [1, 2, 3]);
    assert IdsUpTo(1) == [1] && IdsUpTo(2) == [1, 2] && IdsUpTo(3) == [1, 2, 3];
    assert HandleAnswer(Initial, "20", true).state == s1;
    assert HandleAnswer(s1, "8", true).state == s2;
    assert HandleAnswer(s2, "24", true).state == s3;
    assert answers[1..] == ["8", "24"] && answers[1..][1..] == ["24"] && answers[1..][1..][1..] == [];
    forall intended: bool
      ensures Play(Initial, answers, true, intended).state == s3
    {
      assert Play(s3, [], true, intended).state == s3;
      assert Play(s2, ["24"], true, intended).state == s3;
      assert Play(s1, ["8", "24"], true, intended).state == s3;
    }
    PlayCredits(Initial, answers, true, false);
    PlayCredits(Initial, answers, true, true);
  }

  /** `progress`: the share of questions answered. */
  function ProgressPercent(s: State): (p: real)
    requires Valid(s)
    ensures 0.0 <= p <= 100.0
    ensures p == 100.0 <==> |s.questionsAnswered| == |Questions|
    ensures s.completed ==> p == 100.0
  {
    |s.questionsAnswered| as real / |Questions| as real * 100.0
  }
}

=== FILE: organic_reactions.dfy ===
/** The organic reaction builder: the player selects a reactant, a reagent
    and a reaction type and attempts the reaction.  Exactly three
    (reactant, reagent, type) triples are valid, each worth 30 XP and a
    badge; the attempt that brings the list of completed reactions to three
    completes the game with a 100 XP bonus in the game total.  A signed-in
    player is credited each reaction's 30 XP (never the bonus), its badge,
    an attempt on module `organic_reaction_<class>`, and 'Reaction Master'
    on completion.

    Nothing stops a valid triple from being attempted again: the repeat is
    appended and counted, so one reaction done three times completes the
    game, and a fourth success clears `completed` again
    (`RepeatedReactionCompletes`).  `AttemptReactionIntended` counts each
    valid reaction once and keeps the game completed. */
module OrganicReactions {
  import opened Basics
  import opened Sync
  import Completion

  datatype Reaction = Reaction(reactant: string, reagent: string, reactionType: string, product: string, badge: string, xpReward: nat)

  const ValidCombinations: seq<Reaction> := [
    Reaction("2-bromo propane", "NaOH", "SN2", "Propan-2-ol", "Nucleophile Ninja", 30),
    Reaction("Acetaldehyde", "NaOH", "Aldol Condensation", "3-Hydroxybutanal", "Aldol Alchemist", 30),
    Reaction("Ethanol", "HCl", "Elimination (E1)", "Ethene", "Elimination Expert", 30)
  ]
  const CompletionBonus: nat := 100
  const BadgeModule: string := "Class 12 Chemistry"

  datatype State = State(
    selectedReactant: Option<string>,
    selectedReagent: Option<string>,
    selectedReactionType: Option<string>,
    completedReactions: seq<Reaction>,
    totalXp: nat,
    completed: bool,
    currentProduct: Option<string>)

  const Initial: State := State(None, None, None, [], 0, false, None)

  /** A selection the program treats as present (non-null, non-empty). */
  predicate Chosen(x: Option<string>)
  {
    x.Some? && x.value != ""
  }

  predicate Matches(r: Reaction, reactant: string, reagent: string, reactionType: string)
  {
    r.reactant == reactant && r.reagent == reagent && r.reactionType == reactionType
  }

  /** `validCombinations.find(...)`: the first entry with the given triple. */
  function FindFrom(rs: seq<Reaction>, reactant: string, reagent: string, reactionType: string): (r: Option<Reaction>)
    ensures r.Some? ==> r.value in rs && Matches(r.value, reactant, reagent, reactionType)
    ensures r.None? ==> forall i :: 0 <= i < |rs| ==> !Matches(rs[i], reactant, reagent, reactionType)
  {
    if rs == [] then None
    else if Matches(rs[0], reactant, reagent, reactionType) then Some(rs[0])
    else FindFrom(rs[1..], reactant, reagent, reactionType)
  }

  function FindReaction(reactant: string, reagent: string, reactionType: string): Option<Reaction>
  {
    FindFrom(ValidCombinations, reactant, reagent, reactionType)
  }

  /** A triple is accepted exactly when it is one of the three entries, and
      then the entry found is that one. */
  lemma MatchIsExact(reactant: string, reagent: string, reactionType: string, r: Reaction)
    ensures FindReaction(reactant, reagent, reactionType) == Some(r)
            <==> r in ValidCombinations && Matches(r, reactant, reagent, reactionType)
  {
    var found := FindReaction(reactant, reagent, reactionType);
    if r in ValidCombinations && Matches(r, reactant, reagent, reactionType) {
      assert found.Some?;
      var i :| 0 <= i < |ValidCombinations| && ValidCombinations[i] == found.value;
      var j :| 0 <= j < |ValidCombinations| && ValidCombinations[j] == r;
    }
  }

  /** `organic_reaction_${profile?.class || 12}`: a missing or zero class
      falls back to 12. */
  function ModuleIdFor(profileClass: Option<int>): (id: string)
    ensures profileClass.None? || profileClass.value == 0 ==> id == "organic_reaction_12"
    ensures profileClass.Some? && profileClass.value != 0 ==> id == "organic_reaction_" + IntToString(profileClass.value)
  {
    var c := if profileClass.None? || profileClass.value == 0 then 12 else profileClass.value;
    assert c == 12 ==> IntToString(c) == "12";
    "organic_reaction_" + IntToString(c)
  }

  datatype Slot = ReactantSlot | ReagentSlot

  /** `handleComponentDrop`: the dropped component fills the slot it was
      dropped on; the other selections and the game's progress stay. */
  function HandleComponentDrop(s: State, name: string, slot: Slot): (s': State)
    ensures slot == ReactantSlot ==> s'.selectedReactant == Some(name) && s'.selectedReagent == s.selectedReagent
    ensures slot == ReagentSlot ==> s'.selectedReagent == Some(name) && s'.selectedReactant == s.selectedReactant
    ensures s'.selectedReactionType == s.selectedReactionType && s'.currentProduct == s.currentProduct
    ensures s'.completedReactions == s.completedReactions && s'.totalXp == s.totalXp && s'.completed == s.completed
  {
    match slot
    case ReactantSlot => s.(selectedReactant := Some(name))
    case ReagentSlot => s.(selectedReagent := Some(name))
  }

  /** `handleReactionTypeSelect`: the type is chosen; everything else stays. */
  function HandleReactionTypeSelect(s: State, t: string): (s': State)
    ensures s'.selectedReactionType == Some(t)
    ensures s'.selectedReactant == s.selectedReactant && s'.selectedReagent == s.selectedReagent
    ensures s'.currentProduct == s.currentProduct
    ensures s'.completedReactions == s.completedReactions && s'.totalXp == s.totalXp && s'.completed == s.completed
  {
    s.(selectedReactionType := Some(t))
  }

  datatype Outcome = Outcome(state: State, effects: seq<Event>)

  function Cleared(s: State): State
  {
    s.(selectedReactant := None, selectedReagent := None, selectedReactionType := None)
  }

  /** `attemptReaction` followed by its timer.  An incomplete selection
      changes nothing.  A failed triple clears the selections and the
      product.  A valid one is appended, earns its reward, completes the
      game (with the bonus) exactly when the list reaches three, shows its
      product and clears the selections; a signed-in player is credited the
      reward and badge and an attempt whose status, xp and score come from
      the list and total as they were before. */
  function AttemptReaction(s: State, profileClass: Option<int>, signedIn: bool): (o: Outcome)
    ensures !(Chosen(s.selectedReactant) && Chosen(s.selectedReagent) && Chosen(s.selectedReactionType)) ==> o == Outcome(s, [])
    ensures Chosen(s.selectedReactant) && Chosen(s.selectedReagent) && Chosen(s.selectedReactionType) ==>
      var found := FindReaction(s.selectedReactant.value, s.selectedReagent.value, s.selectedReactionType.value);
      && (found.None? ==> o == Outcome(Cleared(s).(currentProduct := None), []))
      && (found.Some? ==>
            var r := found.value;
            var n := |s.completedReactions| + 1;
            && o.state.completedReactions == s.completedReactions + [r]
            && o.state.completed == (n == |ValidCombinations|)
            && o.state.totalXp == s.totalXp + r.xpReward + (if n == |ValidCombinations| then CompletionBonus else 0)
            && o.state.currentProduct == Some(r.product)
            && o.state.selectedReactant.None? && o.state.selectedReagent.None? && o.state.selectedReactionType.None?
            && (signedIn ==>
                  o.effects ==
                  [ ReportProgress(r.xpReward, 0),
                    GrantBadge(r.badge, BadgeModule),
                    WriteModule(ModuleIdFor(profileClass), Completion.Attempt(
                      if n == |ValidCombinations| then Completion.Completed else Completion.InProgress,
                      s.totalXp + r.xpReward, s.totalXp + r.xpReward)) ]
                  + (if n == |ValidCombinations| then [GrantBadge("Reaction Master", BadgeModule)] else []))
            && (!signedIn ==> o.effects == []))
  {
    if !(Chosen(s.selectedReactant) && Chosen(s.selectedReagent) && Chosen(s.selectedReactionType)) then Outcome(s, [])
    else
      match FindReaction(s.selectedReactant.value, s.selectedReagent.value, s.selectedReactionType.value)
      case None => Outcome(Cleared(s).(currentProduct := None), [])
      case Some(r) =>
        var reactions := s.completedReactions + [r];
        var isCompleted := |reactions| == |ValidCombinations|;
        var newTotal := s.totalXp + r.xpReward;
        var next := Cleared(s).(completedReactions := reactions,
                                totalXp := if isCompleted then newTotal + CompletionBonus else newTotal,
                                completed := isCompleted,
                                currentProduct := Some(r.product));
        var status := if isCompleted then Completion.Completed else Completion.InProgress;
        var effects :=
          if !signedIn then []
          else [ ReportProgress(r.xpReward, 0),
                 GrantBadge(r.badge, BadgeModule),
                 WriteModule(ModuleIdFor(profileClass), Completion.Attempt(status, newTotal, newTotal)) ]
               + (if isCompleted then [GrantBadge("Reaction Master", BadgeModule)] else []);
        Outcome(next, effects)
  }

  /** Selecting the three parts and attempting the reaction. */
  function Submit(s: State, reactant: string, reagent: string, reactionType: string, profileClass: Option<int>, signedIn: bool): Outcome
  {
    var s1 := HandleComponentDrop(HandleComponentDrop(s, reactant, ReactantSlot), reagent, ReagentSlot);
    AttemptReaction(HandleReactionTypeSelect(s1, reactionType), profileClass, signedIn)
  }

  /** Dropping the parts of a listed reaction, in either order, and
      attempting it appends exactly that reaction, shows its product and
      leaves the slots empty; a triple that is not listed appends nothing. */
  lemma DropsThenAttempt(s: State, reactant: string, reagent: string, reactionType: string, profileClass: Option<int>, signedIn: bool)
    requires reactant != "" && reagent != "" && reactionType != ""
    ensures var o := Submit(s, reactant, reagent, reactionType, profileClass, signedIn);
            var swapped := HandleComponentDrop(HandleComponentDrop(s, reagent, ReagentSlot), reactant, ReactantSlot);
            && AttemptReaction(HandleReactionTypeSelect(swapped, reactionType), profileClass, signedIn) == o
            && o.state.selectedReactant.None? && o.state.selectedReagent.None? && o.state.selectedReactionType.None?
            && (forall r :: r in ValidCombinations && Matches(r, reactant, reagent, reactionType) ==>
                  o.state.completedReactions == s.completedReactions + [r] && o.state.currentProduct == Some(r.product))
            && ((forall r :: r in ValidCombinations ==> !Matches(r, reactant, reagent, reactionType)) ==>
                  o.state.completedReactions == s.completedReactions && o.effects == [])
  {
    forall r | r in ValidCombinations && Matches(r, reactant, reagent, reactionType)
      ensures FindReaction(reactant, reagent, reactionType) == Some(r)
    {
      MatchIsExact(reactant, reagent, reactionType, r);
    }
  }

  /** Game total as written: 30 per completed entry, plus the bonus once
      the list has reached three; completed exactly at three. */
  predicate Valid(s: State)
  {
    var n := |s.completedReactions|;
    && (forall i :: 0 <= i < n ==> s.completedReactions[i] in ValidCombinations)
    && s.totalXp == 30 * n + (if n >= |ValidCombinations| then CompletionBonus else 0)
    && (s.completed <==> n == |ValidCombinations|)
  }

  /** Every attempt keeps the game total consistent, and each success
      credits a signed-in player exactly the reaction's 30 XP: the bonus is
      never credited. */
  lemma AttemptKeepsValid(s: State, profileClass: Option<int>, signedIn: bool)
    requires Valid(s)
    ensures Valid(AttemptReaction(s, profileClass, signedIn).state)
    ensures signedIn ==>
      TotalXp(AttemptReaction(s, profileClass, signedIn).effects)
      == 30 * (|AttemptReaction(s, profileClass, signedIn).state.completedReactions| - |s.completedReactions|)
  {
    var o := AttemptReaction(s, profileClass, signedIn);
    if signedIn && o.effects != [] {
      var fx := o.effects;
      TotalXpOfThree(fx[0], fx[1], fx[2]);
      assert fx[..3] == [fx[0], fx[1], fx[2]];
      assert fx == fx[..3] + fx[3..];
      TotalXpConcat(fx[..3], fx[3..]);
      if |fx| > 3 {
        TotalXpOfThree(fx[3], fx[3], fx[3]);
        assert fx[3..] == [fx[3]];
      }
    }
  }

  /** As written: the same reaction three times completes the game and
      grants 'Reaction Master', and a fourth success clears `completed`. */
  lemma RepeatedReactionCompletes()
    ensures var sn2 := ValidCombinations[0];
            var o1 := Submit(Initial, sn2.reactant, sn2.reagent, sn2.reactionType, Some(12), true);
            var o2 := Submit(o1.state, sn2.reactant, sn2.reagent, sn2.reactionType, Some(12), true);
            var o3 := Submit(o2.state, sn2.reactant, sn2.reagent, sn2.reactionType, Some(12), true);
            var o4 := Submit(o3.state, sn2.reactant, sn2.reagent, sn2.reactionType, Some(12), true);
            && o3.state.completed
            && o3.state.completedReactions == [sn2, sn2, sn2]
            && GrantBadge("Reaction Master", BadgeModule) in o3.effects
            && !o4.state.completed
            && CompletionPercentage(o4.state) > 100.0
  {
    var sn2 := ValidCombinations[0];
    assert FindReaction(sn2.reactant, sn2.reagent, sn2.reactionType) == Some(sn2);
  }

  /** The intended attempt: a reaction already completed is not counted or
      credited again, completion needs all three distinct reactions, and a
      completed game stays completed. */
  function AttemptReactionIntended(s: State, profileClass: Option<int>, signedIn: bool): (o: Outcome)
    ensures o.state.completed <==> s.completed || forall r :: r in ValidCombinations ==> r in o.state.completedReactions
    ensures forall r :: r in s.completedReactions ==> r in o.state.completedReactions
    ensures |o.state.completedReactions| <= |s.completedReactions| + 1
    ensures o.state.totalXp >= s.totalXp
    ensures o.state.totalXp > s.totalXp + 30 ==> !s.completed && o.state.completed
    ensures !signedIn ==> o.effects == []
    ensures Chosen(s.selectedReactant) && Chosen(s.selectedReagent) && Chosen(s.selectedReactionType) ==>
      var found := FindReaction(s.selectedReactant.value, s.selectedReagent.value, s.selectedReactionType.value);
      && (found.Some? && found.value in s.completedReactions ==>
            && o.state.completedReactions == s.completedReactions
            && o.state.totalXp == s.totalXp
            && o.effects == [])
      && (found.Some? && found.value !in s.completedReactions ==>
            && o.state.completedReactions == s.completedReactions + [found.value]
            && o.state.totalXp == s.totalXp + found.value.xpReward
                                  + (if o.state.completed && !s.completed then CompletionBonus else 0)
            && (signedIn ==> TotalXp(o.effects) == found.value.xpReward))
  {
    if !(Chosen(s.selectedReactant) && Chosen(s.selectedReagent) && Chosen(s.selectedReactionType)) then
      Outcome(s.(completed := s.completed || AllDone(s.completedReactions)), [])
    else
      match FindReaction(s.selectedReactant.value, s.selectedReagent.value, s.selectedReactionType.value)
      case None =>
        Outcome(Cleared(s).(currentProduct := None, completed := s.completed || AllDone(s.completedReactions)), [])
      case Some(r) =>
        if r in s.completedReactions then
          Outcome(Cleared(s).(currentProduct := Some(r.product), completed := s.completed || AllDone(s.completedReactions)), [])
        else
          var reactions := s.completedReactions + [r];
          var finishing := !s.completed && AllDone(reactions);
          var newTotal := s.totalXp + r.xpReward;
          var next := Cleared(s).(completedReactions := reactions,
                                  totalXp := if finishing then newTotal + CompletionBonus else newTotal,
                                  completed := s.completed || AllDone(reactions),
                                  currentProduct := Some(r.product));
          var status := if next.completed then Completion.Completed else Completion.InProgress;
          var master := GrantBadge("Reaction Master", BadgeModule);
          var credited := [ ReportProgress(r.xpReward, 0),
                            GrantBadge(r.badge, BadgeModule),
                            WriteModule(ModuleIdFor(profileClass), Completion.Attempt(status, newTotal, newTotal)) ];
          var closing := if finishing then [master] else [];
          TotalXpOfThree(credited[0], credited[1], credited[2]);
          TotalXpOfThree(master, master, master);
          TotalXpConcat(credited, closing);
          Outcome(next, if !signedIn then [] else credited + closing)
  }

  predicate AllDone(reactions: seq<Reaction>)
  {
    forall r :: r in ValidCombinations ==> r in reactions
  }

  predicate NoRepeats(reactions: seq<Reaction>)
  {
    forall i, j :: 0 <= i < j < |reactions| ==> reactions[i] != reactions[j]
  }

  /** With the intended attempt the completed list never repeats a
      reaction, so it never exceeds the three valid ones, and it is
      completed exactly when all three are in. */
  lemma IntendedCountsDistinct(s: State, profileClass: Option<int>, signedIn: bool)
    requires NoRepeats(s.completedReactions)
    requires forall i :: 0 <= i < |s.completedReactions| ==> s.completedReactions[i] in ValidCombinations
    requires s.completed <==> AllDone(s.completedReactions)
    ensures var t := AttemptReactionIntended(s, profileClass, signedIn).state;
            && NoRepeats(t.completedReactions)
            && (forall i :: 0 <= i < |t.completedReactions| ==> t.completedReactions[i] in ValidCombinations)
            && (t.completed <==> AllDone(t.completedReactions))
            && |t.completedReactions| <= |ValidCombinations|
  {
    var t := AttemptReactionIntended(s, profileClass, signedIn).state;
    DistinctBounded(t.completedReactions);
  }

  /** A repeat-free list of valid reactions has at most three entries. */
  lemma DistinctBounded(reactions: seq<Reaction>)
    requires NoRepeats(reactions)
    requires forall i :: 0 <= i < |reactions| ==> reactions[i] in ValidCombinations
    ensures |reactions| <= |ValidCombinations|
  {
    var asSet := set i | 0 <= i < |reactions| :: reactions[i];
    var valid := set r | r in ValidCombinations;
    assert asSet <= valid;
    SetOfValidHasThree();
    DistinctSetSize(reactions);
    SubsetSize(asSet, valid);
  }

  /** `getCompletionPercentage`: the completed list against the three
      valid reactions.  It reads 100 exactly when the game is completed, and
      stays within 100 while the list holds no repeat; a repeated reaction
      can take it past 100. */
  function CompletionPercentage(s: State): (p: real)
    ensures p >= 0.0
    ensures Valid(s) ==> (p == 100.0 <==> s.completed)
    ensures NoRepeats(s.completedReactions)
            && (forall i :: 0 <= i < |s.completedReactions| ==> s.completedReactions[i] in ValidCombinations)
            ==> p <= 100.0
  {
    DistinctBoundedIf(s.completedReactions);
    |s.completedReactions| as real / |ValidCombinations| as real * 100.0
  }

  /** `resetGame`: no selection, no reaction, no XP. */
  function Reset(): (s: State)
    ensures Valid(s) && NoRepeats(s.completedReactions) && !s.completed
    ensures s.totalXp == 0 && CompletionPercentage(s) == 0.0
    ensures s.selectedReactant.None? && s.selectedReagent.None? && s.selectedReactionType.None?
  {
    Initial
  }

  lemma DistinctBoundedIf(reactions: seq<Reaction>)
    ensures NoRepeats(reactions) && (forall i :: 0 <= i < |reactions| ==> reactions[i] in ValidCombinations)
            ==> |reactions| <= |ValidCombinations|
  {
    if NoRepeats(reactions) && (forall i :: 0 <= i < |reactions| ==> reactions[i] in ValidCombinations) {
      DistinctBounded(reactions);
    }
  }

  lemma {:induction false} SubsetSize<T>(a: set<T>, b: set<T>)
    requires a <= b
    ensures |a| <= |b|
    decreases |b|
  {
    if a != {} {
      var x :| x in a;
      SubsetSize(a - {x}, b - {x});
    }
  }

  lemma SetOfValidHasThree()
    ensures |set r | r in ValidCombinations| == 3
  {
    var v := ValidCombinations;
    assert (set r | r in v) == {v[0], v[1], v[2]};
  }

  lemma {:induction false} DistinctSetSize(reactions: seq<Reaction>)
    requires NoRepeats(reactions)
    ensures |set i | 0 <= i < |reactions| :: reactions[i]| == |reactions|
    decreases |reactions|
  {
    if reactions != [] {
      var init := reactions[..|reactions| - 1];
      var last := reactions[|reactions| - 1];
      DistinctSetSize(init);
      var a := set i | 0 <= i < |init| :: init[i];
      var b := set i | 0 <= i < |reactions| :: reactions[i];
      assert b == a + {last};
      assert last !in a;
    }
  }
}

=== FILE: photosynthesis.dfy ===
/** The photosynthesis game: three elements (water, sunlight, CO2) are
    meant to be dropped once each; every first drop earns 10 XP and the
    third one completes the game with a 50 XP bonus.  Each drop by a
    signed-in player reports the XP it earned, records an attempt on module
    `photosynthesis_6` and, on completion, grants the 'Photosynthesis
    Master' badge.  `HandleDrop` is that handler run on the current state.

    As the game runs, the drop zone's react-dnd spec is a factory with no
    dependency list, so it is built at mount and keeps calling the handler
    of the first render, which reads the initial state.  Every drop starts
    again from there (`HandleDropAsWritten`): only the dropped element
    stays added, the total is reset to 10 XP, the game never completes, and
    each drop credits 10 XP more (`PlayAsWrittenCredits`). */
module Photosynthesis {
  import opened Basics
  import opened Sync
  import Completion

  datatype Element = Water | Sunlight | Co2

  datatype State = State(waterAdded: bool, sunlightAdded: bool, co2Added: bool, totalXp: nat, completed: bool)

  const Initial: State := State(false, false, false, 0, false)
  const ElementXp: nat := 10
  const CompletionBonus: nat := 50
  const ModuleId: string := "photosynthesis_6"

  function Added(s: State, e: Element): bool
  {
    match e
    case Water => s.waterAdded
    case Sunlight => s.sunlightAdded
    case Co2 => s.co2Added
  }

  predicate AllAdded(s: State)
  {
    s.waterAdded && s.sunlightAdded && s.co2Added
  }

  /** The number of elements dropped so far. */
  function Placed(s: State): nat
  {
    (if s.waterAdded then 1 else 0) + (if s.sunlightAdded then 1 else 0) + (if s.co2Added then 1 else 0)
  }

  /** The states a game can reach from `Initial`: 10 XP per element plus the
      bonus once completed, and completed exactly when all three are in. */
  predicate Valid(s: State)
  {
    && s.totalXp == ElementXp * Placed(s) + (if s.completed then CompletionBonus else 0)
    && (s.completed <==> AllAdded(s))
  }

  function SetAdded(s: State, e: Element): State
  {
    match e
    case Water => s.(waterAdded := true)
    case Sunlight => s.(sunlightAdded := true)
    case Co2 => s.(co2Added := true)
  }

  datatype Outcome = Outcome(state: State, effects: seq<Event>)

  /** `handleElementDrop`: a used element is ignored; otherwise its flag is
      set, 10 XP is added, and when all three flags are set for the first
      time the game completes with the bonus.  A signed-in player's drop
      reports the XP just earned, records the attempt (status from the new
      state, xp and score the game total) and grants the badge on
      completion. */
  function HandleDrop(s: State, e: Element, signedIn: bool): (o: Outcome)
    ensures Added(s, e) ==> o == Outcome(s, [])
    ensures !Added(s, e) ==>
      && Added(o.state, e)
      && (forall e' :: e' != e ==> Added(o.state, e') == Added(s, e'))
      && (o.state.completed <==> s.completed || AllAdded(o.state))
      && o.state.totalXp == s.totalXp + ElementXp + (if o.state.completed && !s.completed then CompletionBonus else 0)
    ensures !Added(s, e) && signedIn ==>
      o.effects == [ ReportProgress(o.state.totalXp - s.totalXp, 0),
                     WriteModule(ModuleId, Completion.Attempt(
                       if o.state.completed then Completion.Completed else Completion.InProgress,
                       o.state.totalXp, o.state.totalXp)) ]
                   + (if o.state.completed then [GrantBadge("Photosynthesis Master", "Class 6 Science")] else [])
    ensures !signedIn ==> o.effects == []
  {
    if Added(s, e) then Outcome(s, [])
    else
      var flagged := SetAdded(s, e).(totalXp := s.totalXp + ElementXp);
      var finishing := AllAdded(flagged) && !flagged.completed;
      var next := if finishing then flagged.(completed := true, totalXp := flagged.totalXp + CompletionBonus) else flagged;
      var earned := if finishing then ElementXp + CompletionBonus else ElementXp;
      var status := if next.completed then Completion.Completed else Completion.InProgress;
      var effects :=
        if !signedIn then []
        else [ReportProgress(earned, 0), WriteModule(ModuleId, Completion.Attempt(status, next.totalXp, next.totalXp))]
             + (if next.completed then [GrantBadge("Photosynthesis Master", "Class 6 Science")] else []);
      Outcome(next, effects)
  }

  /** With the handler run on the current state, every drop keeps the game
      in a reachable state, and the XP it reports is exactly what the game
      total grew by. */
  lemma DropKeepsValid(s: State, e: Element, signedIn: bool)
    requires Valid(s)
    ensures Valid(HandleDrop(s, e, signedIn).state)
    ensures signedIn ==> TotalXp(HandleDrop(s, e, signedIn).effects) == HandleDrop(s, e, signedIn).state.totalXp - s.totalXp
  {
    var o := HandleDrop(s, e, signedIn);
    if signedIn && !Added(s, e) {
      var head := o.effects[..2];
      var tail := o.effects[2..];
      assert o.effects == head + tail;
      TotalXpConcat(head, tail);
      assert TotalXp(tail) == 0;
    }
  }

  /** The one element added, when exactly one is. */
  function Sole(s: State): Option<Element>
  {
    if s.waterAdded && !s.sunlightAdded && !s.co2Added then Some(Water)
    else if !s.waterAdded && s.sunlightAdded && !s.co2Added then Some(Sunlight)
    else if !s.waterAdded && !s.sunlightAdded && s.co2Added then Some(Co2)
    else None
  }

  /** The drop as the game runs it.  The zone of an added element renders
      nothing, so a drop there cannot happen; any other drop runs the
      first render's handler, which starts from the initial state: only the
      dropped element is added, the total is 10 XP, the game is not
      completed, and a signed-in player is credited 10 XP with an
      in-progress attempt and no badge. */
  function HandleDropAsWritten(cur: State, e: Element, signedIn: bool): (o: Outcome)
    ensures Added(cur, e) ==> o == Outcome(cur, [])
    ensures !Added(cur, e) ==>
      && Sole(o.state) == Some(e)
      && o.state.totalXp == ElementXp && !o.state.completed
      && o.effects == (if signedIn then [ ReportProgress(ElementXp, 0),
                                          WriteModule(ModuleId, Completion.Attempt(Completion.InProgress, ElementXp, ElementXp)) ]
                       else [])
  {
    if Added(cur, e) then Outcome(cur, []) else HandleDrop(Initial, e, signedIn)
  }

  /** The states the running game reaches: the initial one, or one element
      added at 10 XP and not completed. */
  predicate ValidAsWritten(s: State)
  {
    s == Initial || (Sole(s).Some? && s.totalXp == ElementXp && !s.completed)
  }

  /** Drops in the given order, the effects of each in turn; `intended`
      chooses the handler run on the current state over the one the game
      runs. */
  function Play(s: State, es: seq<Element>, signedIn: bool, intended: bool): Outcome
    decreases |es|
  {
    if es == [] then Outcome(s, [])
    else
      var first := if intended then HandleDrop(s, es[0], signedIn) else HandleDropAsWritten(s, es[0], signedIn);
      var rest := Play(first.state, es[1..], signedIn, intended);
      Outcome(rest.state, first.effects + rest.effects)
  }

  /** With the handler run on the current state, over any sequence of drops
      the game stays reachable, flags are never
      cleared, every dropped element ends up added, and the XP reported to the
      store adds up to exactly the game total's growth. */
  lemma {:induction false} PlayKeepsValid(s: State, es: seq<Element>, signedIn: bool)
    requires Valid(s)
    ensures Valid(Play(s, es, signedIn, true).state)
    ensures Play(s, es, signedIn, true).state.totalXp >= s.totalXp
    ensures forall e :: Added(s, e) || e in es ==> Added(Play(s, es, signedIn, true).state, e)
    ensures signedIn ==> TotalXp(Play(s, es, signedIn, true).effects) == Play(s, es, signedIn, true).state.totalXp - s.totalXp
    decreases |es|
  {
    if es != [] {
      var first := HandleDrop(s, es[0], signedIn);
      DropKeepsValid(s, es[0], signedIn);
      PlayKeepsValid(first.state, es[1..], signedIn);
      forall e | Added(s, e) || e in es
        ensures Added(Play(s, es, signedIn, true).state, e)
      {
        if e != es[0] && !Added(s, e) {
          assert e in es[1..];
        }
      }
      if signedIn {
        TotalXpConcat(first.effects, Play(first.state, es[1..], signedIn, true).effects);
      }
    }
  }

  /** With the handler run on the current state, a full game, in any order
      and with any repeated drops, completes with 80 XP, and a signed-in
      player is credited exactly those 80 XP. */
  lemma FullGameEarns80(es: seq<Element>, signedIn: bool)
    requires Water in es && Sunlight in es && Co2 in es
    ensures Play(Initial, es, signedIn, true).state.completed
    ensures Play(Initial, es, signedIn, true).state.totalXp == 80
    ensures signedIn ==> TotalXp(Play(Initial, es, signedIn, true).effects) == 80
  {
    PlayKeepsValid(Initial, es, signedIn);
    var f := Play(Initial, es, signedIn, true).state;
    assert Added(f, Water) && Added(f, Sunlight) && Added(f, Co2);
  }

  /** The number of drops in `es` that differ from the drop before them,
      the first compared with `prev`. */
  function Changes(prev: Option<Element>, es: seq<Element>): nat
    decreases |es|
  {
    if es == [] then 0 else (if prev == Some(es[0]) then 0 else 1) + Changes(Some(es[0]), es[1..])
  }

  /** As the game runs, over any sequence of drops the game holds at most
      one element and 10 XP, never completes and never grants the badge;
      the last element dropped is the one held, and a signed-in player is
      credited 10 XP for every drop that differs from the one before. */
  lemma {:induction false} PlayAsWrittenCredits(s: State, es: seq<Element>, signedIn: bool)
    requires ValidAsWritten(s)
    ensures var o := Play(s, es, signedIn, false);
            && ValidAsWritten(o.state)
            && !o.state.completed && o.state.totalXp <= ElementXp
            && (es != [] ==> Sole(o.state) == Some(es[|es| - 1]))
            && (forall i :: 0 <= i < |o.effects| ==> !o.effects[i].GrantBadge?)
            && (signedIn ==> TotalXp(o.effects) == ElementXp * Changes(Sole(s), es))
    decreases |es|
  {
    if es != [] {
      var first := HandleDropAsWritten(s, es[0], signedIn);
      assert Added(s, es[0]) <==> Sole(s) == Some(es[0]);
      assert Sole(first.state) == Some(es[0]);
      PlayAsWrittenCredits(first.state, es[1..], signedIn);
      var rest := Play(first.state, es[1..], signedIn, false);
      TotalXpConcat(first.effects, rest.effects);
      if first.effects != [] {
        TotalXpOfThree(first.effects[0], first.effects[1], first.effects[1]);
        assert first.effects == [first.effects[0], first.effects[1]];
      }
      if |es| > 1 {
        assert es[1..][|es[1..]| - 1] == es[|es| - 1];
      }
    }
  }

  /** A drop sequence in which no drop repeats the one before it counts
      every drop as a change. */
  lemma {:induction false} NeighboursDiffer(prev: Option<Element>, es: seq<Element>)
    requires es != [] ==> prev != Some(es[0])
    requires forall i :: 0 <= i < |es| - 1 ==> es[i] != es[i + 1]
    ensures Changes(prev, es) == |es|
    decreases |es|
  {
    if es != [] {
      NeighboursDiffer(Some(es[0]), es[1..]);
    }
  }

  /** As the game runs there is no limit to the credit: from the start, any
      drops in which no drop repeats the one before credit 10 XP each,
      while the game never holds more than 10. */
  lemma EndlessCredit(es: seq<Element>)
    requires forall i :: 0 <= i < |es| - 1 ==> es[i] != es[i + 1]
    ensures TotalXp(Play(Initial, es, true, false).effects) == ElementXp * |es|
    ensures Play(Initial, es, true, false).state.totalXp <= ElementXp
  {
    PlayAsWrittenCredits(Initial, es, true);
    NeighboursDiffer(None, es);
  }

  /** Water, sunlight, then CO2: as the game runs it ends holding CO2 alone
      at 10 XP, not completed, having credited 30 XP; with the handler run
      on the current state it completes at 80 XP, all credited. */
  lemma ThreeDropsCredit30()
    ensures var o := Play(Initial, [Water, Sunlight, Co2], true, false);
            && o.state == Initial.(co2Added := true, totalXp := ElementXp)
            && TotalXp(o.effects) == 30
    ensures var p := Play(Initial, [Water, Sunlight, Co2], true, true);
            && p.state.completed && p.state.totalXp == 80 && TotalXp(p.effects) == 80
  {
    var es := [Water, Sunlight, Co2];
    EndlessCredit(es);
    PlayAsWrittenCredits(Initial, es, true);
    FullGameEarns80(es, true);
  }

  /** `getCompletionPercentage`: the share of the three elements dropped. */
  function CompletionPercentage(s: State): (p: real)
    ensures 0.0 <= p <= 100.0
    ensures Valid(s) ==> (p == 100.0 <==> s.completed)
    ensures p == 0.0 <==> Placed(s) == 0
  {
    Placed(s) as real / 3.0 * 100.0
  }

  /** `resetGame`: back to the initial state. */
  function Reset(): (s: State)
    ensures Valid(s) && Placed(s) == 0 && s.totalXp == 0
  {
    Initial
  }
}

=== FILE: probability_kingdom.dfy ===
/** The probability kingdom: three zones, each with one probability
    question worth 15 XP and its own badge.  Zones are answered in order;
    the third correct answer completes the game, which credits a 60 XP
    bonus, grants 'Probability Monarch' and upserts module
    `probability-kingdom-grade-12` as completed. */
module ProbabilityKingdom {
  import opened Basics
  import opened Sync
  import Completion

  datatype Zone = Zone(id: string, correct: string, xpReward: nat, badge: string)

  const Zones: seq<Zone> := [
    Zone("dice-dungeon", "1/6", 15, "Dice Strategist"),
    Zone("card-court", "1/26", 15, "Card Conqueror"),
    Zone("coin-citadel", "3/8", 15, "Coin Commander")
  ]
  const CompletionBonus: nat := 60
  const BadgeModule: string := "Class 12 Mathematics"
  const ModuleId: string := "probability-kingdom-grade-12"

  datatype State = State(currentZone: nat, completedZones: seq<string>, totalXp: nat, completed: bool)

  const Initial: State := State(0, [], 0, false)

  function ZoneIdsUpTo(k: nat): seq<string>
    requires k <= |Zones|
  {
    seq(k, i requires 0 <= i < k => Zones[i].id)
  }

  /** The states reachable from `Initial`. */
  predicate Valid(s: State)
  {
    var k := |s.completedZones|;
    && k <= |Zones|
    && s.completedZones == ZoneIdsUpTo(k)
    && s.totalXp == 15 * k
    && (if k < |Zones| then s.currentZone == k else s.currentZone == |Zones| - 1)
    && (s.completed <==> k == |Zones|)
  }

  datatype Outcome = Outcome(state: State, effects: seq<Event>)

  /** What a signed-in player's correct answer reports: the zone's reward
      and badge, then on completion the final badge, the bonus and the
      module record (xp the game total + 60, one attempt, best 100). */
  function CorrectAnswerEffects(z: Zone, done: bool, newTotal: nat): seq<Event>
  {
    [ReportProgress(z.xpReward, 0), GrantBadge(z.badge, BadgeModule)]
    + (if done
       then [ GrantBadge("Probability Monarch", BadgeModule),
              ReportProgress(CompletionBonus, 0),
              WriteModule(ModuleId, Completion.Upsert(Completion.Completed, newTotal + CompletionBonus, Some(1), Some(100))) ]
       else [])
  }

  /** `handleSubmitAnswer` followed by its timer.  Without a selected answer
      or a current zone nothing happens; a wrong answer changes nothing; a
      correct one appends the zone, adds its reward, completes the game when
      every zone is done and otherwise moves to the next zone.  A signed-in
      player is credited the reward and the zone's badge, and on completion
      the final badge, the bonus and the module record. */
  function HandleSubmit(s: State, selected: Option<string>, signedIn: bool): (o: Outcome)
    ensures selected.None? || selected.value == "" || s.currentZone >= |Zones| ==> o == Outcome(s, [])
    ensures selected.Some? && s.currentZone < |Zones| && selected.value != Zones[s.currentZone].correct ==> o == Outcome(s, [])
    ensures selected.Some? && selected.value != "" && s.currentZone < |Zones| && selected.value == Zones[s.currentZone].correct ==>
      var z := Zones[s.currentZone];
      && o.state.completedZones == s.completedZones + [z.id]
      && o.state.totalXp == s.totalXp + z.xpReward
      && (o.state.completed <==> |o.state.completedZones| == |Zones|)
      && o.state.currentZone == (if o.state.completed then s.currentZone else s.currentZone + 1)
      && (signedIn ==> o.effects == CorrectAnswerEffects(z, o.state.completed, o.state.totalXp))
      && (!signedIn ==> o.effects == [])
  {
    if selected.None? || selected.value == "" || s.currentZone >= |Zones| then Outcome(s, [])
    else
      var z := Zones[s.currentZone];
      if selected.value != z.correct then Outcome(s, [])
      else
        var zones := s.completedZones + [z.id];
        var xp := s.totalXp + z.xpReward;
        var done := |zones| == |Zones|;
        var effects := if signedIn then CorrectAnswerEffects(z, done, xp) else [];
        var next := if done then s.currentZone else s.currentZone + 1;
        Outcome(State(next, zones, xp, done), effects)
  }

  /** Each submission keeps the game reachable, and a signed-in player is
      credited the growth of the game total, plus the bonus on the
      submission that completes the game. */
  lemma SubmitKeepsValid(s: State, selected: Option<string>, signedIn: bool)
    requires Valid(s) && !s.completed
    ensures Valid(HandleSubmit(s, selected, signedIn).state)
    ensures signedIn ==>
      TotalXp(HandleSubmit(s, selected, signedIn).effects)
      == HandleSubmit(s, selected, signedIn).state.totalXp - s.totalXp
         + (if HandleSubmit(s, selected, signedIn).state.completed then CompletionBonus else 0)
  {
    var o := HandleSubmit(s, selected, signedIn);
    var k := |s.completedZones|;
    if o.state != s {
      assert ZoneIdsUpTo(k + 1) == ZoneIdsUpTo(k) + [Zones[k].id];
    }
    if signedIn && o.effects != [] {
      var fx := o.effects;
      assert fx == fx[..2] + fx[2..];
      TotalXpConcat(fx[..2], fx[2..]);
      TotalXpOfThree(fx[0], fx[1], fx[1]);
      assert fx[..2] == [fx[0], fx[1]];
      if o.state.completed {
        TotalXpOfThree(fx[2], fx[3], fx[4]);
        assert fx[2..] == [fx[2], fx[3], fx[4]];
      } else {
        assert fx[2..] == [];
      }
    }
  }

  /** Submissions in order, while the question panel is shown (until the
      game is completed). */
  function Play(s: State, answers: seq<Option<string>>, signedIn: bool): Outcome
    decreases |answers|
  {
    if answers == [] || s.completed then Outcome(s, [])
    else
      var first := HandleSubmit(s, answers[0], signedIn);
      var rest := Play(first.state, answers[1..], signedIn);
      Outcome(rest.state, first.effects + rest.effects)
  }

  /** Over any sequence of submissions the game stays reachable, holds at
      most 45 XP, and a signed-in player is credited exactly the game total's
      growth plus, once the game completes, the 60 XP bonus. */
  lemma {:induction false} PlayCredits(s: State, answers: seq<Option<string>>, signedIn: bool)
    requires Valid(s)
    ensures Valid(Play(s, answers, signedIn).state)
    ensures Play(s, answers, signedIn).state.totalXp <= 45
    ensures s.completed ==> Play(s, answers, signedIn).state == s
    ensures signedIn ==>
      TotalXp(Play(s, answers, signedIn).effects)
      == Play(s, answers, signedIn).state.totalXp - s.totalXp
         + (if Play(s, answers, signedIn).state.completed && !s.completed then CompletionBonus else 0)
    decreases |answers|
  {
    if answers != [] && !s.completed {
      var first := HandleSubmit(s, answers[0], signedIn);
      SubmitKeepsValid(s, answers[0], signedIn);
      PlayCredits(first.state, answers[1..], signedIn);
      TotalXpConcat(first.effects, Play(first.state, answers[1..], signedIn).effects);
    }
  }

  /** Three right answers complete the kingdom with 45 XP in the game and
      105 XP credited. */
  lemma ThreeRightAnswers()
    ensures var answers := [Some("1/6"), Some("1/26"), Some("3/8")];
            && Play(Initial, answers, true).state.completed
            && Play(Initial, answers, true).state.totalXp == 45
            && TotalXp(Play(Initial, answers, true).effects) == 105
  {
    var answers := [Some("1/6"), Some("1/26"), Some("3/8")];
    assert ZoneIdsUpTo(1) == ["dice-dungeon"];
    assert ZoneIdsUpTo(2) == ["dice-dungeon", "card-court"];
    assert ZoneIdsUpTo(3) == ["dice-dungeon", "card-court", "coin-citadel"];
    var s1 := State(1, ["dice-dungeon"], 15, false);
    var s2 := State(2, ["dice-dungeon", "card-court"], 30, false);
    var s3 := State(2, ["dice-dungeon", "card-court", "coin-citadel"], 45, true);
    assert HandleSubmit(Initial, answers[0], true).state == s1;
    assert HandleSubmit(s1, answers[1], true).state == s2;
    assert HandleSubmit(s2, answers[2], true).state == s3;
    assert answers[1..] == [answers[1], answers[2]] && answers[1..][1..] == [answers[2]] && answers[1..][1..][1..] == [];
    assert Play(s2, [answers[2]], true).state == s3;
    PlayCredits(Initial, answers, true);
  }

  /** `progress`: the share of zones completed. */
  function ProgressPercent(s: State): (p: real)
    requires Valid(s)
    ensures 0.0 <= p <= 100.0
    ensures p == 100.0 <==> s.completed
  {
    |s.completedZones| as real / |Zones| as real * 100.0
  }

  /** `handleRestart`: back to the first zone with nothing completed. */
  function Restart(): (s: State)
    ensures Valid(s) && s.completedZones == [] && s.totalXp == 0 && !s.completed
  {
    Initial
  }
}

=== FILE: progress_overview.dfy ===
/** The dashboard's progress overview: the level of a player is one more
    than the whole thousands of their total XP, the bar runs from the
    current level's threshold to the next one, and the caption says how
    much XP the next level still needs.  A player without a progress row is
    shown as having 0 XP.  `Math.floor` of a quotient by 1000 is integer
    division, which agrees with flooring for every total, negative ones
    included. */
module ProgressOverview {
  import opened Basics
  import opened Backend

  const XpPerLevel: int := 1000

  /** The total shown, 0 without a progress row. */
  function ShownXp(p: Option<Progress>): (xp: int)
    ensures p.None? ==> xp == 0
    ensures p.Some? ==> xp == p.value.totalXp
  {
    if p.None? then 0 else p.value.totalXp
  }

  /** `getLevel`: the level whose band of 1000 XP holds `xp`. */
  function Level(xp: int): (l: int)
    ensures (l - 1) * XpPerLevel <= xp < l * XpPerLevel
    ensures xp >= 0 ==> l >= 1
  {
    xp / XpPerLevel + 1
  }

  /** The band pins the level down: no other level's band holds `xp`. */
  lemma LevelIsUnique(xp: int, k: int)
    requires (k - 1) * XpPerLevel <= xp < k * XpPerLevel
    ensures Level(xp) == k
  {
  }

  /** Earning never lowers the level, and 1000 XP raise it by exactly one. */
  lemma LevelMonotone(xp: int, gain: nat)
    ensures Level(xp) <= Level(xp + gain)
    ensures Level(xp + XpPerLevel) == Level(xp) + 1
  {
    LevelIsUnique(xp + XpPerLevel, Level(xp) + 1);
  }

  /** `getXpForNextLevel`: the threshold of the next level, above `xp` by
      at least 1 and at most 1000. */
  function NextLevelXp(xp: int): (t: int)
    ensures xp < t <= xp + XpPerLevel
    ensures t % XpPerLevel == 0
  {
    Level(xp) * XpPerLevel
  }

  /** The threshold of the current level, at most `xp` and within 1000 of
      it. */
  function CurrentLevelXp(xp: int): (t: int)
    ensures t <= xp < t + XpPerLevel
    ensures t % XpPerLevel == 0
    ensures NextLevelXp(xp) - t == XpPerLevel
  {
    (Level(xp) - 1) * XpPerLevel
  }

  /** What the level card shows. */
  datatype Card = Card(xp: int, level: int, nextLevelXp: int, needed: int, percentage: real)

  /** The level card for a progress row: the caption's XP still needed is
      between 1 and 1000, and the bar is filled to a percentage in
      [0, 100), the share of the current band already earned. */
  function LevelCard(p: Option<Progress>): (c: Card)
    ensures c.xp == ShownXp(p) && c.level == Level(c.xp)
    ensures 1 <= c.needed <= XpPerLevel && c.xp + c.needed == c.nextLevelXp
    ensures 0.0 <= c.percentage < 100.0
    ensures c.percentage == (c.xp - CurrentLevelXp(c.xp)) as real / 10.0
  {
    var xp := ShownXp(p);
    var next := NextLevelXp(xp);
    var current := CurrentLevelXp(xp);
    Card(xp, Level(xp), next, next - xp, ((xp - current) as real / (next - current) as real) * 100.0)
  }

  /** A player without progress is at level 1 with 1000 XP to go and an
      empty bar. */
  lemma NoProgressCard()
    ensures LevelCard(None) == Card(0, 1, 1000, 1000, 0.0)
  {
  }

  /** Earning XP within a band moves the bar forward and keeps the level;
      crossing the threshold starts the next level. */
  lemma EarningWithinBand(p: Progress, gain: nat)
    requires p.totalXp + gain < NextLevelXp(p.totalXp)
    ensures var a := LevelCard(Some(p));
            var b := LevelCard(Some(p.(totalXp := p.totalXp + gain)));
            && b.level == a.level
            && b.percentage == a.percentage + gain as real / 10.0
            && b.needed == a.needed - gain
  {
    LevelIsUnique(p.totalXp + gain, Level(p.totalXp));
  }
}

=== FILE: shape_builder.dfy ===
/** The shape builder: three shapes (triangle, rectangle, square) are placed
    on their drop zones, then the area and the perimeter are calculated.
    Each of the five steps earns 10 XP in the game; progress is 20 per step.
    When all five are done the game completes, and a signed-in player's
    module `shape_builder_6` is upserted as completed with best score 100,
    the game total + 20 is credited and 'Shape Genius' is granted.

    The handlers themselves do not check anything, and each calculate
    button is shown only at its turn.  The drop zone is meant to accept a
    shape only while it is not placed, and a used shape is marked and
    meant to be undraggable.  But both react-dnd specs are factories with
    no dependency list, so they are built once at mount, when no shape is
    placed, and keep accepting: as written a placed shape can be dropped
    again for another 10 XP (`RedropCredits80`).  `Accepts` is the gate
    as written, `AcceptsIntended` the intended one. */
module ShapeBuilder {
  import opened Basics
  import opened Sync
  import Completion

  datatype Shape = Triangle | Rectangle | Square
  datatype Calculation = Area | Perimeter

  datatype Action = Drop(shape: Shape) | Calculate(kind: Calculation)

  datatype State = State(
    trianglePlaced: bool, rectanglePlaced: bool, squarePlaced: bool,
    areaCalculated: bool, perimeterCalculated: bool,
    totalXp: nat, completed: bool, showCalculation: bool)

  const Initial: State := State(false, false, false, false, false, 0, false, false)
  const StepXp: nat := 10
  const CompletionBonus: nat := 20
  const ModuleId: string := "shape_builder_6"

  function IsPlaced(s: State, sh: Shape): bool
  {
    match sh
    case Triangle => s.trianglePlaced
    case Rectangle => s.rectanglePlaced
    case Square => s.squarePlaced
  }

  predicate ShapesPlaced(s: State)
  {
    s.trianglePlaced && s.rectanglePlaced && s.squarePlaced
  }

  predicate AllDone(s: State)
  {
    ShapesPlaced(s) && s.areaCalculated && s.perimeterCalculated
  }

  /** The number of the five steps done. */
  function StepsDone(s: State): nat
  {
    (if s.trianglePlaced then 1 else 0) + (if s.rectanglePlaced then 1 else 0) + (if s.squarePlaced then 1 else 0)
    + (if s.areaCalculated then 1 else 0) + (if s.perimeterCalculated then 1 else 0)
  }

  /** The progress effect's percentage: 20 per step done. */
  function ProgressPercent(s: State): (p: nat)
    ensures p <= 100
    ensures p == 100 <==> AllDone(s)
    ensures p == 20 * StepsDone(s)
  {
    (if s.trianglePlaced then 20 else 0) + (if s.rectanglePlaced then 20 else 0) + (if s.squarePlaced then 20 else 0)
    + (if s.areaCalculated then 20 else 0) + (if s.perimeterCalculated then 20 else 0)
  }

  /** `handleShapeDrop`: sets the shape's flag and adds 10 XP, unguarded. */
  function HandleShapeDrop(s: State, sh: Shape): (s': State)
    ensures IsPlaced(s', sh) && s'.totalXp == s.totalXp + StepXp
    ensures forall other :: other != sh ==> IsPlaced(s', other) == IsPlaced(s, other)
    ensures s'.areaCalculated == s.areaCalculated && s'.perimeterCalculated == s.perimeterCalculated
    ensures s'.completed == s.completed && s'.showCalculation == s.showCalculation
  {
    var s1 := s.(totalXp := s.totalXp + StepXp);
    match sh
    case Triangle => s1.(trianglePlaced := true)
    case Rectangle => s1.(rectanglePlaced := true)
    case Square => s1.(squarePlaced := true)
  }

  /** `handleCalculation`: sets the calculation's flag and adds 10 XP,
      unguarded. */
  function HandleCalculation(s: State, kind: Calculation): (s': State)
    ensures kind == Area ==> s'.areaCalculated && s'.perimeterCalculated == s.perimeterCalculated
    ensures kind == Perimeter ==> s'.perimeterCalculated && s'.areaCalculated == s.areaCalculated
    ensures s'.totalXp == s.totalXp + StepXp
    ensures forall sh :: IsPlaced(s', sh) == IsPlaced(s, sh)
    ensures s'.completed == s.completed && s'.showCalculation == s.showCalculation
  {
    var s1 := s.(totalXp := s.totalXp + StepXp);
    if kind == Area then s1.(areaCalculated := true) else s1.(perimeterCalculated := true)
  }

  /** What the page lets the player do, as written: a shape can always be
      dropped on its own zone, since the zone's `active` test and the
      shape's `canDrag` test are read from specs built at mount; the area
      button is shown while the calculation panel is open and the area is
      not done, the perimeter button once the area is done and the
      perimeter is not. */
  predicate Accepts(s: State, a: Action)
  {
    match a
    case Drop(sh) => true
    case Calculate(Area) => s.showCalculation && !s.areaCalculated
    case Calculate(Perimeter) => s.showCalculation && s.areaCalculated && !s.perimeterCalculated
  }

  /** The intended gate: a shape's drop zone is active only while the shape
      is unplaced. */
  predicate AcceptsIntended(s: State, a: Action)
  {
    Accepts(s, a) && (a.Drop? ==> !IsPlaced(s, a.shape))
  }

  /** The five flags the progress effect depends on. */
  function Flags(s: State): (bool, bool, bool, bool, bool)
  {
    (s.trianglePlaced, s.rectanglePlaced, s.squarePlaced, s.areaCalculated, s.perimeterCalculated)
  }

  datatype Outcome = Outcome(state: State, effects: seq<Event>)

  /** The progress effect after a flag changes: the calculation panel opens
      once the three shapes are placed, and the first time all five steps
      are done the game completes; `handleGameCompletion` then does nothing
      without a player and otherwise records the module, credits the game
      total + 20 and grants the badge. */
  function AfterChange(s: State, signedIn: bool): (o: Outcome)
    ensures o.state.showCalculation == (s.showCalculation || ShapesPlaced(s))
    ensures o.state.completed == (s.completed || AllDone(s))
    ensures o.state.(showCalculation := s.showCalculation, completed := s.completed) == s
    ensures AllDone(s) && !s.completed && signedIn ==>
      o.effects == [ WriteModule(ModuleId, Completion.Upsert(Completion.Completed, s.totalXp + CompletionBonus, None, Some(100))),
                     ReportProgress(s.totalXp + CompletionBonus, 0),
                     GrantBadge("Shape Genius", ModuleId) ]
    ensures !(AllDone(s) && !s.completed && signedIn) ==> o.effects == []
  {
    var shown := s.(showCalculation := s.showCalculation || ShapesPlaced(s));
    if AllDone(s) && !s.completed then
      var effects :=
        if signedIn then
          [ WriteModule(ModuleId, Completion.Upsert(Completion.Completed, s.totalXp + CompletionBonus, None, Some(100))),
            ReportProgress(s.totalXp + CompletionBonus, 0),
            GrantBadge("Shape Genius", ModuleId) ]
        else [];
      Outcome(shown.(completed := true), effects)
    else Outcome(shown, [])
  }

  /** One player action: ignored unless the page offers it, otherwise the
      handler, followed by the progress effect when one of its flags
      changed. */
  function Step(s: State, a: Action, signedIn: bool): (o: Outcome)
    ensures !Accepts(s, a) ==> o == Outcome(s, [])
    ensures Accepts(s, a) ==> o.state.totalXp == s.totalXp + StepXp
    ensures Accepts(s, a) && !(a.Drop? && IsPlaced(s, a.shape)) ==> StepsDone(o.state) == StepsDone(s) + 1
    ensures a.Drop? && IsPlaced(s, a.shape) ==> o == Outcome(s.(totalXp := s.totalXp + StepXp), [])
  {
    if !Accepts(s, a) then Outcome(s, [])
    else
      var changed := Handle(s, a);
      if Flags(changed) == Flags(s) then Outcome(changed, [])
      else AfterChange(changed, signedIn)
  }

  /** The handler an action calls: it completes a step not yet done, and
      leaves the flags alone only for a shape already placed. */
  function Handle(s: State, a: Action): (s': State)
    requires Accepts(s, a)
    ensures s'.totalXp == s.totalXp + StepXp
    ensures s'.completed == s.completed && s'.showCalculation == s.showCalculation
    ensures a.Drop? && IsPlaced(s, a.shape) ==> s' == s.(totalXp := s.totalXp + StepXp)
    ensures !(a.Drop? && IsPlaced(s, a.shape)) ==> Flags(s') != Flags(s) && StepsDone(s') == StepsDone(s) + 1
  {
    match a
    case Drop(sh) => HandleShapeDrop(s, sh)
    case Calculate(k) => HandleCalculation(s, k)
  }

  /** The intended step: a drop of a placed shape is refused. */
  function StepIntended(s: State, a: Action, signedIn: bool): (o: Outcome)
    ensures !AcceptsIntended(s, a) ==> o == Outcome(s, [])
    ensures AcceptsIntended(s, a) ==> o == Step(s, a, signedIn) && StepsDone(o.state) == StepsDone(s) + 1
  {
    if AcceptsIntended(s, a) then Step(s, a, signedIn) else Outcome(s, [])
  }

  /** The states reachable from `Initial` as written: every step done has
      earned its 10 XP, and re-dropped shapes may have earned more. */
  predicate Valid(s: State)
  {
    && s.totalXp >= StepXp * StepsDone(s)
    && s.totalXp % StepXp == 0
    && (s.completed <==> AllDone(s))
    && (s.showCalculation <==> ShapesPlaced(s))
    && (s.areaCalculated ==> s.showCalculation)
    && (s.perimeterCalculated ==> s.areaCalculated)
  }

  /** The states reachable with the intended gate: exactly 10 XP per step
      done. */
  predicate ValidIntended(s: State)
  {
    Valid(s) && s.totalXp == StepXp * StepsDone(s)
  }

  /** Every accepted action keeps the game reachable and adds 10 XP;
      completion fires on the step that finishes the fifth task, at 50 XP
      or more. */
  lemma StepKeepsValid(s: State, a: Action, signedIn: bool)
    requires Valid(s)
    ensures Valid(Step(s, a, signedIn).state)
    ensures Step(s, a, signedIn).state.completed && !s.completed ==> Step(s, a, signedIn).state.totalXp >= 50
    ensures s.completed ==> Step(s, a, signedIn).state.completed
  {
  }

  /** With the intended gate every step keeps exactly 10 XP per step done,
      so completion comes at exactly 50 XP. */
  lemma StepIntendedKeepsValid(s: State, a: Action, signedIn: bool)
    requires ValidIntended(s)
    ensures ValidIntended(StepIntended(s, a, signedIn).state)
    ensures StepIntended(s, a, signedIn).state.completed && !s.completed ==> StepIntended(s, a, signedIn).state.totalXp == 50
  {
    StepKeepsValid(s, a, signedIn);
  }

  /** A single step credits the game total plus 20 if it completes the
      game, nothing otherwise. */
  lemma StepCredits(s: State, a: Action, signedIn: bool)
    requires Valid(s)
    ensures var o := Step(s, a, signedIn);
            TotalXp(o.effects) == (if signedIn && o.state.completed && !s.completed then o.state.totalXp + CompletionBonus else 0)
  {
    StepKeepsValid(s, a, signedIn);
    var fx := Step(s, a, signedIn).effects;
    if fx != [] {
      TotalXpOfThree(fx[0], fx[1], fx[2]);
      assert fx == [fx[0], fx[1], fx[2]];
    }
  }

  function Play(s: State, actions: seq<Action>, signedIn: bool, intended: bool): Outcome
    decreases |actions|
  {
    if actions == [] then Outcome(s, [])
    else
      var first := if intended then StepIntended(s, actions[0], signedIn) else Step(s, actions[0], signedIn);
      var rest := Play(first.state, actions[1..], signedIn, intended);
      Outcome(rest.state, first.effects + rest.effects)
  }

  /** As written, over any sequence of actions the game stays reachable and
      its XP never falls; a signed-in player is credited nothing until
      completion, and then one award of at least 70 (50 + 20) and at most
      the final game total plus 20. */
  lemma {:induction false} PlayCredits(s: State, actions: seq<Action>, signedIn: bool)
    requires Valid(s)
    ensures var o := Play(s, actions, signedIn, false);
            && Valid(o.state)
            && o.state.totalXp >= s.totalXp
            && (s.completed ==> o.state.completed)
            && (!(signedIn && o.state.completed && !s.completed) ==> TotalXp(o.effects) == 0)
            && (signedIn && o.state.completed && !s.completed ==> 70 <= TotalXp(o.effects) <= o.state.totalXp + CompletionBonus)
    decreases |actions|
  {
    if actions != [] {
      var first := Step(s, actions[0], signedIn);
      StepKeepsValid(s, actions[0], signedIn);
      StepCredits(s, actions[0], signedIn);
      PlayCredits(first.state, actions[1..], signedIn);
      var rest := Play(first.state, actions[1..], signedIn, false);
      TotalXpConcat(first.effects, rest.effects);
    }
  }

  /** With the intended gate, over any sequence of actions the game never
      holds more than the 50 XP of its five steps, and a signed-in player
      is credited nothing until completion and then exactly 70 in one
      award. */
  lemma {:induction false} PlayIntendedCredits(s: State, actions: seq<Action>, signedIn: bool)
    requires ValidIntended(s)
    ensures var o := Play(s, actions, signedIn, true);
            && ValidIntended(o.state)
            && o.state.totalXp <= 50
            && (s.completed ==> o.state.completed)
            && TotalXp(o.effects) == (if signedIn && o.state.completed && !s.completed then 70 else 0)
    decreases |actions|
  {
    if actions != [] {
      var first := StepIntended(s, actions[0], signedIn);
      StepIntendedKeepsValid(s, actions[0], signedIn);
      StepKeepsValid(s, actions[0], signedIn);
      StepCredits(s, actions[0], signedIn);
      PlayIntendedCredits(first.state, actions[1..], signedIn);
      var rest := Play(first.state, actions[1..], signedIn, true);
      TotalXpConcat(first.effects, rest.effects);
    }
  }

  /** The triangle dropped twice and then the other four steps: as written
      the game holds 60 XP and credits 80; with the intended gate it holds
      50 and credits 70. */
  lemma RedropCredits80()
    ensures var moves := [Drop(Triangle), Drop(Triangle), Drop(Rectangle), Drop(Square), Calculate(Area), Calculate(Perimeter)];
            var o := Play(Initial, moves, true, false);
            var p := Play(Initial, moves, true, true);
            && o.state.completed && o.state.totalXp == 60 && TotalXp(o.effects) == 80
            && p.state.completed && p.state.totalXp == 50 && TotalXp(p.effects) == 70
  {
    var moves := [Drop(Triangle), Drop(Triangle), Drop(Rectangle), Drop(Square), Calculate(Area), Calculate(Perimeter)];
    var t1 := Initial.(trianglePlaced := true, totalXp := 10);
    var r := Initial.(trianglePlaced := true, rectanglePlaced := true);
    var placed := r.(squarePlaced := true, showCalculation := true);
    // As written: the second triangle earns 10 more and changes no flag.
    QuietStep(Initial, t1, moves, false);
    QuietStep(t1, t1.(totalXp := 20), moves[1..], false);
    QuietStep(t1.(totalXp := 20), r.(totalXp := 30), moves[2..], false);
    assert moves[2..][1..] == moves[3..];
    QuietStep(r.(totalXp := 30), placed.(totalXp := 40), moves[3..], false);
    assert moves[3..][1..] == moves[4..];
    SessionEnd(placed.(totalXp := 40), moves[4..], false);
    PlayCredits(Initial, moves, true);
    // Intended: the second triangle is refused.
    QuietStep(Initial, t1, moves, true);
    QuietStep(t1, t1, moves[1..], true);
    QuietStep(t1, r.(totalXp := 20), moves[2..], true);
    QuietStep(r.(totalXp := 20), placed.(totalXp := 30), moves[3..], true);
    SessionEnd(placed.(totalXp := 30), moves[4..], true);
    PlayIntendedCredits(Initial, moves, true);
  }

  /** A first move with no effects leaves the rest of the session to decide. */
  lemma QuietStep(s: State, s': State, actions: seq<Action>, intended: bool)
    requires actions != []
    requires (if intended then StepIntended(s, actions[0], true) else Step(s, actions[0], true)) == Outcome(s', [])
    ensures Play(s, actions, true, intended) == Play(s', actions[1..], true, intended)
  {
    var rest := Play(s', actions[1..], true, intended);
    assert [] + rest.effects == rest.effects;
  }

  /** With the shapes placed, calculating the area and then the perimeter
      completes the game with 20 more XP and credits the new total plus
      20. */
  lemma SessionEnd(s: State, moves: seq<Action>, intended: bool)
    requires Valid(s) && ShapesPlaced(s) && !s.areaCalculated && !s.perimeterCalculated
    requires moves == [Calculate(Area), Calculate(Perimeter)]
    ensures Play(s, moves, true, intended).state.completed
    ensures Play(s, moves, true, intended).state.totalXp == s.totalXp + 2 * StepXp
    ensures TotalXp(Play(s, moves, true, intended).effects) == s.totalXp + 2 * StepXp + CompletionBonus
  {
    var s1 := s.(areaCalculated := true, totalXp := s.totalXp + StepXp);
    assert Step(s, moves[0], true) == Outcome(s1, []);
    assert StepIntended(s, moves[0], true) == Outcome(s1, []);
    var last := AfterChange(s1.(perimeterCalculated := true, totalXp := s1.totalXp + StepXp), true);
    assert Step(s1, moves[1], true) == last;
    assert StepIntended(s1, moves[1], true) == last;
    assert moves[1..][1..] == [];
    StepCredits(s1, moves[1], true);
    assert last.effects + [] == last.effects;
    assert Play(s1, moves[1..], true, intended) == last;
    assert Play(s, moves, true, intended) == last;
  }

  /** The fixed dimensions of the three shapes. */
  datatype Dimensions = TriangleDims(base: int, height: int) | RectangleDims(length: int, width: int) | SquareDims(side: int)

  function DimensionsOf(sh: Shape): Dimensions
  {
    match sh
    case Triangle => TriangleDims(6, 4)
    case Rectangle => RectangleDims(8, 5)
    case Square => SquareDims(6)
  }

  /** The value shown by `getAreaFormula` (a number, not necessarily whole). */
  function AreaOf(d: Dimensions): real
  {
    match d
    case TriangleDims(b, h) => (b * h) as real / 2.0
    case RectangleDims(l, w) => (l * w) as real
    case SquareDims(a) => (a * a) as real
  }

  /** The value shown by `getPerimeterFormula`; the triangle's third side is
      taken as 5. */
  function PerimeterOf(d: Dimensions): int
  {
    match d
    case TriangleDims(b, h) => b + h + 5
    case RectangleDims(l, w) => 2 * (l + w)
    case SquareDims(a) => 4 * a
  }

  /** The square's formulas are the rectangle's with equal sides, and a
      triangle has half the area of the rectangle on its base and height. */
  lemma FormulasAgree(a: int, b: int, h: int)
    ensures AreaOf(SquareDims(a)) == AreaOf(RectangleDims(a, a))
    ensures PerimeterOf(SquareDims(a)) == PerimeterOf(RectangleDims(a, a))
    ensures AreaOf(TriangleDims(b, h)) * 2.0 == AreaOf(RectangleDims(b, h))
  {
  }

  /** With the game's dimensions the shown areas are 12, 40 and 36 and the
      perimeters 15, 26 and 24; with the 6-4-5 triangle the perimeter
      formula is the true sum of sides. */
  lemma GivenShapes()
    ensures AreaOf(DimensionsOf(Triangle)) == 12.0
    ensures AreaOf(DimensionsOf(Rectangle)) == 40.0
    ensures AreaOf(DimensionsOf(Square)) == 36.0
    ensures PerimeterOf(DimensionsOf(Triangle)) == 15
    ensures PerimeterOf(DimensionsOf(Rectangle)) == 26
    ensures PerimeterOf(DimensionsOf(Square)) == 24
  {
  }
}

=== FILE: spin_wheel.dfy ===
/** The daily spin wheel: six rewards (XP, credits, or the 'Daily Spinner'
    badge), one spin a day.  Opening the wheel reads the player's
    `spin_wheel` row: a last spin on today's date disables the wheel, one on
    another day enables it, and no row (or no last spin) leaves the wheel as
    it was.  A spin needs the wheel enabled, no spin under way and a player;
    it picks a reward at random, and when the animation ends awards it
    through the store (XP and credits through `updateProgress`, the badge
    through `addBadge` for module 'Daily Rewards'), records today on the
    spin row and disables the wheel.  The dialog cannot be closed while the
    wheel turns.

    Days are day numbers, the random pick is a parameter, and the
    animation's end is an action of its own. */
module SpinWheel {
  import opened Basics
  import opened Backend
  import opened Sync

  datatype Kind = XpReward | CreditReward | BadgeReward

  datatype Reward = Reward(id: string, name: string, kind: Kind, value: nat)

  const Rewards: seq<Reward> := [
    Reward("xp_10", "10 XP", XpReward, 10),
    Reward("credits_5", "5 Credits", CreditReward, 5),
    Reward("xp_25", "25 XP", XpReward, 25),
    Reward("badge_daily", "Daily Spinner", BadgeReward, 1),
    Reward("xp_15", "15 XP", XpReward, 15),
    Reward("credits_10", "10 Credits", CreditReward, 10)
  ]

  const BadgeModule: string := "Daily Rewards"

  /** The dialog's state: whether a spin is allowed, whether the wheel is
      turning (and towards which reward), the reward shown, and whether the
      dialog is open. */
  datatype Modal = Modal(canSpin: bool, spinning: Option<nat>, won: Option<Reward>, open: bool)

  /** A freshly mounted dialog. */
  const Mounted: Modal := Modal(true, None, None, false)

  /** `checkSpinAvailability` on opening: only a row with a last spin
      decides, and then the wheel is enabled exactly when that spin was on
      another day. */
  function CheckSpinAvailability(m: Modal, signedIn: bool, row: Option<SpinRow>, today: int): (r: Modal)
    ensures r.spinning == m.spinning && r.won == m.won && r.open == m.open
    ensures signedIn && row.Some? && row.value.lastSpin.Some? ==> (r.canSpin <==> row.value.lastSpin.value != today)
    ensures !(signedIn && row.Some? && row.value.lastSpin.Some?) ==> r == m
  {
    if signedIn && row.Some? && row.value.lastSpin.Some? then m.(canSpin := row.value.lastSpin.value != today)
    else m
  }

  /** The store call that awards a reward. */
  function Award(r: Reward): (e: Event)
    ensures r.kind == XpReward ==> e == ReportProgress(r.value, 0)
    ensures r.kind == CreditReward ==> e == ReportProgress(0, r.value)
    ensures r.kind == BadgeReward ==> e == GrantBadge(r.name, BadgeModule)
  {
    match r.kind
    case XpReward => ReportProgress(r.value, 0)
    case CreditReward => ReportProgress(0, r.value)
    case BadgeReward => GrantBadge(r.name, BadgeModule)
  }

  /** Each reward is awarded as its kind says: XP rewards credit their
      value in XP and nothing else, credit rewards their value in credits,
      the badge neither. */
  lemma AwardCredits(r: Reward)
    ensures TotalXp([Award(r)]) == (if r.kind == XpReward then r.value else 0)
    ensures TotalCredits([Award(r)]) == (if r.kind == CreditReward then r.value else 0)
  {
    assert [Award(r)][1..] == [];
  }

  datatype Outcome = Outcome(modal: Modal, effects: seq<Event>)

  /** `handleSpin` with the random pick `pick`: nothing unless the wheel is
      enabled, not turning, and a player is signed in; otherwise the wheel
      starts turning towards reward `pick`. */
  function HandleSpin(m: Modal, signedIn: bool, pick: nat): (r: Modal)
    requires pick < |Rewards|
    ensures !m.canSpin || m.spinning.Some? || !signedIn ==> r == m
    ensures m.canSpin && m.spinning.None? && signedIn ==> r == m.(spinning := Some(pick))
  {
    if !m.canSpin || m.spinning.Some? || !signedIn then m
    else m.(spinning := Some(pick))
  }

  /** The end of the animation: the reward is shown and awarded, today is
      recorded on the spin row, the wheel is disabled and stops. */
  function SpinEnds(m: Modal, today: int): (o: Outcome)
    requires m.spinning.Some? ==> m.spinning.value < |Rewards|
    ensures m.spinning.None? ==> o == Outcome(m, [])
    ensures m.spinning.Some? ==>
      && o.modal == m.(canSpin := false, spinning := None, won := Some(Rewards[m.spinning.value]))
      && o.effects == [Award(Rewards[m.spinning.value]), RecordSpin(today)]
  {
    if m.spinning.None? then Outcome(m, [])
    else
      var r := Rewards[m.spinning.value];
      Outcome(m.(canSpin := false, spinning := None, won := Some(r)), [Award(r), RecordSpin(today)])
  }

  /** `handleClose`: refused while the wheel turns; otherwise the shown
      reward is cleared and the dialog closes. */
  function HandleClose(m: Modal): (r: Modal)
    ensures m.spinning.Some? ==> r == m
    ensures m.spinning.None? ==> r == m.(won := None, open := false)
  {
    if m.spinning.Some? then m else m.(won := None, open := false)
  }

  datatype Action = Open(row: Option<SpinRow>) | Spin(pick: nat) | End | Close

  predicate WellFormed(m: Modal)
  {
    m.spinning.Some? ==> m.spinning.value < |Rewards|
  }

  /** One action of a session on day `today`; a pick out of range is
      ignored. */
  function Step(m: Modal, a: Action, signedIn: bool, today: int): (o: Outcome)
    requires WellFormed(m)
    ensures WellFormed(o.modal)
  {
    match a
    case Open(row) => Outcome(CheckSpinAvailability(m.(open := true), signedIn, row, today), [])
    case Spin(pick) => if pick < |Rewards| then Outcome(HandleSpin(m, signedIn, pick), []) else Outcome(m, [])
    case End => SpinEnds(m, today)
    case Close => Outcome(HandleClose(m), [])
  }

  function Session(m: Modal, actions: seq<Action>, signedIn: bool, today: int): (o: Outcome)
    requires WellFormed(m)
    ensures WellFormed(o.modal)
    decreases |actions|
  {
    if actions == [] then Outcome(m, [])
    else
      var first := Step(m, actions[0], signedIn, today);
      var rest := Session(first.modal, actions[1..], signedIn, today);
      Outcome(rest.modal, first.effects + rest.effects)
  }

  /** The number of rewards awarded. */
  function Awards(es: seq<Event>): nat
  {
    if es == [] then 0 else (if es[0].RecordSpin? then 1 else 0) + Awards(es[1..])
  }

  lemma {:induction false} AwardsConcat(a: seq<Event>, b: seq<Event>)
    ensures Awards(a + b) == Awards(a) + Awards(b)
    decreases |a|
  {
    if a == [] {
      assert a + b == b;
    } else {
      assert (a + b)[1..] == a[1..] + b;
      AwardsConcat(a[1..], b);
    }
  }

  /** Once the wheel is disabled and still, no sequence of actions that does
      not reopen it awards anything. */
  lemma {:induction false} DisabledWheelAwardsNothing(m: Modal, actions: seq<Action>, signedIn: bool, today: int)
    requires !m.canSpin && m.spinning.None?
    requires forall i :: 0 <= i < |actions| ==> !actions[i].Open?
    ensures Session(m, actions, signedIn, today).effects == []
    ensures !Session(m, actions, signedIn, today).modal.canSpin
    decreases |actions|
  {
    if actions != [] {
      var first := Step(m, actions[0], signedIn, today);
      assert first.effects == [] && !first.modal.canSpin && first.modal.spinning.None?;
      DisabledWheelAwardsNothing(first.modal, actions[1..], signedIn, today);
    }
  }

  /** Between two openings of the dialog at most one reward is awarded:
      every award is followed by a disabled wheel. */
  lemma {:induction false} AtMostOneAwardPerOpening(m: Modal, actions: seq<Action>, signedIn: bool, today: int)
    requires WellFormed(m)
    requires forall i :: 0 <= i < |actions| ==> !actions[i].Open?
    ensures Awards(Session(m, actions, signedIn, today).effects) <= 1
    ensures Awards(Session(m, actions, signedIn, today).effects) == 1 ==> !Session(m, actions, signedIn, today).modal.canSpin
    decreases |actions|
  {
    if actions != [] {
      var first := Step(m, actions[0], signedIn, today);
      var rest := Session(first.modal, actions[1..], signedIn, today);
      AwardsConcat(first.effects, rest.effects);
      if first.effects != [] {
        assert first.effects == [first.effects[0], first.effects[1]];
        assert Awards(first.effects) == 1;
        DisabledWheelAwardsNothing(first.modal, actions[1..], signedIn, today);
      } else {
        AtMostOneAwardPerOpening(first.modal, actions[1..], signedIn, today);
      }
    }
  }

  /** A spin from an enabled wheel awards the picked reward and leaves a
      spin row dated today, so reopening the dialog the same day finds the
      wheel disabled and the next day enabled.  A player without a spin
      row keeps no date, and a freshly mounted dialog lets them spin
      again. */
  lemma SpinIsDaily(db: Db, pick: nat, today: int)
    requires pick < |Rewards|
    ensures var o := Session(Mounted, [Open(db.spin), Spin(pick), End], true, today);
            var db' := Backend.RecordSpin(db, today);
            && (db.spin.Some? && db.spin.value.lastSpin != Some(today) ==>
                  o.effects == [Award(Rewards[pick]), RecordSpin(today)])
            && (db.spin.Some? ==> !CheckSpinAvailability(Mounted, true, db'.spin, today).canSpin)
            && (db.spin.Some? ==> CheckSpinAvailability(Mounted, true, db'.spin, today + 1).canSpin)
            && (db.spin.None? ==> CheckSpinAvailability(Mounted, true, db'.spin, today).canSpin)
  {
    var actions := [Open(db.spin), Spin(pick), End];
    var s1 := Step(Mounted, actions[0], true, today);
    var s2 := Step(s1.modal, actions[1], true, today);
    var s3 := Step(s2.modal, actions[2], true, today);
    assert actions[1..] == [Spin(pick), End] && actions[1..][1..] == [End] && [End][1..] == [];
    assert Session(s2.modal, [End], true, today) == Outcome(s3.modal, s3.effects + []);
    assert Session(Mounted, actions, true, today).effects == s1.effects + (s2.effects + (s3.effects + []));
  }
}

=== FILE: sql_dungeon.dfy ===
/** The SQL data dungeon: four zones, each with a goal query.  The player
    picks a zone and submits a query from the editor (which trims it and
    refuses a blank one); a query whose normal form equals the goal's marks
    the zone completed and earns its reward.  A signed-in player's reward
    is added to the persisted total directly and the zone's badge is
    inserted (a duplicate is tolerated).

    When every zone is completed a timer builds the upsert of module
    `sql-data-dungeon-grade-12` as completed, but the query is neither
    awaited nor `.then()`-ed, and a Supabase query builder sends nothing
    until one of those happens: as written no completion row is ever
    written (`CompletionNeverRecorded`).  Nothing stops a completed zone
    from being answered again either: as written each correct answer
    earns and credits the reward again (`ReplayCreditsAgain`).
    `HandleQuerySubmitOnce` rewards each zone once and sends the record. */
module SqlDungeon {
  import opened Basics
  import opened Sync
  import opened SqlNormalize
  import Completion

  datatype Zone = Zone(id: string, goal: string, badge: string, xpReward: nat)

  const Zones: seq<Zone> := [
    Zone("library", "SELECT * FROM Books WHERE author IS NULL;", "Data Detective", 20),
    Zone("market", "INSERT INTO Shops (id, name, owner) VALUES (3, 'Potion House', 'Zara');", "Insert Wizard", 20),
    Zone("prison", "DELETE FROM Users WHERE status = 'banned';", "Data Slayer", 20),
    Zone("core", "UPDATE Students SET grade = 'A' WHERE name = 'Jairus';", "Query Conqueror", 40)
  ]
  const BadgeModule: string := "SQL Data Dungeon"
  const ModuleId: string := "sql-data-dungeon-grade-12"

  /** Which zones are completed, the selected zone, and the game's XP. */
  datatype State = State(done: seq<bool>, active: Option<nat>, xp: nat)

  const Initial: State := State([false, false, false, false], None, 0)

  predicate WellFormed(s: State)
  {
    |s.done| == |Zones| && (s.active.Some? ==> s.active.value < |Zones|)
  }

  predicate AllDone(done: seq<bool>)
  {
    forall i :: 0 <= i < |done| ==> done[i]
  }

  /** The rewards of the completed zones. */
  function DoneXp(done: seq<bool>): nat
    requires |done| == |Zones|
  {
    (if done[0] then 20 else 0) + (if done[1] then 20 else 0) + (if done[2] then 20 else 0) + (if done[3] then 40 else 0)
  }

  /** The four rewards add up to 100, the XP recorded for the module. */
  lemma RewardsSum100()
    ensures DoneXp([true, true, true, true]) == 100
    ensures Zones[0].xpReward + Zones[1].xpReward + Zones[2].xpReward + Zones[3].xpReward == 100
    ensures forall d :: |d| == |Zones| ==> DoneXp(d) <= 100
  {
  }

  datatype Outcome = Outcome(state: State, effects: seq<Event>)

  /** What a correct answer sends for a signed-in player: the reward added
      to the persisted total and the zone's badge. */
  function RewardEffects(z: Zone): seq<Event>
  {
    [AddXpDirect(z.xpReward), InsertBadgeDirect(z.badge, BadgeModule)]
  }

  /** The completion record the timer builds once every zone is done. */
  const CompletionRecord: Event := WriteModule(ModuleId, Completion.Upsert(Completion.Completed, 100, Some(1), Some(100)))

  /** `handleQuerySubmit`: nothing without a selected zone or for a wrong
      query; a correct one completes the selected zone (only that one) and
      earns its reward, and a signed-in player is credited it and its
      badge.  The completion record is not among the effects: it is never
      sent. */
  function HandleQuerySubmit(s: State, query: string, signedIn: bool): (o: Outcome)
    requires WellFormed(s)
    ensures WellFormed(o.state)
    ensures s.active.None? || !Correct(query, Zones[s.active.value].goal) ==> o == Outcome(s, [])
    ensures s.active.Some? && Correct(query, Zones[s.active.value].goal) ==>
      var i := s.active.value;
      && o.state.done == s.done[i := true]
      && o.state.xp == s.xp + Zones[i].xpReward
      && o.state.active == s.active
      && o.effects == (if signedIn then RewardEffects(Zones[i]) else [])
  {
    if s.active.None? then Outcome(s, [])
    else
      var z := Zones[s.active.value];
      if !Correct(query, z.goal) then Outcome(s, [])
      else
        var done := s.done[s.active.value := true];
        Outcome(State(done, s.active, s.xp + z.xpReward), if signedIn then RewardEffects(z) else [])
  }

  /** The intended submission: a zone already completed earns nothing, and
      the answer that completes the dungeon for a signed-in player also
      sends the completion record. */
  function HandleQuerySubmitOnce(s: State, query: string, signedIn: bool): (o: Outcome)
    requires WellFormed(s)
    ensures WellFormed(o.state)
    ensures s.active.Some? && s.done[s.active.value] ==> o == Outcome(s, [])
    ensures !(s.active.Some? && s.done[s.active.value]) ==>
      var w := HandleQuerySubmit(s, query, signedIn);
      && o.state == w.state
      && o.effects == w.effects + (if signedIn && AllDone(o.state.done) && !AllDone(s.done) then [CompletionRecord] else [])
  {
    if s.active.Some? && s.done[s.active.value] then Outcome(s, [])
    else
      var w := HandleQuerySubmit(s, query, signedIn);
      if signedIn && AllDone(w.state.done) && !AllDone(s.done) then Outcome(w.state, w.effects + [CompletionRecord])
      else w
  }

  datatype Action = SelectZone(zone: nat) | Submit(text: string)

  /** A player action: a zone card selects its zone (there are only four
      cards), and the editor submits its trimmed text unless it is blank. */
  function Step(s: State, a: Action, signedIn: bool, once: bool): (o: Outcome)
    requires WellFormed(s)
    ensures WellFormed(o.state)
    ensures a.Submit? && Trim(a.text) == [] ==> o == Outcome(s, [])
  {
    match a
    case SelectZone(i) => if i < |Zones| then Outcome(s.(active := Some(i)), []) else Outcome(s, [])
    case Submit(text) =>
      var q := Trim(text);
      if q == [] then Outcome(s, [])
      else if once then HandleQuerySubmitOnce(s, q, signedIn)
      else HandleQuerySubmit(s, q, signedIn)
  }

  function Play(s: State, actions: seq<Action>, signedIn: bool, once: bool): (o: Outcome)
    requires WellFormed(s)
    ensures WellFormed(o.state)
    decreases |actions|
  {
    if actions == [] then Outcome(s, [])
    else
      var first := Step(s, actions[0], signedIn, once);
      var rest := Play(first.state, actions[1..], signedIn, once);
      Outcome(rest.state, first.effects + rest.effects)
  }

  function Upserts(es: seq<Event>): nat
  {
    if es == [] then 0 else (if es[0].WriteModule? then 1 else 0) + Upserts(es[1..])
  }

  lemma {:induction false} UpsertsConcat(a: seq<Event>, b: seq<Event>)
    ensures Upserts(a + b) == Upserts(a) + Upserts(b)
    decreases |a|
  {
    if a == [] {
      assert a + b == b;
    } else {
      assert (a + b)[1..] == a[1..] + b;
      UpsertsConcat(a[1..], b);
    }
  }

  lemma EffectsCount(z: Zone)
    ensures TotalXp(RewardEffects(z)) == z.xpReward && Upserts(RewardEffects(z)) == 0
    ensures TotalXp(RewardEffects(z) + [CompletionRecord]) == z.xpReward
    ensures Upserts(RewardEffects(z) + [CompletionRecord]) == 1
  {
    var fx := RewardEffects(z);
    TotalXpOfThree(fx[0], fx[1], CompletionRecord);
    assert fx[1..] == [fx[1]] && fx[1..][1..] == [];
    assert [CompletionRecord][1..] == [];
    TotalXpConcat(fx, [CompletionRecord]);
    UpsertsConcat(fx, [CompletionRecord]);
  }

  /** With the intended submission, over any actions the game XP is exactly
      the rewards of the completed zones (at most 100), a signed-in player
      is credited exactly the growth of the game XP, and the module record
      is written once, when the last zone is completed. */
  lemma {:induction false} PlayOnceCredits(s: State, actions: seq<Action>, signedIn: bool)
    requires WellFormed(s) && s.xp == DoneXp(s.done)
    ensures var o := Play(s, actions, signedIn, true);
            && o.state.xp == DoneXp(o.state.done) <= 100
            && (signedIn ==> TotalXp(o.effects) == o.state.xp - s.xp)
            && (AllDone(s.done) ==> o.state.done == s.done)
            && Upserts(o.effects) == (if signedIn && AllDone(o.state.done) && !AllDone(s.done) then 1 else 0)
    decreases |actions|
  {
    if actions != [] {
      var first := Step(s, actions[0], signedIn, true);
      StepOnceCredits(s, actions[0], signedIn);
      PlayOnceCredits(first.state, actions[1..], signedIn);
      var rest := Play(first.state, actions[1..], signedIn, true);
      TotalXpConcat(first.effects, rest.effects);
      UpsertsConcat(first.effects, rest.effects);
    }
  }

  /** One intended step keeps the game XP equal to the cleared rewards,
      credits its growth, and writes the record exactly when it clears the
      last zone. */
  lemma StepOnceCredits(s: State, a: Action, signedIn: bool)
    requires WellFormed(s) && s.xp == DoneXp(s.done)
    ensures var o := Step(s, a, signedIn, true);
            && o.state.xp == DoneXp(o.state.done) >= s.xp
            && (signedIn ==> TotalXp(o.effects) == o.state.xp - s.xp)
            && (AllDone(s.done) ==> o.state.done == s.done)
            && Upserts(o.effects) == (if signedIn && AllDone(o.state.done) && !AllDone(s.done) then 1 else 0)
  {
    var first := Step(s, a, signedIn, true);
    assert first.state.xp == DoneXp(first.state.done) && (AllDone(s.done) ==> first.state.done == s.done) by {
      if a.Submit? && first.state != s {
        var i := s.active.value;
        assert !s.done[i];
      }
    }
    if first.effects != [] {
      EffectsCount(Zones[s.active.value]);
      assert RewardEffects(Zones[s.active.value]) + [] == RewardEffects(Zones[s.active.value]);
    }
    assert AllDone(first.state.done) && !AllDone(s.done) ==> first.effects != [] || !signedIn;
  }

  /** As written, no session ever writes the completion row, even one that
      clears every zone, while a signed-in player is credited every
      correct answer, repeats included, as the game XP grows. */
  lemma {:induction false} CompletionNeverRecorded(s: State, actions: seq<Action>, signedIn: bool)
    requires WellFormed(s)
    ensures var o := Play(s, actions, signedIn, false);
            && Upserts(o.effects) == 0
            && o.state.xp >= s.xp
            && (signedIn ==> TotalXp(o.effects) == o.state.xp - s.xp)
    decreases |actions|
  {
    if actions != [] {
      var first := Step(s, actions[0], signedIn, false);
      if first.effects != [] {
        EffectsCount(Zones[s.active.value]);
      }
      CompletionNeverRecorded(first.state, actions[1..], signedIn);
      var rest := Play(first.state, actions[1..], signedIn, false);
      TotalXpConcat(first.effects, rest.effects);
      UpsertsConcat(first.effects, rest.effects);
    }
  }

  /** As written: a correct answer given twice in the selected zone (the
      library zone's goal submitted twice, say) earns and credits the
      zone's reward twice; with the intended submission the second answer
      earns nothing. */
  lemma ReplayCreditsAgain(s: State, query: string)
    requires WellFormed(s) && s.active.Some? && !s.done[s.active.value]
    requires Correct(query, Zones[s.active.value].goal)
    ensures var r := Zones[s.active.value].xpReward;
            var o1 := HandleQuerySubmit(s, query, true);
            var o2 := HandleQuerySubmit(o1.state, query, true);
            && o2.state.xp == s.xp + 2 * r
            && o2.state.done == o1.state.done
            && TotalXp(o1.effects + o2.effects) == 2 * r
    ensures var r := Zones[s.active.value].xpReward;
            var o1 := HandleQuerySubmitOnce(s, query, true);
            var o2 := HandleQuerySubmitOnce(o1.state, query, true);
            o2.state.xp == s.xp + r && TotalXp(o1.effects + o2.effects) == r
  {
    var z := Zones[s.active.value];
    var o1 := HandleQuerySubmit(s, query, true);
    var o2 := HandleQuerySubmit(o1.state, query, true);
    EffectsCount(z);
    TotalXpConcat(o1.effects, o2.effects);
    var p1 := HandleQuerySubmitOnce(s, query, true);
    var p2 := HandleQuerySubmitOnce(p1.state, query, true);
    assert RewardEffects(z) + [] == RewardEffects(z);
    TotalXpConcat(p1.effects, p2.effects);
    assert p1.effects + [] == p1.effects;
  }

  /** `handlePlayAgain`. */
  function Restart(): (s: State)
    ensures WellFormed(s) && s.active.None? && s.xp == 0 && DoneXp(s.done) == 0
  {
    Initial
  }
}

=== FILE: sql_normalize.dfy ===
/** The SQL dungeon's answer check: a query is correct when its normal form
    equals the goal's.  The normal form lower-cases the query, replaces each
    run of whitespace by one space, removes semicolons at the very end, and
    trims surrounding whitespace.  Whitespace is the JavaScript `\s` class;
    lower-casing is modelled on ASCII letters. */
module SqlNormalize {

  /** JavaScript's `\s` (and the whitespace `trim` removes). */
  predicate IsSpace(c: char)
  {
    var n := c as int;
    || 9 <= n <= 13 || n == 32 || n == 0xA0 || n == 0x1680
    || 0x2000 <= n <= 0x200A || n == 0x2028 || n == 0x2029
    || n == 0x202F || n == 0x205F || n == 0x3000 || n == 0xFEFF
  }

  predicate IsUpper(c: char)
  {
    'A' <= c <= 'Z'
  }

  function LowerChar(c: char): (d: char)
    ensures !IsUpper(d)
    ensures IsSpace(d) <==> IsSpace(c)
    ensures !IsUpper(c) ==> d == c
  {
    if IsUpper(c) then (c as int + 32) as char else c
  }

  /** `toLowerCase`. */
  function Lower(s: string): (r: string)
  {
    seq(|s|, i requires 0 <= i < |s| => LowerChar(s[i]))
  }

  /** Leading whitespace removed (`trimStart`). */
  function TrimStart(s: string): (r: string)
    ensures |r| <= |s|
    ensures r == [] || !IsSpace(r[0])
    decreases |s|
  {
    if s != [] && IsSpace(s[0]) then TrimStart(s[1..]) else s
  }

  /** Trailing whitespace removed (`trimEnd`). */
  function TrimEnd(s: string): (r: string)
    ensures |r| <= |s|
    ensures r == [] || !IsSpace(r[|r| - 1])
    decreases |s|
  {
    if s != [] && IsSpace(s[|s| - 1]) then TrimEnd(s[..|s| - 1]) else s
  }

  function Trim(s: string): string
  {
    TrimEnd(TrimStart(s))
  }

  /** `replace(/\s+/g, ' ')`: each maximal whitespace run becomes one
      space. */
  function Collapse(s: string): (r: string)
    ensures s == [] <==> r == []
    ensures s != [] && IsSpace(s[0]) ==> r[0] == ' '
    ensures s != [] && !IsSpace(s[0]) ==> r[0] == s[0]
    decreases |s|
  {
    if s == [] then []
    else if IsSpace(s[0]) then [' '] + Collapse(TrimStart(s[1..]))
    else [s[0]] + Collapse(s[1..])
  }

  /** `replace(/;+$/, '')`: the semicolons at the very end of the string. */
  function StripSemicolons(s: string): (r: string)
    ensures |r| <= |s|
    ensures r == [] || r[|r| - 1] != ';'
    decreases |s|
  {
    if s != [] && s[|s| - 1] == ';' then StripSemicolons(s[..|s| - 1]) else s
  }

  /** Trimming and stripping keep a slice of their input: what `trimStart`
      removes is whitespace at the front, what `trimEnd` removes is
      whitespace at the end, and what the semicolon strip removes is
      semicolons at the end. */
  lemma {:induction false} TrimStartIsSuffix(s: string)
    ensures TrimStart(s) == s[|s| - |TrimStart(s)|..]
    ensures forall i :: 0 <= i < |s| - |TrimStart(s)| ==> IsSpace(s[i])
    decreases |s|
  {
    if s != [] && IsSpace(s[0]) {
      TrimStartIsSuffix(s[1..]);
    }
  }

  lemma {:induction false} TrimEndIsPrefix(s: string)
    ensures TrimEnd(s) == s[..|TrimEnd(s)|]
    ensures forall i :: |TrimEnd(s)| <= i < |s| ==> IsSpace(s[i])
    decreases |s|
  {
    if s != [] && IsSpace(s[|s| - 1]) {
      TrimEndIsPrefix(s[..|s| - 1]);
    }
  }

  lemma {:induction false} StripIsPrefix(s: string)
    ensures StripSemicolons(s) == s[..|StripSemicolons(s)|]
    ensures forall i :: |StripSemicolons(s)| <= i < |s| ==> s[i] == ';'
    decreases |s|
  {
    if s != [] && s[|s| - 1] == ';' {
      StripIsPrefix(s[..|s| - 1]);
    }
  }

  /** The shape of every normal form: no upper-case ASCII letter, no
      whitespace other than single spaces, no surrounding whitespace. */
  predicate Clean(s: string)
  {
    && (forall i :: 0 <= i < |s| ==> !IsUpper(s[i]))
    && (forall i :: 0 <= i < |s| ==> IsSpace(s[i]) ==> s[i] == ' ')
    && (forall i :: 0 <= i < |s| - 1 ==> !(s[i] == ' ' && s[i + 1] == ' '))
  }

  /** The query's normal form. */
  function Normalize(q: string): (r: string)
    ensures r == [] || (!IsSpace(r[0]) && !IsSpace(r[|r| - 1]))
  {
    var u := TrimStart(StripSemicolons(Collapse(Lower(q))));
    TrimEndIsPrefix(u);
    TrimEnd(u)
  }

  /** Every normal form is clean. */
  lemma NormalizeIsClean(q: string)
    ensures Clean(Normalize(q))
  {
    var c := Collapse(Lower(q));
    CollapseClean(Lower(q));
    var t := StripSemicolons(c);
    var u := TrimStart(t);
    var v := TrimEnd(u);
    StripIsPrefix(c);
    TrimStartIsSuffix(t);
    TrimEndIsPrefix(u);
    SliceClean(c, 0, |t|);
    SliceClean(t, |t| - |u|, |t|);
    SliceClean(u, 0, |v|);
  }

  /** Collapsing a string without upper-case letters gives a clean
      string: its only whitespace is single spaces. */
  lemma {:induction false} CollapseClean(s: string)
    requires forall i :: 0 <= i < |s| ==> !IsUpper(s[i])
    ensures Clean(Collapse(s))
    decreases |s|
  {
    if s != [] {
      if IsSpace(s[0]) {
        var rest := TrimStart(s[1..]);
        TrimStartIsSuffix(s[1..]);
        forall i | 0 <= i < |rest|
          ensures !IsUpper(rest[i])
        {
          assert rest[i] == s[1..][|s[1..]| - |rest| + i];
        }
        CollapseClean(rest);
        ConsClean(' ', Collapse(rest));
      } else {
        CollapseClean(s[1..]);
        ConsClean(s[0], Collapse(s[1..]));
      }
    }
  }

  lemma ConsClean(c: char, t: string)
    requires Clean(t) && !IsUpper(c) && (IsSpace(c) ==> c == ' ')
    requires c == ' ' && t != [] ==> t[0] != ' '
    ensures Clean([c] + t)
  {
    var r := [c] + t;
    assert forall i :: 1 <= i < |r| ==> r[i] == t[i - 1];
  }

  lemma SliceClean(s: string, lo: nat, hi: nat)
    requires lo <= hi <= |s|
    requires Clean(s)
    ensures Clean(s[lo..hi])
  {
    var t := s[lo..hi];
    assert forall i :: 0 <= i < |t| ==> t[i] == s[lo + i];
  }

  /** `checkQueryCorrectness`. */
  predicate Correct(query: string, goal: string)
  {
    Normalize(query) == Normalize(goal)
  }

  lemma LowerConcat(a: string, b: string)
    ensures Lower(a + b) == Lower(a) + Lower(b)
  {
  }

  lemma LowerOfSpaces(w: string)
    requires forall i :: 0 <= i < |w| ==> IsSpace(w[i])
    ensures Lower(w) == w
  {
  }

  lemma LowerIdempotent(s: string)
    ensures Lower(Lower(s)) == Lower(s)
  {
  }

  /** Letter case does not matter: a query is judged as its lower-case
      form, and two queries that differ only in ASCII case get the same
      verdict and are judged equal to each other.  Being an equality of
      normal forms, the judgement is reflexive and symmetric. */
  lemma CaseInsensitive(q1: string, q2: string, goal: string)
    requires Lower(q1) == Lower(q2)
    ensures Normalize(q1) == Normalize(q2)
    ensures Normalize(Lower(q1)) == Normalize(q1)
    ensures Correct(q1, goal) <==> Correct(q2, goal)
    ensures Correct(q1, q2) && Correct(q2, q1) && Correct(goal, goal)
  {
    LowerIdempotent(q1);
  }

  lemma {:induction false} TrimStartAllSpace(w: string)
    requires forall i :: 0 <= i < |w| ==> IsSpace(w[i])
    ensures TrimStart(w) == []
    decreases |w|
  {
    if w != [] {
      TrimStartAllSpace(w[1..]);
    }
  }

  /** Trimming the front of a concatenation: the first part's trim, or,
      when the first part is all whitespace, the second part's trim. */
  lemma {:induction false} TrimStartConcat(a: string, b: string)
    ensures TrimStart(a + b) == (if TrimStart(a) == [] then TrimStart(b) else TrimStart(a) + b)
    decreases |a|
  {
    if a == [] {
      assert a + b == b;
    } else if IsSpace(a[0]) {
      assert (a + b)[1..] == a[1..] + b;
      TrimStartConcat(a[1..], b);
    } else {
      assert (a + b)[0] == a[0];
    }
  }

  /** Collapsing does not depend on the length or kind of a whitespace run:
      a non-empty run collapses as a single space would. */
  lemma {:induction false} CollapseRunAsSpace(p: string, w: string, t: string)
    requires w != []
    requires forall i :: 0 <= i < |w| ==> IsSpace(w[i])
    ensures Collapse(p + (w + t)) == Collapse(p + ([' '] + t))
    decreases |p|
  {
    var x := p + (w + t);
    var y := p + ([' '] + t);
    if p == [] {
      assert x == w + t && x[1..] == w[1..] + t;
      assert y == [' '] + t && y[1..] == t;
      TrimStartConcat(w[1..], t);
      TrimStartAllSpace(w[1..]);
    } else if IsSpace(p[0]) {
      assert x[1..] == p[1..] + (w + t);
      assert y[1..] == p[1..] + ([' '] + t);
      TrimStartConcat(p[1..], w + t);
      TrimStartConcat(p[1..], [' '] + t);
      var q := TrimStart(p[1..]);
      if q == [] {
        TrimStartConcat(w, t);
        TrimStartConcat([' '], t);
        TrimStartAllSpace(w);
        assert TrimStart([' ']) == [];
      } else {
        CollapseRunAsSpace(q, w, t);
        assert TrimStart(q + (w + t)) == q + (w + t);
        assert TrimStart(q + ([' '] + t)) == q + ([' '] + t);
      }
    } else {
      assert x[1..] == p[1..] + (w + t);
      assert y[1..] == p[1..] + ([' '] + t);
      CollapseRunAsSpace(p[1..], w, t);
    }
  }

  /** The same for the whole normal form: one space or many, a tab or a
      newline, the verdict is the same. */
  lemma WhitespaceRunInsensitive(p: string, w1: string, w2: string, t: string)
    requires w1 != [] && w2 != []
    requires forall i :: 0 <= i < |w1| ==> IsSpace(w1[i])
    requires forall i :: 0 <= i < |w2| ==> IsSpace(w2[i])
    ensures Normalize(p + w1 + t) == Normalize(p + w2 + t)
  {
    LowerConcat(p + w1, t);
    LowerConcat(p, w1);
    LowerConcat(p + w2, t);
    LowerConcat(p, w2);
    LowerOfSpaces(w1);
    LowerOfSpaces(w2);
    CollapseRunAsSpace(Lower(p), w1, Lower(t));
    CollapseRunAsSpace(Lower(p), w2, Lower(t));
    assert Lower(p + w1 + t) == Lower(p) + (w1 + Lower(t));
    assert Lower(p + w2 + t) == Lower(p) + (w2 + Lower(t));
  }

  /** Collapsing commutes with appending a character that is not
      whitespace. */
  lemma {:induction false} CollapseAppend(s: string, c: char)
    requires !IsSpace(c)
    ensures Collapse(s + [c]) == Collapse(s) + [c]
    decreases |s|
  {
    if s == [] {
      assert s + [c] == [c] && [c][1..] == [];
    } else if IsSpace(s[0]) {
      assert (s + [c])[1..] == s[1..] + [c];
      var q := TrimStart(s[1..]);
      TrimStartConcat(s[1..], [c]);
      if q == [] {
        assert TrimStart([c]) == [c] && [c][1..] == [];
      } else {
        CollapseAppend(q, c);
      }
    } else {
      assert (s + [c])[1..] == s[1..] + [c];
      CollapseAppend(s[1..], c);
    }
  }

  /** A semicolon appended at the very end never changes the verdict. */
  lemma TrailingSemicolonIgnored(q: string)
    ensures Normalize(q + ";") == Normalize(q)
  {
    LowerConcat(q, ";");
    assert Lower(";") == ";";
    CollapseAppend(Lower(q), ';');
    var c := Collapse(Lower(q));
    assert (c + ";")[..|c + ";"| - 1] == c;
  }

  /** Semicolons are stripped only at the very end, before trimming, so
      normalising is not idempotent: "a; " normalises to "a;", which
      normalises to "a". */
  lemma NotIdempotent()
    ensures Normalize("a; ") == "a;"
    ensures Normalize("a;") == "a"
  {
    assert Lower("a; ") == "a; ";
    assert Lower("a;") == "a;";
    assert TrimStart("") == "";
    assert Collapse("") == "";
    assert Collapse(" ") == " ";
    assert Collapse(" ") == [' '] + Collapse(TrimStart(" "[1..]));
    assert Collapse("; ") == ";" + Collapse(" ");
    assert Collapse("a; ") == "a" + Collapse("; ");
    assert Collapse(";") == ";" + Collapse("");
    assert Collapse("a;") == "a" + Collapse(";");
    assert StripSemicolons("a; ") == "a; ";
    assert StripSemicolons("a;") == StripSemicolons("a");
    assert TrimStart("a; ") == "a; ";
    assert TrimEnd("a; ") == TrimEnd("a;");
    assert TrimStart("a") == "a";
  }
}

=== FILE: subject_grid.dfy ===
/** The dashboard's subject grid: four subject cards, each with a fixed
    number of modules and a count of the completed ones read from the
    player's `module_completion` rows.  Science counts `photosynthesis_6`,
    mathematics counts `shape_builder_6` and `number_adventure_6`,
    engineering counts `circuit_builder_6`, and technology has no modules.
    A module counts when its row has status completed.  Each card's button
    reads "Learn Again" when every module of the subject is completed and
    "Start" otherwise, and is disabled for a subject without modules.

    Because a completed row can be overwritten with in_progress (see
    `Completion.CompletedIsOverwritten`), replaying a finished game can take
    a subject's count back down (`ReplayUncountsScience`). */
module SubjectGrid {
  import opened Basics
  import Completion

  const ScienceModule: string := "photosynthesis_6"
  const EngineeringModule: string := "circuit_builder_6"
  const ShapeModule: string := "shape_builder_6"
  const NumberModule: string := "number_adventure_6"

  /** The completed counts the grid keeps between loads. */
  datatype Counts = Counts(science: nat, math: nat, engineering: nat)

  const NoCounts: Counts := Counts(0, 0, 0)

  /** Whether the rows hold a completed row for module `id`. */
  predicate IsDone(rows: Option<Completion.Table>, id: string)
  {
    rows.Some? && id in rows.value && rows.value[id].status == Completion.Completed
  }

  function OneIf(b: bool): (n: nat)
    ensures n <= 1 && (n == 1 <==> b)
  {
    if b then 1 else 0
  }

  /** `loadProgress`: nothing without a player; otherwise the counts from
      the rows read (`rows` is None when the read returns no data, which
      counts nothing). */
  function LoadProgress(prev: Counts, signedIn: bool, rows: Option<Completion.Table>): (c: Counts)
    ensures !signedIn ==> c == prev
    ensures signedIn ==>
      && (c.science == 1 <==> IsDone(rows, ScienceModule)) && c.science <= 1
      && (c.engineering == 1 <==> IsDone(rows, EngineeringModule)) && c.engineering <= 1
      && c.math <= 2
      && (c.math == 2 <==> IsDone(rows, ShapeModule) && IsDone(rows, NumberModule))
      && (c.math == 0 <==> !IsDone(rows, ShapeModule) && !IsDone(rows, NumberModule))
    ensures signedIn && rows.None? ==> c == NoCounts
  {
    if !signedIn then prev
    else Counts(OneIf(IsDone(rows, ScienceModule)),
                OneIf(IsDone(rows, ShapeModule)) + OneIf(IsDone(rows, NumberModule)),
                OneIf(IsDone(rows, EngineeringModule)))
  }

  /** Rows of other modules, and rows of counted modules that are not
      completed, change nothing. */
  lemma OtherRowsIgnored(rows: Completion.Table, id: string, r: Completion.Row)
    requires id !in {ScienceModule, EngineeringModule, ShapeModule, NumberModule} || r.status != Completion.Completed
    requires id !in rows
    ensures LoadProgress(NoCounts, true, Some(rows[id := r])) == LoadProgress(NoCounts, true, Some(rows))
  {
  }

  datatype Subject = Subject(id: string, modules: nat, completedModules: nat)

  /** The four cards, in display order. */
  function Subjects(c: Counts): (ss: seq<Subject>)
    ensures |ss| == 4
    ensures ss[0] == Subject("science", 1, c.science)
    ensures ss[1] == Subject("math", 2, c.math)
    ensures ss[2] == Subject("technology", 0, 0)
    ensures ss[3] == Subject("engineering", 1, c.engineering)
  {
    [ Subject("science", 1, c.science),
      Subject("math", 2, c.math),
      Subject("technology", 0, 0),
      Subject("engineering", 1, c.engineering) ]
  }

  datatype Label = Start | LearnAgain

  /** The button of a card. */
  datatype Button = Button(caption: Label, disabled: bool)

  function SubjectButton(s: Subject): (b: Button)
    ensures b.caption == LearnAgain <==> s.completedModules == s.modules
    ensures b.disabled <==> s.modules == 0
  {
    Button(if s.completedModules == s.modules then LearnAgain else Start, s.modules == 0)
  }

  /** After a load, no card counts more modules than it has, and a card
      offers "Learn Again" exactly when every one of its modules has a
      completed row.  The technology card, with no modules, always reads
      "Learn Again" and is disabled. */
  lemma LoadedCardsAreConsistent(rows: Option<Completion.Table>)
    ensures var ss := Subjects(LoadProgress(NoCounts, true, rows));
            && (forall i :: 0 <= i < |ss| ==> ss[i].completedModules <= ss[i].modules)
            && (SubjectButton(ss[0]).caption == LearnAgain <==> IsDone(rows, ScienceModule))
            && (SubjectButton(ss[1]).caption == LearnAgain <==> IsDone(rows, ShapeModule) && IsDone(rows, NumberModule))
            && (SubjectButton(ss[3]).caption == LearnAgain <==> IsDone(rows, EngineeringModule))
            && SubjectButton(ss[2]) == Button(LearnAgain, true)
            && (forall i :: 0 <= i < |ss| && i != 2 ==> !SubjectButton(ss[i]).disabled)
  {
  }

  /** As written: a partial circuit placement after a completed circuit
      takes the engineering count back to 0, and an in-progress attempt
      does the same to a completed science row.  (The photosynthesis game
      as it runs never completes, so that row needs its corrected drop
      handler.)  With the sticky rule (`Completion.RecordAttemptSticky`)
      science stays 1. */
  lemma ReplayUncountsScience(rows: Completion.Table, xp: nat, score: nat)
    requires IsDone(Some(rows), ScienceModule) && IsDone(Some(rows), EngineeringModule)
    ensures var after := Completion.WriteRow(rows, ScienceModule, Completion.Attempt(Completion.InProgress, xp, score));
            LoadProgress(NoCounts, true, Some(after)).science == 0
    ensures var after := Completion.WriteRow(rows, EngineeringModule, Completion.CircuitStep(xp));
            LoadProgress(NoCounts, true, Some(after)).engineering == 0
    ensures var sticky := rows[ScienceModule := Completion.RecordAttemptSticky(Completion.Lookup(rows, ScienceModule), Completion.InProgress, xp, score)];
            LoadProgress(NoCounts, true, Some(sticky)).science == 1
  {
  }
}

=== FILE: sync.dfy ===
/** The persistence effects a game can emit, and their effect on the user's
    rows and store.  Games either go through the store (`updateProgress`,
    `addBadge`, `fetchUserData`) or talk to the tables directly; a game
    handler is modelled as a pure state change plus the list of effects it
    awaits, in order.

    Two ways of adding XP coexist: the store's `updateProgress` computes the
    new total from the CACHED row, while the direct path reads the persisted
    total.  Mixing them loses XP (see `DirectXpThenReportIsLost`); the
    corrected step `StepFresh` reads the persisted total on both paths and
    conserves every award (`FreshConservesXp`). */
module Sync {
  import opened Basics
  import opened Backend
  import opened UserStore
  import Completion

  datatype Event =
    | ReportProgress(xp: int, credits: int)                  // store.updateProgress
    | GrantBadge(badge: string, bModule: string)            // store.addBadge
    | AddXpDirect(directXp: int)                             // select total_xp, update total_xp + xp
    | InsertBadgeDirect(dBadge: string, dModule: string)     // badges insert, duplicate tolerated
    | InsertBadgeIfNameAbsent(nBadge: string, nModule: string)
    | WriteModule(moduleId: string, write: Completion.Write) // module_completion read-modify-write
    | Refresh                                                // store.fetchUserData
    | Visit(today: int)                                      // store.updateStreak
    | RecordSpin(day: int)                                   // spin_wheel update

  /** The effect of one event, as the program performs it. */
  function Step(w: World, e: Event): World
  {
    match e
    case ReportProgress(xp, credits) => UpdateProgress(w, xp, credits)
    case GrantBadge(b, m) => AddBadge(w, b, m)
    case AddXpDirect(xp) => w.(db := Backend.AddXpDirect(w.db, xp))
    case InsertBadgeDirect(b, m) => w.(db := InsertBadgeTolerant(w.db, Badge(b, m)))
    case InsertBadgeIfNameAbsent(b, m) => w.(db := Backend.InsertBadgeIfNameAbsent(w.db, b, m))
    case WriteModule(id, wr) => w.(db := Backend.WriteModule(w.db, id, wr))
    case Refresh => FetchUserData(w)
    case Visit(today) => UpdateStreak(w, today)
    case RecordSpin(day) => w.(db := Backend.RecordSpin(w.db, day))
  }

  function Run(w: World, es: seq<Event>): World
    decreases |es|
  {
    if es == [] then w else Run(Step(w, es[0]), es[1..])
  }

  /** The XP an event awards. */
  function XpOf(e: Event): int
  {
    match e
    case ReportProgress(xp, _) => xp
    case AddXpDirect(xp) => xp
    case _ => 0
  }

  function CreditsOf(e: Event): int
  {
    if e.ReportProgress? then e.credits else 0
  }

  function TotalXp(es: seq<Event>): int
  {
    if es == [] then 0 else XpOf(es[0]) + TotalXp(es[1..])
  }

  function TotalCredits(es: seq<Event>): int
  {
    if es == [] then 0 else CreditsOf(es[0]) + TotalCredits(es[1..])
  }

  lemma {:induction false} TotalXpConcat(a: seq<Event>, b: seq<Event>)
    ensures TotalXp(a + b) == TotalXp(a) + TotalXp(b)
    decreases |a|
  {
    if a == [] {
      assert a + b == b;
    } else {
      assert (a + b)[1..] == a[1..] + b;
      TotalXpConcat(a[1..], b);
    }
  }

  lemma TotalXpOfThree(a: Event, b: Event, c: Event)
    ensures TotalXp([a]) == XpOf(a)
    ensures TotalXp([a, b]) == XpOf(a) + XpOf(b)
    ensures TotalXp([a, b, c]) == XpOf(a) + XpOf(b) + XpOf(c)
  {
    assert TotalXp([c]) == XpOf(c) by { assert [c][1..] == []; }
    assert TotalXp([b]) == XpOf(b) by { assert [b][1..] == []; }
    assert TotalXp([a]) == XpOf(a) by { assert [a][1..] == []; }
    assert TotalXp([b, c]) == XpOf(b) + XpOf(c) by { assert [b, c][1..] == [c]; }
    assert TotalXp([a, b]) == XpOf(a) + XpOf(b) by { assert [a, b][1..] == [b]; }
    assert [a, b, c][1..] == [b, c];
  }

  /** No event bypasses the store when awarding XP. */
  predicate StoreOnly(es: seq<Event>)
  {
    forall i :: 0 <= i < |es| ==> !es[i].AddXpDirect?
  }

  /** Every event keeps the cached progress in agreement with the persisted
      row, except a direct XP award. */
  lemma StepKeepsProgressInSync(w: World, e: Event)
    requires ProgressInSync(w)
    requires !e.AddXpDirect?
    ensures ProgressInSync(Step(w, e))
    ensures Step(w, e).db.progress.value.totalXp == w.db.progress.value.totalXp + XpOf(e)
    ensures Step(w, e).db.progress.value.totalCredits == w.db.progress.value.totalCredits + CreditsOf(e)
  {
  }

  /** As long as every award goes through the store and the cache starts in
      agreement with the persisted row, no award is lost: the persisted
      totals grow by exactly the XP and credits awarded. */
  lemma {:induction false} StoreOnlyConservesXp(w: World, es: seq<Event>)
    requires ProgressInSync(w)
    requires StoreOnly(es)
    ensures ProgressInSync(Run(w, es))
    ensures Run(w, es).db.progress.value.totalXp == w.db.progress.value.totalXp + TotalXp(es)
    ensures Run(w, es).db.progress.value.totalCredits == w.db.progress.value.totalCredits + TotalCredits(es)
    decreases |es|
  {
    if es != [] {
      StepKeepsProgressInSync(w, es[0]);
      assert StoreOnly(es[1..]) by {
        forall i | 0 <= i < |es[1..]| ensures !es[1..][i].AddXpDirect? {
          assert es[1..][i] == es[i + 1];
        }
      }
      StoreOnlyConservesXp(Step(w, es[0]), es[1..]);
    }
  }

  /** As written: a direct award followed by a store award, with no refresh
      in between, loses the direct award (20 + 30 awarded, 30 stored). */
  lemma DirectXpThenReportIsLost()
    ensures var p := Progress(0, 0, 0, None);
            var w := World(Db(None, Some(p), [], map[], None), Cache(None, Some(p), [], English, false));
            var after := Run(w, [AddXpDirect(20), ReportProgress(30, 0)]);
            after.db.progress == Some(p.(totalXp := 30))
  {
    var p := Progress(0, 0, 0, None);
    var w := World(Db(None, Some(p), [], map[], None), Cache(None, Some(p), [], English, false));
    var w1 := Step(w, AddXpDirect(20));
    assert w1.db.progress == Some(p.(totalXp := 20));
    assert Run(w, [AddXpDirect(20), ReportProgress(30, 0)]) == Run(w1, [ReportProgress(30, 0)]);
  }

  /** The corrected `updateProgress`: the new totals are computed from the
      persisted row, and the row written replaces the cache. */
  function UpdateProgressFresh(w: World, xp: int, credits: int): (w': World)
    ensures w.db.progress.None? ==> w' == w
    ensures w.db.progress.Some? ==>
      && ProgressInSync(w')
      && w'.db.progress.value.totalXp == w.db.progress.value.totalXp + xp
      && w'.db.progress.value.totalCredits == w.db.progress.value.totalCredits + credits
    ensures w'.db.(progress := w.db.progress) == w.db
  {
    match w.db.progress
    case None => w
    case Some(row) =>
      var written := row.(totalXp := row.totalXp + xp, totalCredits := row.totalCredits + credits);
      World(w.db.(progress := Some(written)), w.cache.(progress := Some(written)))
  }

  /** The corrected step: only `ReportProgress` differs from `Step`. */
  function StepFresh(w: World, e: Event): World
  {
    if e.ReportProgress? then UpdateProgressFresh(w, e.xp, e.credits) else Step(w, e)
  }

  function RunFresh(w: World, es: seq<Event>): World
    decreases |es|
  {
    if es == [] then w else RunFresh(StepFresh(w, es[0]), es[1..])
  }

  /** With the corrected step, every award reaches the persisted totals,
      whatever the mix of direct and store awards and whatever the cache
      holds. */
  lemma {:induction false} FreshConservesXp(w: World, es: seq<Event>)
    requires w.db.progress.Some?
    ensures RunFresh(w, es).db.progress.Some?
    ensures RunFresh(w, es).db.progress.value.totalXp == w.db.progress.value.totalXp + TotalXp(es)
    ensures RunFresh(w, es).db.progress.value.totalCredits == w.db.progress.value.totalCredits + TotalCredits(es)
    decreases |es|
  {
    if es != [] {
      var w1 := StepFresh(w, es[0]);
      assert w1.db.progress.Some?;
      assert w1.db.progress.value.totalXp == w.db.progress.value.totalXp + XpOf(es[0]);
      assert w1.db.progress.value.totalCredits == w.db.progress.value.totalCredits + CreditsOf(es[0]);
      FreshConservesXp(w1, es[1..]);
    }
  }

  /** On the counterexample above the corrected step stores both awards. */
  lemma DirectXpThenReportIsKeptFresh()
    ensures var p := Progress(0, 0, 0, None);
            var w := World(Db(None, Some(p), [], map[], None), Cache(None, Some(p), [], English, false));
            RunFresh(w, [AddXpDirect(20), ReportProgress(30, 0)]).db.progress.value.totalXp == 50
  {
    var p := Progress(0, 0, 0, None);
    var w := World(Db(None, Some(p), [], map[], None), Cache(None, Some(p), [], English, false));
    FreshConservesXp(w, [AddXpDirect(20), ReportProgress(30, 0)]);
  }
}

=== FILE: user_store.dfy ===
/** The client-side user store: a cache of the signed-in user's profile,
    progress and badges, and the actions that read and write the persisted
    rows through it.  Each action is modelled as one step on a `World`, the
    pair of persisted rows and cache, with the awaits of one action taken in
    order and no other action in between. */
module UserStore {
  import opened Basics
  import opened Backend

  datatype Cache = Cache(
    profile: Option<Profile>,
    progress: Option<Progress>,
    badges: seq<Badge>,
    language: Language,
    loading: bool)

  /** The persisted rows together with the store that mirrors them. */
  datatype World = World(db: Db, cache: Cache)

  /** The store before anything is fetched. */
  const InitialCache: Cache := Cache(None, None, [], English, false)

  /** The cache shows exactly what is persisted. */
  predicate Mirrors(w: World)
  {
    w.cache.profile == w.db.profile && w.cache.progress == w.db.progress && w.cache.badges == w.db.badges
  }

  /** The cached progress row exists and agrees with the persisted one. */
  predicate ProgressInSync(w: World)
  {
    w.cache.progress.Some? && w.cache.progress == w.db.progress
  }

  /** `setLanguage`: switches the cached language.  The profile update it
      starts is never awaited, so the persisted row is left as it was. */
  function SetLanguage(w: World, lang: Language): (w': World)
    ensures w'.cache.language == lang
    ensures w'.db == w.db
    ensures w'.cache.(language := w.cache.language) == w.cache
  {
    w.(cache := w.cache.(language := lang))
  }

  /** `fetchUserData`: the three queries, then one `set` in which missing
      rows default (no badges, English). */
  function FetchUserData(w: World): (w': World)
    ensures w'.db == w.db
    ensures Mirrors(w')
    ensures !w'.cache.loading
    ensures w.db.profile.Some? ==> w'.cache.language == w.db.profile.value.language
    ensures w.db.profile.None? ==> w'.cache.language == English
  {
    var lang := if w.db.profile.Some? then w.db.profile.value.language else English;
    w.(cache := Cache(w.db.profile, w.db.progress, w.db.badges, lang, false))
  }

  /** `updateProgress(xp, credits)`: the new totals are computed from the
      CACHED row, written to the persisted row, and the row that comes back
      replaces the cache.  Without a cached row it returns at once; when the
      persisted row is missing no data comes back and nothing changes. */
  function UpdateProgress(w: World, xp: int, credits: int): (w': World)
    ensures w.cache.progress.None? || w.db.progress.None? ==> w' == w
    ensures w.cache.progress.Some? && w.db.progress.Some? ==>
      && ProgressInSync(w')
      && w'.db.progress.value.totalXp == w.cache.progress.value.totalXp + xp
      && w'.db.progress.value.totalCredits == w.cache.progress.value.totalCredits + credits
      && w'.db.progress.value.currentStreak == w.db.progress.value.currentStreak
      && w'.db.progress.value.lastLogin == w.db.progress.value.lastLogin
    ensures w'.db.(progress := w.db.progress) == w.db
    ensures w'.cache.(progress := w.cache.progress) == w.cache
  {
    match w.cache.progress
    case None => w
    case Some(p) =>
      match w.db.progress
      case None => w
      case Some(row) =>
        var written := row.(totalXp := p.totalXp + xp, totalCredits := p.totalCredits + credits);
        World(w.db.(progress := Some(written)), w.cache.(progress := Some(written)))
  }

  datatype Delta = Delta(xp: int, credits: int)

  function XpSum(ds: seq<Delta>): int
  {
    if ds == [] then 0 else ds[0].xp + XpSum(ds[1..])
  }

  function CreditSum(ds: seq<Delta>): int
  {
    if ds == [] then 0 else ds[0].credits + CreditSum(ds[1..])
  }

  /** `updateProgress` called once per delta, each call finishing before the
      next starts. */
  function UpdateAll(w: World, ds: seq<Delta>): World
    decreases |ds|
  {
    if ds == [] then w else UpdateAll(UpdateProgress(w, ds[0].xp, ds[0].credits), ds[1..])
  }

  /** While the cache agrees with the persisted row, a run of
      `updateProgress` calls adds up: the persisted totals grow by exactly
      the sums of the deltas, and the cache still agrees afterwards. */
  lemma {:induction false} UpdatesAccumulate(w: World, ds: seq<Delta>)
    requires ProgressInSync(w)
    ensures ProgressInSync(UpdateAll(w, ds))
    ensures UpdateAll(w, ds).db.progress.value.totalXp == w.db.progress.value.totalXp + XpSum(ds)
    ensures UpdateAll(w, ds).db.progress.value.totalCredits == w.db.progress.value.totalCredits + CreditSum(ds)
    decreases |ds|
  {
    if ds != [] {
      UpdatesAccumulate(UpdateProgress(w, ds[0].xp, ds[0].credits), ds[1..]);
    }
  }

  /** `addBadge(name, module)`: needs a cached profile; a pair already in the
      cached list is not inserted again; a successful insert is prepended to
      the cached list, a failed one leaves everything unchanged. */
  function AddBadge(w: World, name: string, moduleName: string): (w': World)
    ensures var b := Badge(name, moduleName);
      && (w.cache.profile.None? || b in w.cache.badges ==> w' == w)
      && (w.cache.profile.Some? && b !in w.cache.badges && b in w.db.badges ==> w' == w)
      && (w.cache.profile.Some? && b !in w.db.badges && b !in w.cache.badges ==>
            w' == World(w.db.(badges := [b] + w.db.badges), w.cache.(badges := [b] + w.cache.badges)))
  {
    var b := Badge(name, moduleName);
    if w.cache.profile.None? || b in w.cache.badges then w
    else
      match InsertBadge(w.db, b)
      case DuplicateKey => w
      case Inserted(d) => World(d, w.cache.(badges := [b] + w.cache.badges))
  }

  /** Granting a badge twice is the same as granting it once. */
  lemma AddBadgeIdempotent(w: World, name: string, moduleName: string)
    ensures AddBadge(AddBadge(w, name, moduleName), name, moduleName) == AddBadge(w, name, moduleName)
  {
  }

  function AddBadgeTimes(w: World, b: Badge, k: nat): World
    decreases k
  {
    if k == 0 then w else AddBadgeTimes(AddBadge(w, b.badgeName, b.moduleName), b, k - 1)
  }

  /** With a profile and a badge list that mirrors the persisted one, any
      positive number of grants of one badge leaves exactly one copy of it in
      both lists, which still agree. */
  lemma {:induction false} GrantsLeaveOneCopy(w: World, b: Badge, k: nat)
    requires w.cache.profile.Some?
    requires w.cache.badges == w.db.badges
    requires multiset(w.db.badges)[b] <= 1
    requires k >= 1
    decreases k
    ensures AddBadgeTimes(w, b, k).cache.badges == AddBadgeTimes(w, b, k).db.badges
    ensures multiset(AddBadgeTimes(w, b, k).db.badges)[b] == 1
  {
    var w1 := AddBadge(w, b.badgeName, b.moduleName);
    assert b in w1.db.badges && w1.cache.badges == w1.db.badges && w1.cache.profile.Some?;
    assert multiset(w1.db.badges)[b] == 1 by {
      if b !in w.db.badges {
        assert w1.db.badges == [b] + w.db.badges;
      }
    }
    if k > 1 {
      GrantsLeaveOneCopy(w1, b, k - 1);
    }
  }

  /** The streak rule of `updateStreak`: no previous login starts a streak
      of 1, a login yesterday extends it, a login today keeps it, and any
      other previous login restarts it at 1. */
  function NextStreak(streak: int, lastLogin: Option<int>, today: int): int
  {
    if lastLogin.None? then 1
    else if lastLogin.value == today - 1 then streak + 1
    else if lastLogin.value != today then 1
    else streak
  }

  /** `updateStreak(today)`: the streak is computed from the CACHED row and
      written together with `last_login = today`; the returned row replaces
      the cache. */
  function UpdateStreak(w: World, today: int): (w': World)
    ensures w.cache.progress.None? || w.db.progress.None? ==> w' == w
    ensures w.cache.progress.Some? && w.db.progress.Some? ==>
      && ProgressInSync(w')
      && w'.db.progress.value.lastLogin == Some(today)
      && w'.db.progress.value.currentStreak
           == NextStreak(w.cache.progress.value.currentStreak, w.cache.progress.value.lastLogin, today)
      && w'.db.progress.value.totalXp == w.db.progress.value.totalXp
      && w'.db.progress.value.totalCredits == w.db.progress.value.totalCredits
    ensures w'.db.(progress := w.db.progress) == w.db
    ensures w'.cache.(progress := w.cache.progress) == w.cache
  {
    match w.cache.progress
    case None => w
    case Some(p) =>
      match w.db.progress
      case None => w
      case Some(row) =>
        var written := row.(currentStreak := NextStreak(p.currentStreak, p.lastLogin, today), lastLogin := Some(today));
        World(w.db.(progress := Some(written)), w.cache.(progress := Some(written)))
  }

  /** A second visit on the same day changes nothing. */
  lemma UpdateStreakIdempotent(w: World, today: int)
    ensures UpdateStreak(UpdateStreak(w, today), today) == UpdateStreak(w, today)
  {
  }

  /** Daily visits on the given days, in order, each awaited. */
  function Visits(w: World, days: seq<int>): World
    decreases |days|
  {
    if days == [] then w else UpdateStreak(Visits(w, days[..|days| - 1]), days[|days| - 1])
  }

  /** The reference meaning of a streak: the number of distinct consecutive
      days at the end of a visit history (repeat visits on one day count
      once; a gap or a step back in time starts over). */
  function TrailingRun(days: seq<int>): nat
    decreases |days|
  {
    if |days| <= 1 then |days|
    else
      var last := days[|days| - 1];
      var prev := days[|days| - 2];
      var before := TrailingRun(days[..|days| - 1]);
      if last == prev then before
      else if last == prev + 1 then before + 1
      else 1
  }

  /** Starting from a user who has never logged in, the stored streak after
      any non-empty visit history is the length of its trailing run of
      consecutive days. */
  lemma {:induction false} StreakIsTrailingRun(w: World, days: seq<int>)
    requires ProgressInSync(w)
    requires w.cache.progress.value.lastLogin.None?
    requires |days| >= 1
    ensures ProgressInSync(Visits(w, days))
    ensures Visits(w, days).db.progress.value.currentStreak == TrailingRun(days)
    ensures Visits(w, days).db.progress.value.lastLogin == Some(days[|days| - 1])
    decreases |days|
  {
    if |days| > 1 {
      var prefix := days[..|days| - 1];
      StreakIsTrailingRun(w, prefix);
      assert prefix[..|prefix| - 1] == days[..|days| - 2];
      assert prefix[|prefix| - 1] == days[|days| - 2];
    } else {
      assert days[..0] == [];
    }
  }

  /** `k` visits on consecutive days make a streak of `k`. */
  lemma {:induction false} ConsecutiveDaysRun(start: int, k: nat)
    requires k >= 1
    ensures TrailingRun(seq(k, i => start + i)) == k
  {
    if k > 1 {
      var days := seq(k, i => start + i);
      assert days[..k - 1] == seq(k - 1, i => start + i);
      ConsecutiveDaysRun(start, k - 1);
    }
  }
}
